=== FILE: README.md ===
# vision-box wallet core, modelled in Dafny

vision-box is a desktop wallet for the MVC chain. The user keeps an encrypted account file. It
holds HD wallets (from a mnemonic, an xprv or an xpub) and single-key wallets (a WIF, a public
key or a watch-only address). This project models the core of the wallet:

- the account file's encryption;
- the validators for keys and addresses;
- the account window's list of wallets, and how text is imported as a wallet;
- the wallet window: its receive-address cursor, the unspent and token tables, and the send
  request it builds;
- the address book ("keys" window) of an HD wallet;
- the coin and token send forms: the recipients grammar, the totals, the amount field and the
  send outcomes;
- the bridge to the JavaScript token contract, and the contract's merge-then-transfer script;
- the HD-wallet, password and text-input dialogs.

Every module matches one source file:

| module | file |
|---|---|
| `Utils` | `src/utils.py` |
| `Hd` | `src/hd.py` |
| `Base` | `src/base.py` |
| `Account` | `src/account.py` |
| `Wallet` | `src/wallet.py` |
| `Keys` | `src/keys.py` |
| `Receivers`, `ReceiverList` | the parts `src/send_unspents.py` and `src/send_ft.py` share |
| `SendUnspents` | `src/send_unspents.py` |
| `SendFt` | `src/send_ft.py` |
| `Contract` | `src/contract.py` |
| `MetaContract` | `src/contract/meta-contract.js` |
| `SetPassword` | `src/set_password.py` |
| `InputDialog` | `src/input_dialog.py` |

Three modules are shared by the others:

- `Model` holds the values the wallet passes around.
- `PyText` holds the Python string behaviour the code relies on: `str.strip`, `str(int)`,
  `int(str)` (underscore digit groups included) and `str.zfill`.
- `Mvclib` holds the chain library. Its functions are values of a record, `Library`, passed
  as a parameter. These are hashing, AES, key decoding, address validation and child
  derivation. A lemma that needs one of the library's promises, such as "decrypt undoes
  encrypt", takes that promise as a `requires`.

Python exceptions inside a Qt slot end the slot. Methods that can hit one return
`raised: bool` or an `Option`, and their contract says what state is left.

Widgets whose fields the source updates in place are classes:

- `Account.AccountWindow` and `Account.WalletListModel`;
- `Wallet.WalletView`;
- `Keys.KeysView` and `Keys.XkeyModel`;
- `Base.UnspentModel` and `Base.FtModel`;
- the send forms;
- `Contract.CallbackTable`;
- the two dialogs.

Values and pure logic are datatypes and functions.

## Model

| member | source | states |
|---|---|---|
| Utils.KeyIv | src/utils.py:20-21 | key and iv are the two halves of sha256(utf-8 password), 16 bytes each for a 32-byte digest |
| Utils.EncryptAccount | src/utils.py:19-23 | the file is AES of the UTF-8 JSON of the account under the password's key and iv |
| Utils.DecryptAccount | src/utils.py:26-30 | an account is produced only when AES decryption under the password's key succeeds |
| Utils.AccountRoundTrip | src/utils.py:19-40 | decrypting what was encrypted with the same password gives the account back, given that AES, UTF-8 and JSON round-trip |
| Utils.ChainCheck | src/utils.py:56-57 | with no chain wanted, any decodable key passes; with a chain, only a key of that chain passes |
| Utils.XprvValid | src/utils.py:53-59 | true iff the xprv decodes and, when a chain is given, belongs to it |
| Utils.XpubValid | src/utils.py:62-68 | true iff the xpub decodes and, when a chain is given, belongs to it |
| Utils.WifValid | src/utils.py:71-79 | valid iff the WIF decodes and matches the compression and the chain whenever they are asked |
| Utils.AddressValid | src/utils.py:82-88 | true iff the address decodes and, when a chain is given, belongs to it |
| Utils.PkValid | src/utils.py:91-95 | true iff the public key parses |
| Utils.ChainNarrows | src/utils.py:53-88 | passing with a chain implies passing without one; no key passes for two chains |
| Utils.WifNarrows | src/utils.py:71-79 | a WIF valid under constraints is valid without them; a main-chain WIF is not a test-chain WIF |
| Utils.SplitLinesWithoutBlank | src/send_unspents.py:50 | the lines kept have no line break and are not blank |
| Utils.SplitJoinedLines | src/send_unspents.py:55 | splitting lines joined by "\n" gives the same non-blank lines back |
| Utils.DropBlankKeeps | src/send_unspents.py:67 | no non-blank line is dropped |
| Hd.RenderSegmentsValid | src/hd.py:44-46 | every path written as `m` and one or more `/digits` with an optional `'` passes the path check |
| Hd.Decompose | src/hd.py:44-46 | every text that passes the path check is such a sequence of segments |
| Hd.PathSegments | src/hd.py:44-46 | a valid path text, once stripped, is exactly `m` and its segments rendered |
| Hd.RenderPathValid | src/hd.py:44-46 | surrounding a rendered path with whitespace keeps it valid |
| Hd.PathValidPadded | src/hd.py:45 | surrounding whitespace changes nothing about validity |
| Hd.SegmentsValidLength | src/hd.py:45 | a valid path has at least one segment, so at least two characters |
| Hd.QuoteEndsSegment | src/hd.py:45 | in a valid path a hardened mark is always followed by `/` or the end |
| Hd.DoubledQuoteRejected | src/hd.py:45 | `''` anywhere in the stripped text makes the path invalid |
| Hd.OkRecord | src/hd.py:48-53 | the emitted mnemonic is the stripped text; path and passphrase are emitted exactly as typed |
| Hd.OkRecordValid | src/hd.py:35-53 | when OK is enabled, the emitted record has a valid mnemonic and a valid path |
| HdExamples.PathExampleAccepted | src/hd.py:45 | `m/44'/0'/0'` is a valid path |
| HdExamples.PathExamplesTooShort | src/hd.py:45 | `m` and `m/` are not valid paths |
| HdExamples.PathExampleLetter | src/hd.py:45 | `m/a` is not a valid path |
| Base.SelectChain | src/base.py:32-37 | nothing when the dialog is cancelled; the test chain iff the test label was picked, otherwise the main chain |
| Base.SelectChainLabels | src/base.py:33-36 | each of the two labels selects its own chain |
| Base.IntToStringRoundTrip | src/base.py:77 | `int` reads back the height cell `str` wrote, negative heights included |
| Base.LexLeqTotal | src/base.py:99 | string order is total |
| Base.LexLeqTrans | src/base.py:99 | string order is transitive |
| Base.InOrderTotal | src/base.py:98-99 | the sort key order, ascending or descending, is total |
| Base.InOrderTrans | src/base.py:98-99 | the sort key order is transitive |
| Base.Insert | src/base.py:99 | inserting adds exactly that one element |
| Base.InsertSorted | src/base.py:99 | inserting into a sorted list keeps it sorted |
| Base.SortBy | src/base.py:98-100 | the result is a permutation of the input, ordered by the key |
| Base.PyIndex | src/base.py:104 | a Python index is accepted iff -n <= i < n, and names either i or i + n |
| Base.UnspentRows | src/base.py:75-77 | one table row per unspent |
| Base.UnspentItemValue | src/base.py:102-104 | a sort key exists iff the column is in -4..3 |
| Base.UnspentKeysMatchCells | src/base.py:77-104 | each column's sort key is the value its cell shows; column -1 is the amount |
| Base.UnspentModel.constructor | src/base.py:68-72 | the model holds the given list, or nothing for None, and its rows |
| Base.UnspentModel.Refresh | src/base.py:75-79 | the model holds the given list, or nothing for None, and its rows |
| Base.UnspentModel.Sort | src/base.py:98-100 | raises iff there are rows and the column is out of range, leaving the model unchanged; otherwise a permutation sorted by that column |
| PyText.ParseIntUnderscore | src/base.py:151 | `int` ignores an underscore between two digits, so "1_000" reads as 1000 |
| Base.TokenTotal | src/base.py:121-151 | the total exists iff both balance strings parse as integers |
| Base.TokenTotalOfBalances | src/base.py:121 | the total of two rendered balances is their sum |
| Base.TokenTotalOf | src/base.py:121-151 | the total is the sum of the two parsed balances |
| Base.FtRowOf | src/base.py:119-122 | a token row exists iff its total does |
| Base.UntilNone | src/base.py:118-122 | the rows built before the first failure, in order |
| Base.UntilNoneComplete | src/base.py:118-122 | every row is built iff no element fails |
| Base.FtRowsComplete | src/base.py:115-122 | the table is complete iff every token's balances parse |
| Base.FtItemValue | src/base.py:147-151 | columns below 4 give the text and count cells (within -4..3); 4 and above give the total, which exists iff the balances parse |
| Base.FtKeysMatchCells | src/base.py:120-151 | each column's sort key is the value its cell shows |
| Base.FtModel.constructor | src/base.py:108-112 | an empty model |
| Base.FtModel.Refresh | src/base.py:115-124 | the model holds the list and the rows built before the first bad balance; raises iff some balance does not parse |
| Base.FtModel.Sort | src/base.py:143-145 | when a key fails, raises and changes nothing; otherwise a permutation sorted by the column, then refreshed |
| Base.RowSet | src/base.py:156 | the set of selected rows is exactly the rows of the selected cells |
| Base.DistinctRows | src/base.py:156 | each selected row once, ascending; empty iff nothing is selected |
| Base.CopyTableSelected | src/base.py:154-160 | nothing is copied iff nothing is selected |
| Base.CopyOneLinePerRow | src/base.py:156-157 | one line per distinct selected row, each the row's cells joined by the separator |
| Base.PickRows | src/wallet.py:159-163 | the loop picks the items of the given rows, in order |
| Base.PickedSelection | src/wallet.py:159-163 | the items picked depend only on which rows are selected; every selected item is picked and nothing else |
| Base.AscendingLength | src/base.py:156 | an ascending list of rows below n has at most n rows |
| Account.HdEntry | src/account.py:153-155 | a new HD entry is named "HD Wallet n+1", has cursor 0, receive limit 150 and change limit 50, and carries the backup, xprv or xpub given |
| Account.KeyEntry | src/account.py:157-159 | a new key entry is named "Wallet n+1" and carries the WIF, public key and address, or address given |
| Account.NewEntryNames | src/account.py:153-159 | new entries at different positions get different names, and HD names never equal key names |
| Account.Classify | src/account.py:139-151 | the import kind is decided by prefix in the order xprv, xpub, WIF, public key, otherwise address |
| Account.ClassifyXprv | src/account.py:141 | `xprv…` and `tprv…` import as xprv |
| Account.ClassifyXpub | src/account.py:143 | `xpub…` and `tpub…` import as xpub |
| Account.ClassifyWif | src/account.py:145 | texts starting with L, K, 5, c or 9 import as WIF |
| Account.ClassifyPk | src/account.py:147 | `02`, `03`, `04` import as a public key |
| Account.ClassifyAddress | src/account.py:150 | any other first character, and the empty text, import as an address |
| Account.ImportTextValidDecodes | src/account.py:135-137 | the import text is accepted iff it decodes as an xprv, xpub, WIF, address or public key |
| Account.Field | src/account.py:222-236 | the name field is always present |
| Account.DetailOf | src/account.py:222-236 | the information shown follows the first present, non-empty field among mnemonic, xprv, xpub, wif, pk, address; a missing field the branch reads raises |
| Account.DetailOfEntries | src/account.py:222-236 | each kind of entry shows its own secret; a mnemonic entry without an xprv raises |
| Account.Labels | src/account.py:27-29 | one label per wallet |
| Account.LabelsShowNames | src/account.py:27-29 | each label is two spaces and the wallet's name |
| Account.WalletListModel.constructor | src/account.py:19-29 | the model holds the given list, or nothing for None, and its labels |
| Account.WalletListModel.UpdateFields | src/account.py:27-29 | the model holds the given list, or nothing for None, and its labels |
| Account.WrapIndex | src/account.py:100-107 | an index is chosen iff there are rows, and it is in range |
| Account.WrapIndexCases | src/account.py:100-107 | indices in range are kept, -1 wraps to the last row, and adding the row count changes nothing |
| Account.AccountWindow.constructor | src/account.py:71-79 | the window lists the account and selects the first wallet when there is one |
| Account.AccountWindow.SelectWalletInList | src/account.py:100-107 | the selection wraps the index around the row count; nothing changes with no rows |
| Account.AccountWindow.AddWallet | src/account.py:161-179 | the wallet is appended, written and listed, the others unchanged; building its wallet view raises iff the entry has no xprv, and otherwise the new last row is selected |
| Account.AccountWindow.AddHd | src/account.py:153-155 | appends the new HD entry for the next position; it is selected for an imported xprv, and any other HD entry raises with the selection kept |
| Account.AccountWindow.AddKey | src/account.py:157-159 | appends the new key entry for the next position, then raises with the selection kept, as a key has no xprv |
| Account.AccountWindow.ImportWallet | src/account.py:139-151 | appends the entry the text's kind calls for, a public key only with a chosen chain and a readable key; it raises iff the text is not an xprv and was not a cancelled public key, and the new row is selected only when it does not raise |
| Account.AccountWindow.WalletUpdated | src/account.py:181-183 | replaces the entry at the Python index, persists the account and the list model sees it, with its row texts kept; raises, changing nothing, when the index is out of range; the window stays valid when the entry keeps its name |
| Account.AccountWindow.UpdatedKeepsLabels | src/account.py:181-183 | replacing an entry by one with the same name keeps the list's labels |
| Account.AccountWindow.RenameWallet | src/account.py:214-220 | always raises: IndexError with nothing selected, changing nothing; otherwise AttributeError after renaming only the selected wallet, writing and refreshing, with the selection kept |
| Mvclib.DeriveRange | src/keys.py:69-70 | child keys start..end-1 of one branch, in order |
| Mvclib.DeriveRangeSplit | src/keys.py:69-70 | deriving a range in two parts gives the same keys as deriving it at once |
| Wallet.ReceiveAddress | src/wallet.py:75 | the receive address is branch 0, child i, of the wallet's xprv |
| Wallet.RotatedClosedForm | src/wallet.py:114-118 | stepping the cursor n times lands on (i + n) mod limit |
| Wallet.RotationVisitsAll | src/wallet.py:114-118 | stepping limit times returns to the start, and every address below the limit is reached |
| Wallet.MovedCursor | src/wallet.py:114-118 | only the cursor of the entry changes |
| Wallet.RefreshSorted | src/wallet.py:140-142 | the table holds a permutation of the unspents, by ascending height, with the same total |
| Wallet.UnspentTitle | src/wallet.py:143 | "UTXO" for no unspents, otherwise "UTXO（n）" |
| Wallet.FtTitle | src/wallet.py:172 | "Token" for no tokens, otherwise "Token（n）" |
| Wallet.TitleCounts | src/wallet.py:143 | the number in a title is the count of rows |
| Wallet.WalletView.constructor | src/wallet.py:54-112 | the token address is child 0 of branch 0; the tables are empty and both send buttons disabled |
| Wallet.WalletView.ChangeReceiveAddress | src/wallet.py:114-118 | the cursor moves one step round the receive limit and the updated entry is emitted; with limit 0 nothing is emitted |
| Wallet.WalletView.RefreshUnspentTableAndBalance | src/wallet.py:138-146 | with data, the sorted table, the balance as its sum, the title and send enabled iff there are unspents; without, nothing changes |
| Wallet.WalletView.ShowSummary | src/wallet.py:142-144 | balance, title and send button follow the unspents |
| Wallet.WalletView.RefreshFtTable | src/wallet.py:168-173 | without data, reports the network down and keeps the table; with data, raises iff some balance does not parse, leaving the given list, the rows built before the failure and the old title; otherwise a sorted permutation and its title |
| Wallet.WalletView.UnspentsSelected | src/wallet.py:159-163 | the unspents of the distinct selected rows, in row order |
| Wallet.WalletView.UnspentSendButtonClicked | src/wallet.py:148-157 | no request with change limit 0; otherwise the selection (everything when nothing is selected), change to the picked branch-1 address, combining iff there is a selection |
| Wallet.WalletView.FtsSelected | src/wallet.py:181-185 | the tokens of the distinct selected rows |
| Wallet.WalletView.EnableFtSendButton | src/wallet.py:165-166 | token send is enabled iff some row is selected |
| Wallet.AllRowsPermutation | src/wallet.py:168-173 | whether every balance parses does not depend on the order |
| Keys.SumSatoshiConcat | src/keys.py:30 | the satoshi sum is additive |
| Keys.SumSatoshiPermutation | src/wallet.py:143 | the satoshi sum does not depend on the order |
| Keys.AtAddresses | src/keys.py:30-31 | the unspents held at the given addresses never outnumber all unspents |
| Keys.AtAddressesConcat | src/keys.py:30-31 | filtering keeps the order |
| Keys.AtAddressesMembers | src/keys.py:132-139 | an unspent is kept iff it is at one of the addresses |
| Keys.AddressTotals | src/keys.py:30-31 | an address's balance and UTXO count are those of its unspents |
| Keys.AddressBalanceBound | src/keys.py:30-31 | no address holds more than the total or more UTXOs than there are |
| Keys.SelectAtAddresses | src/keys.py:132-139 | the loop keeps exactly the unspents at the addresses, in order |
| Keys.IndexDigitsValue | src/keys.py:29 | the index is padded to the width of the count and still reads as the index |
| Keys.DigitsOrder | src/keys.py:29 | equal-width digit strings sort as their values do |
| Keys.LexLeqPrefix | src/keys.py:29 | a common prefix keeps the order |
| Keys.PathOrder | src/keys.py:29 | path labels sort as the indices do, and different indices get different labels |
| Keys.XkeyRows | src/keys.py:25-34 | one row per derived key |
| Keys.XkeyRowsShow | src/keys.py:25-34 | each row shows its key's address and public key, its UTXO count and balance, and the paths are in index order |
| Keys.BuildXkeyRows | src/keys.py:25-34 | the loop builds those rows |
| Keys.XkeyModel.constructor | src/keys.py:16-23 | the model holds the keys and the unspents, and its rows are built from them |
| Keys.XkeyModel.Refresh | src/keys.py:25-34 | the rows are rebuilt from the new unspents |
| Keys.KeysXkey | src/keys.py:62-66 | a non-empty, decodable xprv gives Xprv; otherwise a decodable xpub gives Xpub; anything else has no key |
| Keys.KeysView.constructor | src/keys.py:57-108 | receive and change keys are the derived ranges of branches 0 and 1 up to the limits; the title names the wallet; both send buttons are disabled |
| Keys.KeysView.UnspentsSelected | src/keys.py:132-139 | the unspents held at the addresses of the selected rows |
| Keys.KeysView.EnableReceiveSendButton | src/keys.py:110-111 | enabled iff the selection holds unspents and the key is an xprv |
| Keys.KeysView.EnableChangeSendButton | src/keys.py:113-114 | enabled iff the selection holds unspents and the key is an xprv |
| Keys.KeysView.Refresh | src/keys.py:116-130 | updates only what is given; new unspents rebuild both tables and disable both send buttons |
| Keys.KeysView.SendButtonClicked | src/keys.py:141-147 | no request without change keys; otherwise the selected unspents, change to the picked branch-1 address, combined |
| Keys.PickedAddresses | src/keys.py:134-138 | an address is picked iff some selected row shows it |
| Keys.SelectedUnspentsMembers | src/keys.py:132-139 | an unspent is selected iff it is held at a selected address; nothing is selected for an empty selection |
| Receivers.ParseDecimal | src/send_unspents.py:81 | `Decimal` accepts nothing blank |
| Receivers.DecimalOf | src/send_unspents.py:81 | a parsed decimal has fewer places than characters |
| Receivers.DecUnitsAligned | src/send_unspents.py:88 | an amount with at most d places converts to whole units, computed in exact arithmetic |
| Receivers.DecAdd | src/send_unspents.py:56 | the sum keeps the larger number of places |
| Receivers.DecUnitsAdd | src/send_unspents.py:56-88 | the units of a sum are the sum of the units |
| Receivers.DecSum | src/send_unspents.py:56 | the sum has as many places as its longest term |
| Receivers.DecSumUnits | src/send_unspents.py:56-88 | the units of the total equal the total of the units |
| Receivers.RenderDec | src/send_unspents.py:58 | `str` of a Decimal starts and ends with a digit |
| Receivers.ParseRenderDec | src/send_unspents.py:58-81 | `Decimal(str(x))` is x |
| Receivers.AmountTextDecimal | src/send_unspents.py:29 | an amount the pattern accepts parses with at most d places |
| Receivers.AmountTextChars | src/send_unspents.py:29 | an accepted amount has no space and no comma, and starts and ends with a digit |
| Receivers.AmountUnits | src/send_unspents.py:73-88 | the units are the amount scaled by 10^d, computed in exact arithmetic |
| Receivers.MatchTailSound | src/send_unspents.py:29 | a matched tail is well formed and reassembles to the text |
| Receivers.MatchLine | src/send_unspents.py:29 | when a line matches, the parts returned are well formed and reassemble exactly to the line |
| Receivers.MatchLineRender | src/send_unspents.py:29 | every well-formed recipient line matches with exactly its own parts |
| Receivers.MatchLineIff | src/send_unspents.py:29 | a line matches if and only if it is some well-formed recipient line written out |
| Receivers.AddressFound | src/send_unspents.py:29 | the backtracking match picks the address the line was written with |
| Receivers.LongerAddressesFail | src/send_unspents.py:29 | no longer address candidate leaves a valid tail |
| ReceiverList.Matches | src/send_unspents.py:55 | one match result per line |
| ReceiverList.Groups | src/send_unspents.py:55-71 | the groups, at most one per line, each well formed |
| ReceiverList.SomesAll | src/send_unspents.py:74 | as many groups as lines iff every line matches |
| ReceiverList.ReceiversValidIff | src/send_unspents.py:66-77 | the recipients are valid iff every line is a valid address and positive amount within the cap, or the text is one valid address |
| ReceiverList.GroupDecimal | src/send_unspents.py:56 | a group's amount parses with at most d places |
| ReceiverList.GroupsSumUnits | src/send_unspents.py:56-88 | the total shown converts to the sum of the amounts parsed |
| ReceiverList.TotalMatchesPairs | src/send_unspents.py:53-90 | a shown total parses and equals the sum the send uses |
| ReceiverList.GroupsTotalPositive | src/send_unspents.py:57 | valid recipients never add up to zero |
| ReceiverList.LineByLineGroups | src/send_unspents.py:71-74 | when every line is valid, the groups are the lines' own |
| ReceiverList.TotalShown | src/send_unspents.py:53-59 | valid recipient lines always show a total |
| ReceiverList.AmountFieldValid | src/send_unspents.py:79-81 | an empty field is invalid; `Decimal` raises only on a non-empty field it cannot parse |
| ReceiverList.AmountFieldUnits | src/send_unspents.py:79-81 | an amount is valid iff it converts to at least one unit |
| ReceiverList.TotalAmountValid | src/send_unspents.py:52-64 | the total put in the amount field is valid iff it is non-empty, so both handlers agree |
| ReceiverList.RenderedGroups | src/send_unspents.py:55 | the groups of rendered recipient lines are the recipients |
| ReceiverList.RenderedLineByLine | src/send_unspents.py:66-77 | rendered valid recipients within the cap are line-by-line valid |
| ReceiverList.RenderedParse | src/send_unspents.py:83-90 | parsing rendered recipients gives back their addresses and units |
| ReceiverList.RenderedValid | src/send_unspents.py:66-77 | rendered valid recipients are accepted |
| ReceiverList.RenderedTotal | src/send_unspents.py:53-90 | rendered valid recipients show a total equal to the units the send uses |
| SendUnspents.SendUnspentsForm.constructor | src/send_unspents.py:19-46 | empty fields; the amount field is read-only; Max and Send are disabled |
| SendUnspents.SendUnspentsForm.AmountTextChanged | src/send_unspents.py:63-64 | Send is enabled iff amount and recipients are valid; raises, keeping the state, when `Decimal` fails |
| SendUnspents.SendUnspentsForm.EditAmount | src/send_unspents.py:63-64 | the amount is typed and Send follows it |
| SendUnspents.SendUnspentsForm.MaxAmountClicked | src/send_unspents.py:109-111 | the field shows the spend-all change output as coins and Send follows it |
| SendUnspents.SendUnspentsForm.SetAmountText | src/send_unspents.py:59 | setting the field runs the amount handler |
| SendUnspents.SendUnspentsForm.ReceiversTextChanged | src/send_unspents.py:49-61 | raises iff the current amount does not parse, changing nothing; otherwise the amount shows the recipients' total, read-only with several lines or a total, Max only for one line without a total, Send iff the recipients are valid and the total is not empty |
| SendUnspents.SendUnspentsForm.EditReceivers | src/send_unspents.py:43 | editing the recipients box stores the text and runs the handler, with its contract |
| SendUnspents.SendUnspentsForm.ParseReceivers | src/send_unspents.py:83-90 | the recipients are the groups' addresses and units, or the single line with the amount field; raises when the field does not parse |
| SendUnspents.SendUnspentsForm.SendTransaction | src/send_unspents.py:92-107 | the parsed recipients are sent; the report follows the outcome; only a propagated transaction closes the form |
| SendUnspents.ReportOf | src/send_unspents.py:97-107 | each outcome gets its report; an insufficient-funds report carries the two numbers, and raises iff the message lacks them |
| SendUnspents.FirstInsufficient | src/send_unspents.py:103 | the search finds the first position where the message pattern matches |
| SendUnspents.ParseInsufficientMessage | src/send_unspents.py:103-104 | the required and available amounts are read back from the library's message |
| SendFt.FtReceiversOf | src/send_ft.py:84 | one token recipient per pair |
| SendFt.FtReceiversReadBack | src/send_ft.py:84 | each recipient keeps the address, and its amount string reads back as the units |
| SendFt.FtReceiversSnoc | src/send_ft.py:83-84 | appending a pair appends its recipient |
| SendFt.FtReceiversOfGroups | src/send_ft.py:83-84 | the loop builds exactly those recipients |
| SendFt.RenderedFtReceivers | src/send_ft.py:79-86 | rendered recipients parse back to their addresses and amounts in units |
| SendFt.CallbackReport | src/send_ft.py:103-114 | code 0 reports the txid; -200 and -201 report insufficient SPACE and token; other codes report the message; a missing key raises |
| SendFt.TransferReported | src/send_ft.py:103-114 | a completed transfer reports its txid; a failed one never reports success |
| SendFt.SendFtForm.constructor | src/send_ft.py:18-42 | empty fields; the amount field is read-only; Max and Send are disabled |
| SendFt.SendFtForm.AmountTextChanged | src/send_ft.py:59-60 | Send is enabled iff amount and recipients are valid; raises, keeping the state, when `Decimal` fails |
| SendFt.SendFtForm.EditAmount | src/send_ft.py:59-60 | the amount is typed and Send follows it |
| SendFt.SendFtForm.SetAmountText | src/send_ft.py:55 | setting the field runs the amount handler |
| SendFt.SendFtForm.ReceiversTextChanged | src/send_ft.py:45-57 | as the coin form, with at most 99 recipient lines |
| SendFt.SendFtForm.EditReceivers | src/send_ft.py:39 | editing the recipients box stores the text and runs the handler, with its contract |
| SendFt.SendFtForm.ParseReceivers | src/send_ft.py:79-86 | the token recipients with amounts as integer strings; raises when the amount field does not parse |
| SendFt.SendFtForm.SendFt | src/send_ft.py:88-101 | no gas stops the send; more than three unspents first merge them; otherwise a transfer with the token's parameters is started and its callback registered |
| SendFt.SendFtForm.SendFtCallback | src/send_ft.py:103-114 | the report follows the result, and only a success closes the form |
| SendFt.SendFtForm.MaxAmountClicked | src/send_ft.py:116-117 | the field shows the token total as coins; raises when a balance does not parse |
| Contract.Register | src/contract.py:65-68 | the id maps to the callback and every other entry is kept |
| Contract.Deliver | src/contract.py:52-57 | a known id yields its callback and is removed; an unknown id changes nothing |
| Contract.DeliverOnce | src/contract.py:52-68 | a registered callback is delivered once, then never again, and the other entries survive |
| Contract.CallbackTable.constructor | src/contract.py:38 | no callbacks |
| Contract.CallbackTable.RegisterCallback | src/contract.py:65-68 | registers the callback under the fresh id and returns it |
| Contract.CallbackTable.JsCallback | src/contract.py:52-57 | removes and returns the callback of the id, if any |
| Contract.FtTransferParams | src/contract.py:70-83 | mainnet or testnet by chain; the key pays and signs at fee rate 1; the token and recipients are passed through |
| Contract.NetworkNamesChain | src/contract.py:74 | the two chains get different network names |
| Contract.ParseLocalFileUrl | src/contract.py:22-27 | a match has the scheme; the extension is the file name's tail after its last dot |
| Contract.LocalFileUrlParts | src/contract.py:24-27 | a `local-file` URL gives back its file name and extension |
| MetaContract.MergeTarget | src/contract/meta-contract.js:5-12 | target 20 for at most 5 recipients, 8 for at most 12, otherwise 3 |
| MetaContract.MergeTargetMonotone | src/contract/meta-contract.js:5-12 | more recipients never raise the target |
| MetaContract.MergesClosedForm | src/contract/meta-contract.js:13-16 | the merges are ceil((count - target) / 19) above the target, none otherwise |
| MetaContract.MergesEnd | src/contract/meta-contract.js:13-16 | the merges bring the count to at most the target and stop at the first such step |
| MetaContract.FtTransfer | src/contract/meta-contract.js:1-23 | a failed merge stops before the transfer and reports its error; otherwise all merges run and the transfer's result is reported, under the request id |
| MetaContract.TransferResult | src/contract/meta-contract.js:17-21 | a transfer reports code 0 and its txid; an error reports its code and message |
| SetPassword.Edited | src/set_password.py:15-18 | the field keeps at most 150 printable non-space ASCII characters; an edit the validator refuses leaves it unchanged |
| SetPassword.FieldTextUnpadded | src/set_password.py:15-18 | a password the field accepts has no surrounding whitespace |
| SetPassword.SetPasswordForm.constructor | src/set_password.py:20 | empty fields; OK disabled |
| SetPassword.SetPasswordForm.EnableOkButton | src/set_password.py:26-28 | OK is enabled iff the password is non-empty and equals the confirmation |
| SetPassword.SetPasswordForm.EditPassword | src/set_password.py:15-28 | the password field takes the edit as the validator allows and OK follows |
| SetPassword.SetPasswordForm.EditConfirmation | src/set_password.py:15-28 | the confirmation field takes the edit as the validator allows and OK follows |
| SetPassword.SetPasswordForm.Accept | src/set_password.py:30-31 | a password is emitted iff OK is enabled; it equals both fields and is non-empty and valid |
| InputDialog.Cut | src/input_dialog.py:27 | the field keeps a prefix of at most 150 characters, all of a short text |
| InputDialog.BlankRefused | src/input_dialog.py:9-10 | whitespace-only text is blank |
| InputDialog.InputDialogForm.constructor | src/input_dialog.py:16-30 | empty text; OK disabled |
| InputDialog.InputDialogForm.Edit | src/input_dialog.py:32-33 | the text is cut to 150 characters and OK is enabled iff it passes the validator |
| InputDialog.InputDialogForm.Accept | src/input_dialog.py:45-46 | text is emitted iff OK is enabled; it is the stripped field and passes the validator |

## Left out

- File I/O (`write_account_file`, `read_account_file`), Qt widgets, dialogs, message boxes, fonts, geometry, clipboard, focus and threads. These are presentation only or effects outside the program.
- The chain library (`mvclib`): hashing, AES, key and address decoding, derivation, and building and broadcasting transactions. These are parameters, through `Mvclib.Library` and method arguments.
- The indexing service (`metasv`) and the `metaContract` JavaScript library. Their answers are method arguments.
- `format_coin`: it formats through floating point. It is a parameter wherever the model shows a formatted amount.
- Python's Unicode-aware `\d` matches digits beyond ASCII. Only ASCII digits are modelled.
- `Receivers.RenderDec`: `Decimal`'s 28-digit context precision and its exponent rendering (`1E-8`) are not modelled.
- `Receivers.DecAdd`: adds exactly. Python rounds a `Decimal` sum to 28 significant digits, and the recipients pattern does not bound an amount's integer part, so a sum of more than 28 significant digits would be rounded in the source.
- `Receivers.DecSum`: exact for the same reason as `Receivers.DecAdd`.
- `ReceiverList.GroupsSumUnits`: the shown total equals the sum of the units only with exact addition, as for `Receivers.DecAdd`.
- `Receivers.MatchLine`: the recipients pattern runs with `re.MULTILINE` over the lines joined by newlines. The model matches line by line. The two agree whenever every line matches on its own, which covers every text the validity check accepts.
- `SendFt.SendFtForm.constructor`: it requires a token with at least one decimal place. With 0 the source builds the pattern `\d{1,0}`, which does not compile.
- `Utils.SplitLinesWithoutBlank`: `splitlines_without_blank` is imported from `src/utils.py` but not defined in that file. The model splits as Python's `str.splitlines()` does and drops whitespace-only lines.
- `Account.AccountWindow.AddWallet`: of the wallet view that `add_wallet_widget` builds, only the KeyError on an entry without an xprv is modelled. Decoding the xprv, deriving its first key and the view's first refresh are taken to succeed, and the view's signal wiring is not modelled.
- `Account.AccountWindow.constructor`: the source runs `add_wallet_widget` for every stored entry before the list is built, which raises for an entry without an xprv. The model opens the window on any account.
- `uuid.uuid4` (request ids) and `random` (the change address) are parameters. Their callers must supply a fresh id and an index in range.
- `Base.DistinctRows`: it takes the selected rows in ascending order. The order of Python's set iteration is not modelled.
- `Base.SortBy`: it does not state that Python's sort is stable.
- `src/wallet.py:145` passes the unspent list positionally as `keys.refresh`'s password (`src/keys.py:116`). That call is not modelled; `Keys.KeysView.Refresh` takes the password, the entry and the unspents separately.
- `Wallet.WalletView`: it is built only for an entry carrying an xprv, as the source reads `xprv` without a default. It does not hold the address-book window. The account window and the wallet window share entries by aliasing; the model passes the updated entry back instead.
- `Keys.KeysView`: the proxy model's sorting and filtering, `clearSelection` and the send dialog are not modelled. Rows are given by the addresses they show.
- The account window's calls into other files do not match them, and these calls are not modelled:
  - `src/base.py` defines no `set_password`, which `src/account.py:10` imports.
  - `src/hd.py` defines no `Mode`, which `src/account.py:12` imports.
  - The `HdUi` constructor (`src/hd.py:15`) takes only `mnemonic`, `path`, `passphrase` and `readonly`. It is called with other arguments at `src/account.py:112` and `:124` (`chain`, `mode`), `:226` (`chain`), `:228` (`xprv`) and `:230` (`xpub`), each of which raises TypeError.
  - The dialog's signal is `mnemonic_path_passphrase_set`, whereas `src/account.py:114` and `:126` connect `mnemonic_set`.
- `Account.DetailOf`: its mnemonic, xprv and xpub branches give the dialog they open (`MnemonicDetail`, `XprvDetail`, `XpubDetail`). They do not model the TypeError that the `HdUi` constructor raises on those arguments (`src/account.py:226-230`). `Account.DetailOfEntries` inherits this.
- `Receivers.AmountUnits`: computes `int(Decimal(amount) * 10 ** d)` exactly. Python rounds the product to 28 significant digits, and neither amount pattern bounds the integer part. So an amount whose units need more than 28 digits (an 18-decimal token and `12345678901.123456789012345678`) gives slightly different units in the source. The `ParseReceivers` methods of both send forms inherit this.
- `Receivers.DecUnitsAligned`: exact for the same reason as `Receivers.AmountUnits`.
- `change_password`, `update_client_key`, `network_status_updated`, `closeEvent`, `keys_button_clicked`, `refresh_button_clicked`, the chain label and the list filter are not modelled. They are dialogs and widget wiring around the modelled operations.
- `ft_send_button_clicked` is not modelled: it only prints the selected tokens and shows a "still under development" notice.
- `require_password` and `activate` only open `InputDialog` and connect its result. Their arity differs between callers.
- `Contract.ParseLocalFileUrl`: the `mimetypes` lookup, and the file served from disk, are not modelled.
- `keyPressEvent` (ignoring Enter and Escape) and `resize_to_content` are not modelled.

=== FILE: account.dfy ===
/**
 * The account window: the list of wallets an account file holds, how a new or imported wallet
 * is named and appended, how an entry is replaced or renamed in place, which row of the list
 * is selected, and which detail view a wallet opens. Every change to the list is written back
 * to the account file; the file write is recorded as the list last written.
 */
module Account {
  import opened Wrappers
  import opened PyText
  import opened Model
  import opened Mvclib
  import opened Utils
  import opened Hd
  import opened Base

  // ---------------------------------------------------------------------------------------
  // Names and defaults of new entries
  // ---------------------------------------------------------------------------------------

  /** The receive cursor, the number of receive addresses and of change addresses of a new HD wallet. */
  const RECEIVE_INDEX: nat := 0
  const RECEIVE_LIMIT: nat := 150
  const CHANGE_LIMIT: nat := 50

  /** What `add_hd` is given: the backup the HD dialog emits, or an imported extended key. */
  datatype HdSource = FromBackup(backup: HdBackup) | FromXprv(xprv: string) | FromXpub(xpub: string)

  /** What `add_key` is given: a WIF, a public key with its address, or an address alone. */
  datatype KeySource = FromWif(wif: string) | FromPk(pk: string, address: string) | FromAddress(address: string)

  /** `add_hd`'s entry when the account holds `n` wallets: named "HD Wallet n+1", cursor 0, limits 150 and 50. */
  function HdEntry(source: HdSource, n: nat): (w: WalletEntry)
    ensures w.IsHd() && w.name == "HD Wallet " + NatToString(n + 1)
    ensures w.receiveIndex == RECEIVE_INDEX && w.receiveLimit == RECEIVE_LIMIT && w.changeLimit == CHANGE_LIMIT
    ensures source.FromBackup? ==> w == MnemonicHd(w.name, source.backup.mnemonic, source.backup.path,
                                                   source.backup.passphrase, 0, 150, 50)
    ensures source.FromXprv? ==> w == XprvHd(w.name, source.xprv, 0, 150, 50)
    ensures source.FromXpub? ==> w == XpubHd(w.name, source.xpub, 0, 150, 50)
  {
    var name := "HD Wallet " + NatToString(n + 1);
    match source
    case FromBackup(b) => MnemonicHd(name, b.mnemonic, b.path, b.passphrase, RECEIVE_INDEX, RECEIVE_LIMIT, CHANGE_LIMIT)
    case FromXprv(x) => XprvHd(name, x, RECEIVE_INDEX, RECEIVE_LIMIT, CHANGE_LIMIT)
    case FromXpub(x) => XpubHd(name, x, RECEIVE_INDEX, RECEIVE_LIMIT, CHANGE_LIMIT)
  }

  /** `add_key`'s entry when the account holds `n` wallets: named "Wallet n+1". */
  function KeyEntry(source: KeySource, n: nat): (w: WalletEntry)
    ensures !w.IsHd() && w.name == "Wallet " + NatToString(n + 1)
    ensures source.FromWif? ==> w == WifKey(w.name, source.wif)
    ensures source.FromPk? ==> w == PkKey(w.name, source.pk, source.address)
    ensures source.FromAddress? ==> w == AddressKey(w.name, source.address)
  {
    var name := "Wallet " + NatToString(n + 1);
    match source
    case FromWif(k) => WifKey(name, k)
    case FromPk(pk, a) => PkKey(name, pk, a)
    case FromAddress(a) => AddressKey(name, a)
  }

  /**
   * Every new HD wallet starts with its cursor inside its limits, and the names given at
   * creation tell the two families apart and number the wallets: a different account size
   * gives a different name.
   */
  lemma NewEntryNames(source: HdSource, key: KeySource, n: nat, m: nat)
    ensures HdEntry(source, n).CursorValid()
    ensures HdEntry(source, n).name != KeyEntry(key, m).name
    ensures n != m ==> HdEntry(source, n).name != HdEntry(source, m).name
    ensures n != m ==> KeyEntry(key, n).name != KeyEntry(key, m).name
  {
    var h := HdEntry(source, n).name;
    var k := KeyEntry(key, m).name;
    assert h[0] == 'H' && k[0] == 'W';
    if n != m {
      NatToStringInjective(n + 1, m + 1);
      var p := "HD Wallet ";
      assert HdEntry(source, n).name[|p|..] == NatToString(n + 1);
      assert HdEntry(source, m).name[|p|..] == NatToString(m + 1);
      var q := "Wallet ";
      assert KeyEntry(key, n).name[|q|..] == NatToString(n + 1);
      assert KeyEntry(key, m).name[|q|..] == NatToString(m + 1);
    }
  }

  /** `str` of a natural number is injective: `int` reads each text back to its own number. */
  lemma NatToStringInjective(a: nat, b: nat)
    requires a != b
    ensures NatToString(a) != NatToString(b)
  {
    ParseIntNatToString(a);
    ParseIntNatToString(b);
  }

  // ---------------------------------------------------------------------------------------
  // Importing a wallet from text
  // ---------------------------------------------------------------------------------------

  datatype ImportKind = ImportXprv | ImportXpub | ImportWif | ImportPk | ImportAddress

  const XPRV_PREFIXES: seq<string> := ["xprv", "tprv"]
  const XPUB_PREFIXES: seq<string> := ["xpub", "tpub"]
  const WIF_PREFIXES: seq<string> := ["L", "K", "5", "c", "9"]
  const PK_PREFIXES: seq<string> := ["02", "03", "04"]

  /** `str.startswith` with a tuple of prefixes. */
  predicate StartsWithAny(text: string, prefixes: seq<string>) {
    exists i | 0 <= i < |prefixes| :: prefixes[i] <= text
  }

  /**
   * `import_wallet`'s dispatch on the text's prefix, tried in order: xprv/tprv, then xpub/tpub,
   * then L/K/5/c/9, then 02/03/04; anything else is an address.
   */
  function Classify(text: string): (k: ImportKind)
    ensures k == ImportXprv <==> StartsWithAny(text, XPRV_PREFIXES)
    ensures k == ImportXpub <==> !StartsWithAny(text, XPRV_PREFIXES) && StartsWithAny(text, XPUB_PREFIXES)
    ensures k == ImportWif <==> !StartsWithAny(text, XPRV_PREFIXES) && !StartsWithAny(text, XPUB_PREFIXES)
                                && StartsWithAny(text, WIF_PREFIXES)
    ensures k == ImportPk <==> !StartsWithAny(text, XPRV_PREFIXES) && !StartsWithAny(text, XPUB_PREFIXES)
                               && !StartsWithAny(text, WIF_PREFIXES) && StartsWithAny(text, PK_PREFIXES)
  {
    if StartsWithAny(text, XPRV_PREFIXES) then ImportXprv
    else if StartsWithAny(text, XPUB_PREFIXES) then ImportXpub
    else if StartsWithAny(text, WIF_PREFIXES) then ImportWif
    else if StartsWithAny(text, PK_PREFIXES) then ImportPk
    else ImportAddress
  }

  /** Extended private keys of either chain are imported as HD wallets from the xprv. */
  lemma ClassifyXprv(rest: string)
    ensures Classify("xprv" + rest) == ImportXprv && Classify("tprv" + rest) == ImportXprv
  {
    assert XPRV_PREFIXES[0] <= "xprv" + rest;
    assert XPRV_PREFIXES[1] <= "tprv" + rest;
  }

  /** Extended public keys are imported as watch-only HD wallets, though "xp"/"tp" also starts "xprv". */
  lemma ClassifyXpub(rest: string)
    ensures Classify("xpub" + rest) == ImportXpub && Classify("tpub" + rest) == ImportXpub
  {
    NoPrefixAt("xpub" + rest, XPRV_PREFIXES, 2);
    NoPrefixAt("tpub" + rest, XPRV_PREFIXES, 2);
    assert XPUB_PREFIXES[0] <= "xpub" + rest;
    assert XPUB_PREFIXES[1] <= "tpub" + rest;
  }

  /** A text whose first character starts a WIF is imported as a WIF key. */
  lemma ClassifyWif(c: char, rest: string)
    requires c in "LK5c9"
    ensures Classify([c] + rest) == ImportWif
  {
    var text := [c] + rest;
    NoPrefixAt(text, XPRV_PREFIXES, 0);
    NoPrefixAt(text, XPUB_PREFIXES, 0);
    if c == 'L' {
      assert WIF_PREFIXES[0] <= text;
    } else if c == 'K' {
      assert WIF_PREFIXES[1] <= text;
    } else if c == '5' {
      assert WIF_PREFIXES[2] <= text;
    } else if c == 'c' {
      assert WIF_PREFIXES[3] <= text;
    } else {
      assert WIF_PREFIXES[4] <= text;
    }
  }

  /** "02", "03" and "04" start a public key. */
  lemma ClassifyPk(d: char, rest: string)
    requires d in "234"
    ensures Classify(['0', d] + rest) == ImportPk
  {
    var text := ['0', d] + rest;
    NoPrefixAt(text, XPRV_PREFIXES, 0);
    NoPrefixAt(text, XPUB_PREFIXES, 0);
    NoPrefixAt(text, WIF_PREFIXES, 0);
    if d == '2' {
      assert PK_PREFIXES[0] <= text;
    } else if d == '3' {
      assert PK_PREFIXES[1] <= text;
    } else {
      assert PK_PREFIXES[2] <= text;
    }
  }

  /** Text starting with any other character, and the empty text, is taken for an address. */
  lemma ClassifyAddress(c: char, rest: string)
    requires c !in "xtLK5c90"
    ensures Classify([c] + rest) == ImportAddress
    ensures Classify("") == ImportAddress
  {
    var text := [c] + rest;
    NoPrefixAt(text, XPRV_PREFIXES, 0);
    NoPrefixAt(text, XPUB_PREFIXES, 0);
    NoPrefixAt(text, WIF_PREFIXES, 0);
    NoPrefixAt(text, PK_PREFIXES, 0);
    assert !StartsWithAny("", XPRV_PREFIXES) && !StartsWithAny("", XPUB_PREFIXES);
    assert !StartsWithAny("", WIF_PREFIXES) && !StartsWithAny("", PK_PREFIXES);
  }

  /** No prefix of the list is a prefix of the text when each differs from it at position `k`. */
  lemma NoPrefixAt(text: string, prefixes: seq<string>, k: nat)
    requires k < |text|
    requires forall i | 0 <= i < |prefixes| :: k < |prefixes[i]| && prefixes[i][k] != text[k]
    ensures !StartsWithAny(text, prefixes)
  {
  }

  /** `import_wallet_text_valid`: any of the five validators, none of them asking for a chain. */
  function ImportTextValid(lib: Library, text: string): (r: bool)
  {
    XprvValid(lib, text, None) || XpubValid(lib, text, None) || WifValid(lib, text, None, None)
    || AddressValid(lib, text, None) || PkValid(lib, text)
  }

  /** Import text is accepted iff the library reads it as some kind of key or address. */
  lemma ImportTextValidDecodes(lib: Library, text: string)
    ensures ImportTextValid(lib, text) <==>
              lib.xprvChain(text).Some? || lib.xpubChain(text).Some? || lib.decodeWif(text).Some?
              || lib.decodeAddress(text).Some? || lib.publicKeyValid(text)
  {
  }

  // ---------------------------------------------------------------------------------------
  // The detail view
  // ---------------------------------------------------------------------------------------

  /** The dialog `context_menu_action_information_clicked` opens, with what it is given. */
  datatype Detail =
    | MnemonicDetail(mnemonic: string, path: string, passphrase: string, chain: Option<Chain>)
    | XprvDetail(xprv: string)
    | XpubDetail(xpub: string)
    | WifDetail(wif: string)
    | PkDetail(pk: string, address: string)
    | AddressDetail(address: string)

  /** `w.get(key)`: the entry's value for a key of its dictionary, None for a key it lacks. */
  function Field(w: WalletEntry, key: string): (r: Option<string>)
    ensures key == "name" ==> r == Some(w.name)
  {
    if key == "name" then Some(w.name)
    else match w
      case MnemonicHd(_, m, p, s, _, _, _) =>
        if key == "mnemonic" then Some(m) else if key == "path" then Some(p)
        else if key == "passphrase" then Some(s) else None
      case XprvHd(_, x, _, _, _) => if key == "xprv" then Some(x) else None
      case XpubHd(_, x, _, _, _) => if key == "xpub" then Some(x) else None
      case WifKey(_, k) => if key == "wif" then Some(k) else None
      case PkKey(_, pk, a) => if key == "pk" then Some(pk) else if key == "address" then Some(a) else None
      case AddressKey(_, a) => if key == "address" then Some(a) else None
  }

  /** Python truthiness of `w.get(key)`: present and not empty. */
  predicate Truthy(v: Option<string>) {
    v.Some? && v.value != ""
  }

  /**
   * The dispatch, first truthy key wins: mnemonic, xprv, xpub, wif, pk, then the address. The
   * mnemonic branch reads `w['xprv']` for the chain, and the final branch `w['address']`; a
   * missing key raises (None), and so does an xprv the library cannot read.
   */
  function DetailOf(lib: Library, w: WalletEntry): (r: Option<Detail>)
    ensures Truthy(Field(w, "mnemonic")) ==>
              r == (if Field(w, "xprv").Some? && lib.xprvChain(Field(w, "xprv").value).Some?
                    then Some(MnemonicDetail(w.mnemonic, w.path, w.passphrase, lib.xprvChain(Field(w, "xprv").value)))
                    else None)
    ensures !Truthy(Field(w, "mnemonic")) && Truthy(Field(w, "xprv")) ==> r == Some(XprvDetail(Field(w, "xprv").value))
    ensures !Truthy(Field(w, "mnemonic")) && !Truthy(Field(w, "xprv")) && Truthy(Field(w, "xpub"))
            ==> r == Some(XpubDetail(Field(w, "xpub").value))
    ensures !Truthy(Field(w, "mnemonic")) && !Truthy(Field(w, "xprv")) && !Truthy(Field(w, "xpub"))
              && Truthy(Field(w, "wif"))
            ==> r == Some(WifDetail(Field(w, "wif").value))
    ensures !Truthy(Field(w, "mnemonic")) && !Truthy(Field(w, "xprv")) && !Truthy(Field(w, "xpub"))
            && !Truthy(Field(w, "wif")) && Truthy(Field(w, "pk"))
            ==> r == (if Field(w, "address").Some? then Some(PkDetail(Field(w, "pk").value, Field(w, "address").value)) else None)
    ensures !Truthy(Field(w, "mnemonic")) && !Truthy(Field(w, "xprv")) && !Truthy(Field(w, "xpub"))
            && !Truthy(Field(w, "wif")) && !Truthy(Field(w, "pk"))
            ==> r == (if Field(w, "address").Some? then Some(AddressDetail(Field(w, "address").value)) else None)
  {
    if Truthy(Field(w, "mnemonic")) then
      match Field(w, "xprv")
      case None => None
      case Some(x) =>
        if lib.xprvChain(x).None? then None
        else Some(MnemonicDetail(w.mnemonic, w.path, w.passphrase, lib.xprvChain(x)))
    else if Truthy(Field(w, "xprv")) then Some(XprvDetail(Field(w, "xprv").value))
    else if Truthy(Field(w, "xpub")) then Some(XpubDetail(Field(w, "xpub").value))
    else if Truthy(Field(w, "wif")) then Some(WifDetail(Field(w, "wif").value))
    else if Truthy(Field(w, "pk")) then
      (if Field(w, "address").Some? then Some(PkDetail(Field(w, "pk").value, Field(w, "address").value)) else None)
    else if Field(w, "address").Some? then Some(AddressDetail(Field(w, "address").value))
    else None
  }

  /**
   * On the entries the account creates, with their key text present: each non-mnemonic kind
   * opens the view of its own kind with its own key, and a mnemonic entry, which is stored
   * without an 'xprv', raises.
   */
  lemma DetailOfEntries(lib: Library, w: WalletEntry)
    ensures w.MnemonicHd? && w.mnemonic != "" ==> DetailOf(lib, w).None?
    ensures w.XprvHd? && w.xprv != "" ==> DetailOf(lib, w) == Some(XprvDetail(w.xprv))
    ensures w.XpubHd? && w.xpub != "" ==> DetailOf(lib, w) == Some(XpubDetail(w.xpub))
    ensures w.WifKey? && w.wif != "" ==> DetailOf(lib, w) == Some(WifDetail(w.wif))
    ensures w.PkKey? && w.pk != "" ==> DetailOf(lib, w) == Some(PkDetail(w.pk, w.address))
    ensures w.AddressKey? ==> DetailOf(lib, w) == Some(AddressDetail(w.address))
  {
    assert Field(w, "mnemonic") == (if w.MnemonicHd? then Some(w.mnemonic) else None);
    assert Field(w, "xprv") == (if w.XprvHd? then Some(w.xprv) else None);
    assert Field(w, "xpub") == (if w.XpubHd? then Some(w.xpub) else None);
    assert Field(w, "wif") == (if w.WifKey? then Some(w.wif) else None);
    assert Field(w, "pk") == (if w.PkKey? then Some(w.pk) else None);
  }

  // ---------------------------------------------------------------------------------------
  // The wallet list
  // ---------------------------------------------------------------------------------------

  /** The text each row of the wallet list shows: two spaces and the wallet's name. */
  function Labels(wallets: seq<WalletEntry>): (labels: seq<string>)
    ensures |labels| == |wallets|
  {
    seq(|wallets|, i requires 0 <= i < |wallets| => "  " + wallets[i].name)
  }

  /** Each row shows exactly its wallet's name behind the two-space indent. */
  lemma LabelsShowNames(wallets: seq<WalletEntry>)
    ensures forall i | 0 <= i < |wallets| :: Labels(wallets)[i][..2] == "  " && Labels(wallets)[i][2..] == wallets[i].name
  {
  }

  /** `WalletModel`: the wallets it lists and the text of each row. */
  class WalletListModel {
    var wallets: seq<WalletEntry>
    var labels: seq<string>

    constructor (given: Option<seq<WalletEntry>>)
      ensures wallets == HeldList(given) && labels == Labels(wallets)
    {
      wallets := HeldList(given);
      labels := Labels(HeldList(given));
    }

    /** `update_fields`: `wallets or []`, and one label per wallet. */
    method UpdateFields(given: Option<seq<WalletEntry>>)
      modifies this
      ensures wallets == HeldList(given) && labels == Labels(wallets)
    {
      wallets := HeldList(given);
      labels := Labels(wallets);
    }

    function RowCount(): nat
      reads this
    {
      |labels|
    }
  }

  /** The index `select_wallet_in_list` moves to: Python's `index % rowCount`, nothing when empty. */
  function WrapIndex(index: int, rowCount: nat): (r: Option<nat>)
    ensures r.Some? <==> rowCount > 0
    ensures r.Some? ==> r.value < rowCount
  {
    if rowCount == 0 then None else Some(index % rowCount)
  }

  /** In-range indices are kept, and -1 selects the last row. */
  lemma WrapIndexCases(index: int, rowCount: nat)
    requires rowCount > 0
    ensures 0 <= index < rowCount ==> WrapIndex(index, rowCount) == Some(index)
    ensures WrapIndex(-1, rowCount) == Some(rowCount - 1)
    ensures WrapIndex(index + rowCount, rowCount) == WrapIndex(index, rowCount)
  {
    var q, r := index / rowCount, index % rowCount;
    ModOf(index + rowCount, rowCount, q + 1, r);
    ModOf(-1, rowCount, -1, rowCount - 1);
    if 0 <= index < rowCount {
      ModOf(index, rowCount, 0, index);
    }
  }

  /** Only an xprv entry carries an 'xprv' key. */
  lemma XprvField(w: WalletEntry)
    ensures Field(w, "xprv").Some? <==> w.XprvHd?
  {
  }

  /** The exception that ends `rename_wallet`. */
  datatype RenameRaise = IndexError | AttributeError

  /** The account window's list of wallets. */
  class AccountWindow {
    var account: seq<WalletEntry>
    /** The list `write_account_file` last wrote. */
    var persisted: seq<WalletEntry>
    /** The selected row of the list, which is also the wallet view on show. */
    var current: Option<nat>
    const model: WalletListModel

    /** The list shows the account, every change has been written, and the selection is a row. */
    predicate Valid()
      reads this, model
    {
      model.wallets == account && model.labels == Labels(account) && persisted == account
      && (current.Some? ==> current.value < |account|)
    }

    /** The window opens on the account read from its file, with the first wallet selected. */
    constructor (account: seq<WalletEntry>)
      ensures Valid() && this.account == account
      ensures current == (if account == [] then None else Some(0))
    {
      this.account := account;
      persisted := account;
      model := new WalletListModel(Some(account));
      current := if account == [] then None else Some(0);
    }

    /** `select_wallet_in_list`: the index modulo the row count; nothing happens on an empty list. */
    method SelectWalletInList(index: int)
      modifies this`current
      ensures current == (if model.RowCount() == 0 then old(current) else WrapIndex(index, model.RowCount()))
    {
      var rows := model.RowCount();
      if rows > 0 {
        current := WrapIndex(index, rows);
      }
    }

    /**
     * `add_wallet`: appended at the end, earlier entries unchanged, written to the file and the
     * list refreshed. `add_wallet_widget` then builds the entry's wallet view, which reads the
     * entry's 'xprv' without a default: an entry without one raises there, before the new row
     * is selected.
     */
    method AddWallet(w: WalletEntry) returns (raised: bool)
      requires Valid()
      modifies this, model
      ensures Valid()
      ensures account == old(account) + [w] && |account| == |old(account)| + 1
      ensures account[..|old(account)|] == old(account) && account[|account| - 1] == w
      ensures raised <==> Field(w, "xprv").None?
      ensures current == if raised then old(current) else Some(|account| - 1)
    {
      account := account + [w];
      persisted := account;
      model.UpdateFields(Some(account));
      assert account[..|old(account)|] == old(account);
      raised := Field(w, "xprv").None?;
      if !raised {
        SelectWalletInList(-1);
      }
    }

    /** `add_hd`: the entry named and given its defaults from the account's size, then added. */
    method AddHd(source: HdSource) returns (raised: bool)
      requires Valid()
      modifies this, model
      ensures Valid() && account == old(account) + [HdEntry(source, |old(account)|)]
      ensures raised <==> !source.FromXprv?
      ensures current == if raised then old(current) else Some(|account| - 1)
    {
      var w := HdEntry(source, |account|);
      XprvField(w);
      raised := AddWallet(w);
    }

    /** `add_key`: the same for a single key or address, which carries no 'xprv' and so raises. */
    method AddKey(source: KeySource) returns (raised: bool)
      requires Valid()
      modifies this, model
      ensures Valid() && account == old(account) + [KeyEntry(source, |old(account)|)]
      ensures raised && current == old(current)
    {
      var w := KeyEntry(source, |account|);
      XprvField(w);
      raised := AddWallet(w);
    }

    /**
     * `import_wallet` on the text the import dialog emits. A public key asks for a chain first
     * (`chosen`, None when cancelled) and is stored with its address on that chain;
     * `PublicKey(text)` raises on text it cannot read. Every added entry but an xprv then
     * raises in `add_wallet`.
     */
    method ImportWallet(lib: Library, text: string, chosen: Option<Chain>) returns (raised: bool)
      requires Valid()
      modifies this, model
      ensures Valid()
      ensures raised <==> Classify(text) != ImportXprv && (Classify(text) == ImportPk ==> chosen.Some?)
      ensures var n := |old(account)|;
              account == match Classify(text)
                case ImportXprv => old(account) + [HdEntry(FromXprv(text), n)]
                case ImportXpub => old(account) + [HdEntry(FromXpub(text), n)]
                case ImportWif => old(account) + [KeyEntry(FromWif(text), n)]
                case ImportPk =>
                  if chosen.None? || !lib.publicKeyValid(text) then old(account)
                  else old(account) + [KeyEntry(FromPk(text, lib.publicKeyAddress(text, chosen.value)), n)]
                case ImportAddress => old(account) + [KeyEntry(FromAddress(text), n)]
      ensures current == if raised then old(current) else if account != old(account) then Some(|account| - 1) else old(current)
    {
      raised := false;
      match Classify(text)
      case ImportXprv => raised := AddHd(FromXprv(text));
      case ImportXpub => raised := AddHd(FromXpub(text));
      case ImportWif => raised := AddKey(FromWif(text));
      case ImportPk =>
        if chosen.Some? {
          if !lib.publicKeyValid(text) {
            raised := true;
          } else {
            raised := AddKey(FromPk(text, lib.publicKeyAddress(text, chosen.value)));
          }
        }
      case ImportAddress => raised := AddKey(FromAddress(text));
    }

    /**
     * `wallet_updated`: the entry at the index (Python indexing) is replaced in place and the
     * account written; an index out of range raises and changes nothing. The list model holds
     * the same list object, so it sees the new entry, but its row texts are not recomputed: the
     * window stays consistent when the entry keeps its name, as the wallet view's cursor move
     * does.
     */
    method WalletUpdated(w: WalletEntry, accountIndex: int) returns (raised: bool)
      modifies this`account, this`persisted, model`wallets
      ensures raised <==> PyIndex(accountIndex, |old(account)|).None?
      ensures raised ==> account == old(account) && persisted == old(persisted) && model.wallets == old(model.wallets)
      ensures !raised ==> var i := PyIndex(accountIndex, |old(account)|).value;
                          account == old(account)[i := w] && persisted == account && model.wallets == account
      ensures model.labels == old(model.labels) && current == old(current)
      ensures old(Valid()) && (!raised ==> w.name == old(account)[PyIndex(accountIndex, |old(account)|).value].name)
              ==> Valid()
    {
      var i := PyIndex(accountIndex, |account|);
      if i.None? {
        return true;
      }
      if model.labels == Labels(account) && w.name == account[i.value].name {
        UpdatedKeepsLabels(account, i.value, w);
      }
      account := account[i.value := w];
      persisted := account;
      model.wallets := account;
      return false;
    }

    /** Replacing an entry by one with the same name keeps the list's row texts. */
    lemma UpdatedKeepsLabels(old_account: seq<WalletEntry>, i: nat, w: WalletEntry)
      requires i < |old_account| && w.name == old_account[i].name
      ensures Labels(old_account[i := w]) == Labels(old_account)
    {
      var updated := old_account[i := w];
      forall j | 0 <= j < |old_account|
        ensures Labels(updated)[j] == Labels(old_account)[j]
      {
        assert updated[j].name == old_account[j].name;
      }
    }

    /**
     * `rename_wallet`: only the name of the selected entry changes; the account is written and
     * the list refreshed. The handler always ends in an exception: with nothing selected,
     * `selectedIndexes()[0]` raises IndexError before anything changes; otherwise the last step
     * calls `update_fields` on the wallet view, which defines no such method, and raises
     * AttributeError after the rename.
     */
    method RenameWallet(name: string) returns (raised: RenameRaise)
      requires Valid()
      modifies this`account, this`persisted, model
      ensures Valid() && current == old(current)
      ensures raised == if old(current).None? then IndexError else AttributeError
      ensures old(current).None? ==> account == old(account)
      ensures old(current).Some? ==> var i := old(current).value;
                          |account| == |old(account)| && account[i] == old(account)[i].(name := name)
                          && forall j | 0 <= j < |account| && j != i :: account[j] == old(account)[j]
    {
      if current.None? {
        return IndexError;
      }
      var i := current.value;
      account := account[i := account[i].(name := name)];
      persisted := account;
      model.UpdateFields(Some(account));
      return AttributeError;
    }
  }
}

=== FILE: base.dfy ===
/**
 * The shared pieces of the wallet's windows: the network chooser, the table of unspent outputs,
 * the table of token balances (their rows, sort keys and sorting) and the copy of the selected
 * table rows.
 */
module Base {
  import opened Wrappers
  import opened PyText
  import opened Model

  // ---------------------------------------------------------------------------------------
  // `select_chain`
  // ---------------------------------------------------------------------------------------

  const TEST_NETWORK: string := "测试网"
  const MAIN_NETWORK: string := "主网"

  /**
   * `select_chain`: the test-network label picks the test chain, any other label the main
   * chain, and a cancelled dialog no chain.
   */
  function SelectChain(selected: string, ok: bool): (r: Option<Chain>)
    ensures r.Some? <==> ok
    ensures r == Some(Test) <==> ok && selected == TEST_NETWORK
    ensures r == Some(Main) <==> ok && selected != TEST_NETWORK
  {
    if ok then Some(if selected == TEST_NETWORK then Test else Main) else None
  }

  /** The two labels the dialog offers lead to the two different chains. */
  lemma SelectChainLabels(test: string, main: string)
    requires test == TEST_NETWORK && main == MAIN_NETWORK
    ensures SelectChain(test, true) == Some(Test)
    ensures SelectChain(main, true) == Some(Main)
  {
    assert |main| != |test|;
  }

  // ---------------------------------------------------------------------------------------
  // Text of integers
  // ---------------------------------------------------------------------------------------

  /** `str(n)` for any integer. */
  function IntToString(n: int): (r: string)
    ensures |r| >= 1
  {
    if n < 0 then "-" + NatToString(-n) else NatToString(n)
  }

  /** `int(str(n)) == n`. */
  lemma IntToStringRoundTrip(n: int)
    ensures ParseInt(IntToString(n)) == Some(n)
  {
    if n < 0 {
      var s := NatToString(-n);
      var r := "-" + s;
      assert r == IntToString(n);
      NegativeText(s, r);
      ParseSignedNegative(s);
      hide *;
      StripUnpadded(r);
    } else {
      assert IntToString(n) == NatToString(n);
      ParseIntNatToString(n);
    }
  }

  lemma NegativeText(s: string, r: string)
    requires r == "-" + s && |s| >= 1 && AllDigits(s)
    ensures r[1..] == s && r[0] == '-'
    ensures !IsSpace(r[0]) && !IsSpace(r[|r| - 1])
  {
    assert r[|r| - 1] == s[|s| - 1];
  }

  // ---------------------------------------------------------------------------------------
  // Sort keys
  // ---------------------------------------------------------------------------------------

  /** A sort key: the columns hold either integers or strings. */
  datatype SortKey = IntKey(i: int) | TextKey(s: string)

  /** Python's `<=` on strings: lexicographic by code point, a prefix first. */
  predicate LexLeq(a: string, b: string)
    decreases |a|
  {
    a == [] || (b != [] && (a[0] < b[0] || (a[0] == b[0] && LexLeq(a[1..], b[1..]))))
  }

  /**
   * `<=` on keys. A column's keys are all of one kind; integers are put before strings only
   * to make the order total.
   */
  predicate KeyLeq(a: SortKey, b: SortKey) {
    match (a, b)
    case (IntKey(x), IntKey(y)) => x <= y
    case (TextKey(x), TextKey(y)) => LexLeq(x, y)
    case (IntKey(_), TextKey(_)) => true
    case (TextKey(_), IntKey(_)) => false
  }

  /** `a` may stay before `b` in an ascending (or, with `descending`, a descending) sort. */
  predicate InOrder(a: SortKey, b: SortKey, descending: bool) {
    if descending then KeyLeq(b, a) else KeyLeq(a, b)
  }

  lemma {:induction false} LexLeqTotal(a: string, b: string)
    ensures LexLeq(a, b) || LexLeq(b, a)
    decreases |a|
  {
    if a != [] && b != [] && a[0] == b[0] {
      LexLeqTotal(a[1..], b[1..]);
    }
  }

  lemma {:induction false} LexLeqTrans(a: string, b: string, c: string)
    requires LexLeq(a, b) && LexLeq(b, c)
    ensures LexLeq(a, c)
    decreases |a|
  {
    if a != [] && a[0] == b[0] && b[0] == c[0] {
      LexLeqTrans(a[1..], b[1..], c[1..]);
    }
  }

  lemma InOrderTotal(a: SortKey, b: SortKey, descending: bool)
    ensures InOrder(a, b, descending) || InOrder(b, a, descending)
  {
    if a.TextKey? && b.TextKey? {
      LexLeqTotal(a.s, b.s);
    }
  }

  lemma InOrderTrans(a: SortKey, b: SortKey, c: SortKey, descending: bool)
    requires InOrder(a, b, descending) && InOrder(b, c, descending)
    ensures InOrder(a, c, descending)
  {
    if a.TextKey? && b.TextKey? && c.TextKey? {
      if descending {
        LexLeqTrans(c.s, b.s, a.s);
      } else {
        LexLeqTrans(a.s, b.s, c.s);
      }
    }
  }

  // ---------------------------------------------------------------------------------------
  // Sorting by a key
  // ---------------------------------------------------------------------------------------

  predicate SortedBy<T>(xs: seq<T>, key: T -> SortKey, descending: bool) {
    forall i, j | 0 <= i < j < |xs| :: InOrder(key(xs[i]), key(xs[j]), descending)
  }

  /** Inserts `x` after the last element it may follow. */
  function Insert<T>(ys: seq<T>, x: T, key: T -> SortKey, descending: bool): (r: seq<T>)
    ensures multiset(r) == multiset(ys) + multiset{x}
    decreases |ys|
  {
    if ys == [] || InOrder(key(ys[|ys| - 1]), key(x), descending) then ys + [x]
    else
      var init := ys[..|ys| - 1];
      assert ys == init + [ys[|ys| - 1]];
      Insert(init, x, key, descending) + [ys[|ys| - 1]]
  }

  lemma {:induction false} InsertSorted<T>(ys: seq<T>, x: T, key: T -> SortKey, descending: bool)
    requires SortedBy(ys, key, descending)
    ensures SortedBy(Insert(ys, x, key, descending), key, descending)
    decreases |ys|
  {
    var r := Insert(ys, x, key, descending);
    if ys == [] {
    } else if InOrder(key(ys[|ys| - 1]), key(x), descending) {
      forall i, j | 0 <= i < j < |r|
        ensures InOrder(key(r[i]), key(r[j]), descending)
      {
        if j == |ys| && i < |ys| - 1 {
          InOrderTrans(key(ys[i]), key(ys[|ys| - 1]), key(x), descending);
        }
      }
    } else {
      var init := ys[..|ys| - 1];
      var last := ys[|ys| - 1];
      assert SortedBy(init, key, descending);
      InsertSorted(init, x, key, descending);
      var front := Insert(init, x, key, descending);
      assert r == front + [last];
      InOrderTotal(key(last), key(x), descending);
      forall i | 0 <= i < |front|
        ensures InOrder(key(front[i]), key(last), descending)
      {
        assert front[i] in multiset(front);
        if front[i] != x {
          assert front[i] in multiset(init);
          var k :| 0 <= k < |init| && init[k] == front[i];
        }
      }
      forall i, j | 0 <= i < j < |r|
        ensures InOrder(key(r[i]), key(r[j]), descending)
      {
        if j == |front| {
          assert r[i] == front[i];
        } else {
          assert r[i] == front[i] && r[j] == front[j];
        }
      }
    }
  }

  /**
   * `list.sort(key=..., reverse=...)`: the same elements, reordered so that the keys ascend
   * (or descend).
   */
  function SortBy<T>(xs: seq<T>, key: T -> SortKey, descending: bool): (ys: seq<T>)
    ensures multiset(ys) == multiset(xs)
    ensures SortedBy(ys, key, descending)
    decreases |xs|
  {
    if xs == [] then []
    else
      var init := xs[..|xs| - 1];
      assert xs == init + [xs[|xs| - 1]];
      var sorted := SortBy(init, key, descending);
      InsertSorted(sorted, xs[|xs| - 1], key, descending);
      Insert(sorted, xs[|xs| - 1], key, descending)
  }

  /** The remainder of `q * n + r` with `0 <= r < n` is `r`: Python's `%` for a positive divisor. */
  lemma ModOf(a: int, n: nat, q: int, r: int)
    requires 0 <= r < n && a == q * n + r
    ensures a % n == r
  {
    var q', r' := a / n, a % n;
    if q' < q {
      MulAtLeast(q - q', n);
    } else if q' > q {
      MulAtLeast(q' - q, n);
    }
  }

  lemma {:induction false} MulAtLeast(x: int, n: nat)
    requires x >= 1
    ensures x * n >= n
    decreases x
  {
    if x > 1 {
      MulAtLeast(x - 1, n);
    }
  }

  /** Python's index of a list of `n` items, counting from the end for negative positions. */
  function PyIndex(i: int, n: nat): (r: Option<nat>)
    ensures r.Some? <==> -(n as int) <= i < n
    ensures r.Some? ==> r.value < n && (r.value as int == i || r.value as int == i + n)
  {
    if 0 <= i < n then Some(i as nat) else if -(n as int) <= i < 0 then Some((i + n) as nat) else None
  }

  // ---------------------------------------------------------------------------------------
  // The unspent table
  // ---------------------------------------------------------------------------------------

  /** One row of the unspent table; the amount column's `format_coin` text is kept as satoshi. */
  datatype UnspentRow = UnspentRow(height: string, output: string, address: string, satoshi: nat)

  /** `f'{txid}:{vout}'`. */
  function Outpoint(u: Unspent): string {
    u.txid + ":" + NatToString(u.vout)
  }

  function UnspentRowOf(u: Unspent): UnspentRow {
    UnspentRow(IntToString(u.height), Outpoint(u), u.address, u.satoshi)
  }

  /** The rows of the table, one per unspent, in order. */
  function UnspentRows(us: seq<Unspent>): (rows: seq<UnspentRow>)
    ensures |rows| == |us|
  {
    seq(|us|, i requires 0 <= i < |us| => UnspentRowOf(us[i]))
  }

  /** `unspents or []`. */
  function HeldList<T>(given: Option<seq<T>>): seq<T> {
    if given.Some? then given.value else []
  }

  /** The key of column `c` of the list `[height, 'txid:vout', address, satoshi]`. */
  function UnspentColumn(u: Unspent, c: nat): SortKey
    requires c < 4
  {
    if c == 0 then IntKey(u.height)
    else if c == 1 then TextKey(Outpoint(u))
    else if c == 2 then TextKey(u.address)
    else IntKey(u.satoshi)
  }

  /** `UnspentModel.item_value`: None where the list index raises. */
  function UnspentItemValue(u: Unspent, column: int): (r: Option<SortKey>)
    ensures r.Some? <==> -4 <= column < 4
  {
    match PyIndex(column, 4)
    case None => None
    case Some(c) => Some(UnspentColumn(u, c))
  }

  /**
   * The key of each column is what its cell shows: the height read back from its text, the
   * output and address texts, and the amount in satoshi.
   */
  lemma UnspentKeysMatchCells(u: Unspent)
    ensures ParseInt(UnspentRowOf(u).height) == Some(u.height)
    ensures UnspentItemValue(u, 0) == Some(IntKey(u.height))
    ensures UnspentItemValue(u, 1) == Some(TextKey(UnspentRowOf(u).output))
    ensures UnspentItemValue(u, 2) == Some(TextKey(UnspentRowOf(u).address))
    ensures UnspentItemValue(u, 3) == Some(IntKey(UnspentRowOf(u).satoshi))
    ensures UnspentItemValue(u, -1) == UnspentItemValue(u, 3)
  {
    IntToStringRoundTrip(u.height);
  }

  /** The key a sort on a valid column uses. */
  function UnspentSortKey(column: int): (Unspent -> SortKey)
    requires -4 <= column < 4
  {
    (u: Unspent) => UnspentColumn(u, PyIndex(column, 4).value)
  }

  /** The unspent table's data: the unspents it shows and their rows. */
  class UnspentModel {
    var unspents: seq<Unspent>
    var rows: seq<UnspentRow>

    predicate Valid()
      reads this
    {
      rows == UnspentRows(unspents)
    }

    constructor (given: Option<seq<Unspent>>)
      ensures Valid() && unspents == HeldList(given)
    {
      unspents := HeldList(given);
      rows := UnspentRows(HeldList(given));
    }

    /** `refresh`: holds the given list (none for None) and shows one row per unspent. */
    method Refresh(given: Option<seq<Unspent>>)
      modifies this
      ensures Valid() && unspents == HeldList(given)
    {
      unspents := HeldList(given);
      rows := UnspentRows(unspents);
    }

    /**
     * `sort`: the held unspents are reordered by the column's key, ascending or descending,
     * and the rows rebuilt. A column outside the list of keys raises, unless there is nothing
     * to sort.
     */
    method Sort(column: int, descending: bool) returns (raised: bool)
      modifies this
      ensures raised <==> old(unspents) != [] && !(-4 <= column < 4)
      ensures raised ==> unspents == old(unspents) && rows == old(rows)
      ensures !raised ==> Valid() && multiset(unspents) == multiset(old(unspents))
      ensures !raised && -4 <= column < 4 ==> SortedBy(unspents, UnspentSortKey(column), descending)
    {
      if !(-4 <= column < 4) {
        if unspents != [] {
          return true;
        }
        Refresh(Some(unspents));
        return false;
      }
      var sorted := SortBy(unspents, UnspentSortKey(column), descending);
      Refresh(Some(sorted));
      return false;
    }
  }

  // ---------------------------------------------------------------------------------------
  // The token table
  // ---------------------------------------------------------------------------------------

  /** One row of the token table; the amount column's `format_coin` text is kept as the total. */
  datatype FtRow = FtRow(symbol: string, name: string, tokenId: string, utxoCount: string, total: int)

  /** `f'{codeHash}/{genesis}'`. */
  function TokenId(ft: TokenBalance): string {
    ft.codeHash + "/" + ft.genesis
  }

  /** `int(confirmedString) + int(unconfirmedString)`; None where either `int` raises. */
  function TokenTotal(ft: TokenBalance): (r: Option<int>)
    ensures r.Some? <==> ParseInt(ft.confirmedString).Some? && ParseInt(ft.unconfirmedString).Some?
  {
    var c := ParseInt(ft.confirmedString);
    var u := ParseInt(ft.unconfirmedString);
    if c.Some? && u.Some? then Some(c.value + u.value) else None
  }

  /** The service's balances, sent as decimal strings, add up to the token's whole balance. */
  lemma TokenTotalOfBalances(ft: TokenBalance, confirmed: nat, unconfirmed: nat)
    requires ft.confirmedString == NatToString(confirmed)
    requires ft.unconfirmedString == NatToString(unconfirmed)
    ensures TokenTotal(ft) == Some(confirmed + unconfirmed)
  {
    ParseIntNatToString(confirmed);
    ParseIntNatToString(unconfirmed);
    TokenTotalOf(ft, confirmed, unconfirmed);
  }

  lemma TokenTotalOf(ft: TokenBalance, x: int, y: int)
    requires ParseInt(ft.confirmedString) == Some(x) && ParseInt(ft.unconfirmedString) == Some(y)
    ensures TokenTotal(ft) == Some(x + y)
  {
    hide ParseInt;
  }

  /** The row of a token, None where its total raises. */
  function FtRowOf(ft: TokenBalance): (r: Option<FtRow>)
    ensures r.Some? <==> TokenTotal(ft).Some?
  {
    match TokenTotal(ft)
    case None => None
    case Some(total) => Some(FtRow(ft.symbol, ft.name, TokenId(ft), IntToString(ft.utxoCount), total))
  }

  /** The row of each token, in order. */
  function FtRowOptions(fts: seq<TokenBalance>): (r: seq<Option<FtRow>>)
    ensures |r| == |fts| && forall i | 0 <= i < |fts| :: r[i] == FtRowOf(fts[i])
  {
    seq(|fts|, i requires 0 <= i < |fts| => FtRowOf(fts[i]))
  }

  /** Whether every token of the list has a row. */
  predicate AllRows(fts: seq<TokenBalance>) {
    forall i | 0 <= i < |fts| :: FtRowOf(fts[i]).Some?
  }

  /** The values before the first None. */
  function UntilNone<T>(opts: seq<Option<T>>): (vs: seq<T>)
    ensures |vs| <= |opts|
    ensures forall i | 0 <= i < |vs| :: opts[i] == Some(vs[i])
    ensures |vs| < |opts| ==> opts[|vs|].None?
    decreases |opts|
  {
    if opts == [] || opts[0].None? then []
    else
      var rest := UntilNone(opts[1..]);
      assert forall i | 1 <= i < |opts| :: opts[i] == opts[1..][i - 1];
      assert |rest| < |opts| - 1 ==> opts[1 + |rest|] == opts[1..][|rest|];
      [opts[0].value] + rest
  }

  /** Past a value that is present, the values go on with it. */
  lemma UntilNoneStep<T>(opts: seq<Option<T>>, i: nat, v: T)
    requires i < |opts| && i <= |UntilNone(opts)| && opts[i] == Some(v)
    ensures i < |UntilNone(opts)| && UntilNone(opts)[..i + 1] == UntilNone(opts)[..i] + [v]
  {
    var all := UntilNone(opts);
    assert i < |all| && all[i] == v;
    hide UntilNone;
    assert all[..i + 1] == all[..i] + [all[i]];
  }

  /** All values come through exactly when none is missing. */
  lemma UntilNoneComplete<T>(opts: seq<Option<T>>)
    ensures |UntilNone(opts)| == |opts| <==> forall i | 0 <= i < |opts| :: opts[i].Some?
  {
    var vs := UntilNone(opts);
    if |vs| < |opts| {
      assert opts[|vs|].None?;
    }
  }

  /** The rows `refresh` builds: those of the tokens before the first whose total raises. */
  function FtRows(fts: seq<TokenBalance>): (rows: seq<FtRow>)
    ensures |rows| <= |fts|
  {
    UntilNone(FtRowOptions(fts))
  }

  /** Every token gets its row exactly when no total raises. */
  lemma FtRowsComplete(fts: seq<TokenBalance>)
    ensures |FtRows(fts)| == |fts| <==> AllRows(fts)
  {
    var opts := FtRowOptions(fts);
    UntilNoneComplete(opts);
    assert AllRows(fts) <==> forall i | 0 <= i < |opts| :: opts[i].Some?;
  }

  /**
   * `FtModel.item_value`: the first four columns are symbol, name, token id and output count,
   * counted from the end for a negative column, and any column from 4 on is the total. None
   * where the index or `int` raises.
   */
  function FtItemValue(ft: TokenBalance, column: int): (r: Option<SortKey>)
    ensures column >= 4 ==> (r.Some? <==> TokenTotal(ft).Some?)
    ensures column >= 4 && r.Some? ==> r.value == IntKey(TokenTotal(ft).value)
    ensures column < 4 ==> (r.Some? <==> -4 <= column)
  {
    if column >= 4 then
      var t := TokenTotal(ft);
      if t.Some? then Some(IntKey(t.value)) else None
    else
      var c := PyIndex(column, 4);
      if c.Some? then Some(FtColumn(ft, c.value)) else None
  }

  /** The key of column `c` of the list `[symbol, name, token id, utxoCount]`. */
  function FtColumn(ft: TokenBalance, c: nat): SortKey
    requires c < 4
  {
    if c == 0 then TextKey(ft.symbol)
    else if c == 1 then TextKey(ft.name)
    else if c == 2 then TextKey(TokenId(ft))
    else IntKey(ft.utxoCount)
  }

  /** The key each column shows: its cell's text, the output count, or the row's total. */
  lemma FtKeysMatchCells(ft: TokenBalance, column: int)
    requires FtRowOf(ft).Some?
    ensures FtItemValue(ft, 0) == Some(TextKey(FtRowOf(ft).value.symbol))
    ensures FtItemValue(ft, 1) == Some(TextKey(FtRowOf(ft).value.name))
    ensures FtItemValue(ft, 2) == Some(TextKey(FtRowOf(ft).value.tokenId))
    ensures ParseInt(FtRowOf(ft).value.utxoCount) == Some(ft.utxoCount)
    ensures FtItemValue(ft, 3) == Some(IntKey(ft.utxoCount))
    ensures column >= 4 ==> FtItemValue(ft, column) == Some(IntKey(FtRowOf(ft).value.total))
  {
    IntToStringRoundTrip(ft.utxoCount);
  }

  /** The key a sort uses; every key is defined whenever the sort proceeds. */
  function FtSortKey(column: int): (TokenBalance -> SortKey) {
    (ft: TokenBalance) => match FtItemValue(ft, column) case Some(k) => k case None => IntKey(0)
  }

  /** The token table's data: the balances it shows and their rows. */
  class FtModel {
    var fts: seq<TokenBalance>
    var rows: seq<FtRow>

    constructor ()
      ensures fts == [] && rows == []
    {
      fts := [];
      rows := [];
    }

    /**
     * `refresh`: holds the given list and appends one row per token, in order. A total that
     * `int` cannot read raises, leaving the rows built so far.
     */
    method Refresh(given: Option<seq<TokenBalance>>) returns (raised: bool)
      modifies this
      ensures fts == HeldList(given)
      ensures rows == FtRows(fts)
      ensures raised <==> !AllRows(fts)
    {
      hide FtRowOf, AllRows, UntilNone, FtRowOptions;
      var list := HeldList(given);
      var built: seq<FtRow> := [];
      var i := 0;
      ghost var opts := FtRowOptions(list);
      ghost var all := UntilNone(opts);
      FtRowsComplete(list);
      while i < |list|
        invariant 0 <= i <= |list|
        invariant i <= |all| && built == all[..i]
      {
        var row := FtRowOf(list[i]);
        if row.None? {
          assert i == |all|;
          assert built == all;
          fts, rows := list, built;
          return true;
        }
        UntilNoneStep(opts, i, row.value);
        built := built + [row.value];
        i := i + 1;
      }
      assert built == all;
      fts, rows := list, built;
      return false;
    }

    /**
     * `sort`: the tokens are reordered by the column's key and the rows rebuilt. A key that
     * raises leaves the list as it was; rebuilding the rows may raise as `refresh` does.
     */
    method Sort(column: int, descending: bool) returns (raised: bool)
      modifies this
      ensures var keys := forall i | 0 <= i < |old(fts)| :: FtItemValue(old(fts)[i], column).Some?;
              !keys ==> raised && fts == old(fts) && rows == old(rows)
      ensures !raised ==> rows == FtRows(fts) && AllRows(fts)
      ensures (forall i | 0 <= i < |old(fts)| :: FtItemValue(old(fts)[i], column).Some?) ==>
                multiset(fts) == multiset(old(fts)) && SortedBy(fts, FtSortKey(column), descending)
                && rows == FtRows(fts) && (raised <==> !AllRows(fts))
    {
      if exists i | 0 <= i < |fts| :: FtItemValue(fts[i], column).None? {
        return true;
      }
      var sorted := SortBy(fts, FtSortKey(column), descending);
      raised := Refresh(Some(sorted));
    }
  }

  // ---------------------------------------------------------------------------------------
  // Copying the selected rows
  // ---------------------------------------------------------------------------------------

  /** The rows below `n` that are in `rows`, ascending. */
  function Ascending(rows: set<nat>, n: nat): (r: seq<nat>)
    ensures forall k | 0 <= k < |r| :: r[k] < n && r[k] in rows
    ensures forall x | x in rows && x < n :: x in r
    ensures forall i, j | 0 <= i < j < |r| :: r[i] < r[j]
  {
    if n == 0 then [] else Ascending(rows, n - 1) + (if n - 1 in rows then [n - 1] else [])
  }

  /** `set(index.row() for index in selected_indexes)`. */
  function RowSet(selected: seq<nat>): (rows: set<nat>)
    ensures forall x :: x in rows <==> x in selected
  {
    set x | x in selected
  }

  /**
   * `set(index.row() for index in selected_indexes)` as it is iterated: each selected row
   * once, in ascending order.
   */
  function DistinctRows(selected: seq<nat>, rowCount: nat): (r: seq<nat>)
    requires forall k | 0 <= k < |selected| :: selected[k] < rowCount
    ensures forall k | 0 <= k < |r| :: r[k] in selected
    ensures forall k | 0 <= k < |selected| :: selected[k] in r
    ensures forall i, j | 0 <= i < j < |r| :: r[i] < r[j]
    ensures r == [] <==> selected == []
  {
    var rows := RowSet(selected);
    var r := Ascending(rows, rowCount);
    assert forall k | 0 <= k < |selected| :: selected[k] in rows;
    assert selected != [] ==> selected[0] in r;
    assert r != [] ==> r[0] in rows;
    r
  }

  /** `separator.join(parts)`. */
  function Join(separator: string, parts: seq<string>): (r: string)
    ensures parts == [] ==> r == []
    ensures |parts| == 1 ==> r == parts[0]
  {
    if parts == [] then [] else if |parts| == 1 then parts[0] else parts[0] + separator + Join(separator, parts[1..])
  }

  /** The cells of a row, joined by the separator in column order. */
  function RowLine(table: seq<seq<string>>, row: nat, separator: string): string
    requires row < |table|
  {
    Join(separator, table[row])
  }

  /** The lines `copy_table_selected` builds: one per distinct selected row. */
  function CopyLines(table: seq<seq<string>>, selected: seq<nat>, separator: string): (lines: seq<string>)
    requires forall k | 0 <= k < |selected| :: selected[k] < |table|
  {
    var rows := DistinctRows(selected, |table|);
    seq(|rows|, k requires 0 <= k < |rows| => RowLine(table, rows[k], separator))
  }

  /**
   * `copy_table_selected`: the text put on the clipboard, the lines joined by line breaks;
   * None where nothing is selected and the clipboard is left alone.
   */
  function CopyTableSelected(table: seq<seq<string>>, selected: seq<nat>, separator: string): (r: Option<string>)
    requires forall k | 0 <= k < |selected| :: selected[k] < |table|
    ensures r.None? <==> selected == []
  {
    var lines := CopyLines(table, selected, separator);
    if lines == [] then None else Some(Join("\n", lines))
  }

  /**
   * One line per selected row, however many of its cells are selected, in row order, each
   * the row's cells joined by the separator.
   */
  lemma CopyOneLinePerRow(table: seq<seq<string>>, selected: seq<nat>, separator: string, rows: seq<nat>)
    requires forall k | 0 <= k < |selected| :: selected[k] < |table|
    requires rows == DistinctRows(selected, |table|)
    ensures |CopyLines(table, selected, separator)| == |rows|
    ensures forall k | 0 <= k < |rows| :: CopyLines(table, selected, separator)[k] == Join(separator, table[rows[k]])
    ensures forall k | 0 <= k < |selected| :: selected[k] in rows
    ensures forall k | 0 <= k < |rows| :: rows[k] in selected
    ensures forall i, j | 0 <= i < j < |rows| :: rows[i] != rows[j]
  {
  }

  /** The items at the given rows, in the order of the rows. */
  function Picked<T>(items: seq<T>, rows: seq<nat>): (r: seq<T>)
    requires forall k | 0 <= k < |rows| :: rows[k] < |items|
    ensures |r| == |rows|
  {
    seq(|rows|, k requires 0 <= k < |rows| => items[rows[k]])
  }

  lemma PickedSnoc<T>(items: seq<T>, rows: seq<nat>, i: nat)
    requires forall k | 0 <= k < |rows| :: rows[k] < |items|
    requires i < |rows|
    ensures Picked(items, rows[..i + 1]) == Picked(items, rows[..i]) + [items[rows[i]]]
  {
    var left := Picked(items, rows[..i + 1]);
    var right := Picked(items, rows[..i]) + [items[rows[i]]];
    assert |left| == |right|;
    forall k | 0 <= k < |left|
      ensures left[k] == right[k]
    {
    }
  }

  /** The items at the given rows, appended one row at a time. */
  method PickRows<T>(items: seq<T>, rows: seq<nat>) returns (picked: seq<T>)
    requires forall k | 0 <= k < |rows| :: rows[k] < |items|
    ensures picked == Picked(items, rows)
  {
    picked := [];
    var i := 0;
    while i < |rows|
      invariant 0 <= i <= |rows|
      invariant picked == Picked(items, rows[..i])
    {
      PickedSnoc(items, rows, i);
      picked := picked + [items[rows[i]]];
      i := i + 1;
    }
    assert rows[..i] == rows;
  }

  /**
   * The items picked by hand: one per distinct selected row, however many of the row's cells
   * are selected and in whatever order, each one of the held items; a row is picked iff one
   * of its cells is selected, and rows are visited in ascending order.
   */
  lemma PickedSelection<T>(items: seq<T>, selected: seq<nat>, other: seq<nat>)
    requires forall k | 0 <= k < |selected| :: selected[k] < |items|
    requires forall k | 0 <= k < |other| :: other[k] < |items|
    requires forall x :: x in selected <==> x in other
    ensures Picked(items, DistinctRows(selected, |items|)) == Picked(items, DistinctRows(other, |items|))
    ensures |Picked(items, DistinctRows(selected, |items|))| <= |items|
    ensures forall k | 0 <= k < |selected| :: items[selected[k]] in Picked(items, DistinctRows(selected, |items|))
    ensures forall x | x in Picked(items, DistinctRows(selected, |items|)) :: x in items
  {
    var rows := DistinctRows(selected, |items|);
    assert RowSet(selected) == RowSet(other);
    assert rows == DistinctRows(other, |items|);
    AscendingLength(rows, |items|);
    forall k | 0 <= k < |selected|
      ensures items[selected[k]] in Picked(items, rows)
    {
      var j :| 0 <= j < |rows| && rows[j] == selected[k];
      assert Picked(items, rows)[j] == items[selected[k]];
    }
  }

  /** A strictly increasing sequence of rows below `n` has at most `n` entries. */
  lemma {:induction false} AscendingLength(rows: seq<nat>, n: nat)
    requires forall k | 0 <= k < |rows| :: rows[k] < n
    requires forall i, j | 0 <= i < j < |rows| :: rows[i] < rows[j]
    ensures |rows| <= n
    decreases |rows|
  {
    if rows != [] {
      var last := rows[|rows| - 1];
      var init := rows[..|rows| - 1];
      assert forall k | 0 <= k < |init| :: init[k] < last;
      AscendingLength(init, last);
    }
  }
}

=== FILE: contract.dfy ===
/**
 * The wallet's side of the embedded token script: the table of pending callbacks keyed by
 * request id, the parameters handed to `ftTransfer`, and the `local-file://` URL scheme that
 * serves the script's files.
 */
module Contract {
  import opened Wrappers
  import opened PyText
  import opened Model

  /** A Python callable waiting for a reply, identified by the object it belongs to. */
  datatype Handler = Handler(owner: nat)

  // ---------------------------------------------------------------------------------------
  // The callback table
  // ---------------------------------------------------------------------------------------

  /** `callbacks[request_id] = callback`. */
  function Register(table: map<string, Handler>, requestId: string, callback: Handler): (r: map<string, Handler>)
    ensures requestId in r && r[requestId] == callback
    ensures forall id | id in table && id != requestId :: id in r && r[id] == table[id]
    ensures r.Keys == table.Keys + {requestId}
  {
    table[requestId := callback]
  }

  /**
   * `js_callback`: a registered id is popped and its callback is the one to invoke; any other
   * id leaves the table as it was and invokes nothing.
   */
  function Deliver(table: map<string, Handler>, requestId: string): (r: (map<string, Handler>, Option<Handler>))
    ensures requestId in table ==> r.1 == Some(table[requestId]) && r.0.Keys == table.Keys - {requestId}
    ensures requestId in table ==> forall id | id in r.0 :: r.0[id] == table[id]
    ensures requestId !in table ==> r == (table, None)
  {
    if requestId in table then (table - {requestId}, Some(table[requestId])) else (table, None)
  }

  /**
   * A registered callback is invoked by the first reply with its id, and never again; other
   * pending callbacks stay registered.
   */
  lemma DeliverOnce(table: map<string, Handler>, requestId: string, callback: Handler)
    ensures Deliver(Register(table, requestId, callback), requestId).1 == Some(callback)
    ensures Deliver(Deliver(Register(table, requestId, callback), requestId).0, requestId).1 == None
    ensures forall id | id in table && id != requestId :: id in Deliver(Register(table, requestId, callback), requestId).0
  {
    var registered := Register(table, requestId, callback);
    var (after, invoked) := Deliver(registered, requestId);
    assert requestId !in after;
  }

  /** The callback table of the browser view: a dictionary its methods update in place. */
  class CallbackTable {
    var callbacks: map<string, Handler>

    constructor ()
      ensures callbacks == map[]
    {
      callbacks := map[];
    }

    /**
     * `register_callback`: stores the callback under a new id and returns the id. The id is
     * `uuid4()`, a parameter here, which the table does not hold yet.
     */
    method RegisterCallback(newId: string, callback: Handler) returns (requestId: string)
      requires newId !in callbacks
      modifies this
      ensures requestId == newId
      ensures callbacks == Register(old(callbacks), newId, callback)
    {
      callbacks := callbacks[newId := callback];
      requestId := newId;
    }

    /** `js_callback`: returns the callback to invoke with the result, if the id is pending. */
    method JsCallback(requestId: string) returns (invoke: Option<Handler>)
      modifies this
      ensures (callbacks, invoke) == Deliver(old(callbacks), requestId)
    {
      if requestId in callbacks {
        invoke := Some(callbacks[requestId]);
        callbacks := callbacks - {requestId};
      } else {
        invoke := None;
      }
    }
  }

  // ---------------------------------------------------------------------------------------
  // `ft_transfer`
  // ---------------------------------------------------------------------------------------

  /** The parameters of the `ftTransfer( ... )` call. */
  datatype TransferParams = TransferParams(
    requestId: string,
    network: string,
    purse: string,
    feeb: nat,
    codehash: string,
    genesis: string,
    receivers: seq<FtReceiver>,
    senderWif: string,
    utxoCount: int)

  /**
   * `ft_transfer`'s parameters: 'mainnet' exactly for the main chain, the sender's WIF as both
   * purse and sender, one satoshi per byte, and the token's code hash, genesis and output count.
   */
  function FtTransferParams(ft: TokenBalance, chain: Chain, wif: string, requestId: string, receivers: seq<FtReceiver>)
    : (p: TransferParams)
    ensures p.network == (if chain == Main then "mainnet" else "testnet")
    ensures p.purse == wif && p.senderWif == wif && p.feeb == 1
    ensures p.codehash == ft.codeHash && p.genesis == ft.genesis && p.utxoCount == ft.utxoCount
    ensures p.requestId == requestId && p.receivers == receivers
  {
    TransferParams(requestId, if chain == Main then "mainnet" else "testnet", wif, 1,
                   ft.codeHash, ft.genesis, receivers, wif, ft.utxoCount)
  }

  /** The two chains are told apart by the network name. */
  lemma NetworkNamesChain(ft: TokenBalance, wif: string, requestId: string, receivers: seq<FtReceiver>)
    ensures FtTransferParams(ft, Main, wif, requestId, receivers).network
            != FtTransferParams(ft, Test, wif, requestId, receivers).network
  {
    var m := FtTransferParams(ft, Main, wif, requestId, receivers).network;
    var t := FtTransferParams(ft, Test, wif, requestId, receivers).network;
    assert m[0] == 'm' && t[0] == 't';
  }

  // ---------------------------------------------------------------------------------------
  // `local-file://` URLs
  // ---------------------------------------------------------------------------------------

  const SCHEME: string := "local-file://"

  /**
   * `^(local-file)://(.+(\..+))$`: the file name is everything after the scheme and the
   * extension starts at the last '.' with at least one character on each side of it. `.` does
   * not match a line break, and `$` also matches before a final one.
   */
  function ParseLocalFileUrl(url: string): (r: Option<(string, string)>)
    ensures r.Some? ==> SCHEME <= url && 2 <= |r.value.1| < |r.value.0| && r.value.1[0] == '.'
    ensures r.Some? ==> r.value.0[|r.value.0| - |r.value.1|..] == r.value.1
    ensures r.Some? ==> forall i | |r.value.0| - |r.value.1| < i < |r.value.0| - 1 :: r.value.0[i] != '.'
  {
    if !(SCHEME <= url) then None
    else
      var rest := url[|SCHEME|..];
      var name := if rest != [] && rest[|rest| - 1] == '\n' then rest[..|rest| - 1] else rest;
      if exists i | 0 <= i < |name| :: name[i] == '\n' then None
      else
        match LastDot(name, |name| - 2)
        case None => None
        case Some(j) => Some((name, name[j..]))
  }

  /** The largest j in [1, k] with `s[j] == '.'`. */
  function LastDot(s: string, k: int): (r: Option<nat>)
    requires k < |s|
    ensures r.Some? ==> 1 <= r.value <= k && s[r.value] == '.'
    ensures r.Some? ==> forall i | r.value < i <= k :: s[i] != '.'
    ensures r.None? ==> forall i | 1 <= i <= k :: s[i] != '.'
    decreases k
  {
    if k < 1 then None
    else if s[k] == '.' then Some(k)
    else LastDot(s, k - 1)
  }

  /**
   * A URL made of the scheme, a stem and a dotted extension whose tail holds no further dot is
   * served as that file, with that extension.
   */
  lemma LocalFileUrlParts(stem: string, tail: string)
    requires |stem| >= 1 && |tail| >= 1
    requires forall i | 0 <= i < |stem| :: stem[i] != '\n'
    requires forall i | 0 <= i < |tail| :: tail[i] != '\n' && tail[i] != '.'
    ensures ParseLocalFileUrl(SCHEME + (stem + ("." + tail))) == Some((stem + ("." + tail), "." + tail))
  {
    var ext := "." + tail;
    var name := stem + ext;
    var url := SCHEME + name;
    assert url[..|SCHEME|] == SCHEME && url[|SCHEME|..] == name;
    assert name[|name| - 1] == tail[|tail| - 1];
    forall i | 0 <= i < |name|
      ensures name[i] != '\n'
    {
      if i >= |stem| + 1 {
        assert name[i] == tail[i - |stem| - 1];
      } else if i < |stem| {
        assert name[i] == stem[i];
      }
    }
    var j := |stem|;
    assert name[j] == '.';
    forall i | j < i <= |name| - 2
      ensures name[i] != '.'
    {
      assert name[i] == tail[i - j - 1];
    }
    assert name[j..] == ext;
  }
}

=== FILE: hd.dfy ===
/**
 * The HD backup dialog: which mnemonic and derivation path enable OK, and the record emitted
 * when it is pressed.
 */
module Hd {
  import opened PyText
  import opened Mvclib

  // ---------------------------------------------------------------------------------------
  // The derivation-path grammar `^m(/\d+'?)+$`
  // ---------------------------------------------------------------------------------------

  /**
   * `(/\d+'?)+` matching all of `s`. Segments are separated by '/', which is neither a digit
   * nor a quote, so reading the digits greedily is the only way to match.
   */
  predicate SegmentsValid(s: string)
    decreases |s|
  {
    |s| >= 1 && s[0] == '/' &&
    var n := DigitRun(s[1..]);
    n >= 1 &&
    var rest := s[1 + n..];
    var after := if rest != [] && rest[0] == '\'' then rest[1..] else rest;
    after == [] || SegmentsValid(after)
  }

  /** `path_valid`: the stripped text is "m" followed by one or more path segments. */
  predicate PathValid(text: string) {
    var t := Strip(text);
    |t| >= 1 && t[0] == 'm' && SegmentsValid(t[1..])
  }

  /** One path segment: a child index written in digits, hardened or not. */
  datatype Segment = Segment(index: string, hardened: bool)

  predicate SegmentWellFormed(g: Segment) {
    |g.index| >= 1 && AllDigits(g.index)
  }

  function RenderSegment(g: Segment): string {
    "/" + g.index + (if g.hardened then "'" else "")
  }

  function RenderSegments(gs: seq<Segment>): string {
    if gs == [] then [] else RenderSegment(gs[0]) + RenderSegments(gs[1..])
  }

  /** The path written out from its segments. */
  function RenderPath(gs: seq<Segment>): string {
    "m" + RenderSegments(gs)
  }

  /** Every well-formed, non-empty list of segments renders to text the grammar accepts. */
  lemma {:induction false} RenderSegmentsValid(gs: seq<Segment>)
    requires |gs| >= 1
    requires forall i | 0 <= i < |gs| :: SegmentWellFormed(gs[i])
    ensures SegmentsValid(RenderSegments(gs))
  {
    var g := gs[0];
    var tail := RenderSegments(gs[1..]);
    var quote: string := if g.hardened then "'" else "";
    assert RenderSegments(gs) == "/" + (g.index + (quote + tail));
    if |gs| > 1 {
      RenderSegmentsValid(gs[1..]);
    } else {
      assert gs[1..] == [];
    }
    assert SegmentWellFormed(g);
    SegmentThenValid(g.index, quote, tail);
  }

  /** One segment, with or without its quote, in front of nothing or of accepted segments. */
  lemma SegmentThenValid(index: string, quote: string, tail: string)
    requires |index| >= 1 && AllDigits(index)
    requires quote == "'" || quote == ""
    requires tail == [] || SegmentsValid(tail)
    ensures SegmentsValid("/" + (index + (quote + tail)))
  {
    var s := "/" + (index + (quote + tail));
    var rest := quote + tail;
    assert s[1..] == index + rest;
    DigitRunPrefix(index, rest);
    assert s[1 + |index|..] == rest;
    if quote == "'" {
      assert rest[1..] == tail;
    } else {
      assert rest == tail;
    }
  }

  /** The segments a text accepted by the grammar is made of. */
  function Decompose(s: string): (gs: seq<Segment>)
    requires SegmentsValid(s)
    ensures |gs| >= 1
    ensures forall i | 0 <= i < |gs| :: SegmentWellFormed(gs[i])
    ensures RenderSegments(gs) == s
    decreases |s|
  {
    SegmentsValidLength(s);
    hide RenderSegments, RenderSegment, SegmentsValid;
    var n := DigitRun(s[1..]);
    var rest := s[1 + n..];
    var hardened := rest != [] && rest[0] == '\'';
    var after := if hardened then rest[1..] else rest;
    var g := Segment(s[1..][..n], hardened);
    HeadSegment(s, n, rest, g, after);
    if after == [] then
      RenderSegmentsCons(g, []);
      assert [g] + [] == [g];
      [g]
    else
      var more := Decompose(after);
      RenderSegmentsCons(g, more);
      [g] + more
  }

  /** The first segment cut off an accepted list, and what follows it. */
  lemma HeadSegment(s: string, n: nat, rest: string, g: Segment, after: string)
    requires SegmentsValid(s)
    requires n == DigitRun(s[1..]) && rest == s[1 + n..]
    requires g == Segment(s[1..][..n], rest != [] && rest[0] == '\'')
    requires after == if g.hardened then rest[1..] else rest
    ensures SegmentWellFormed(g) && s == RenderSegment(g) + after && |after| < |s|
    ensures after == [] || SegmentsValid(after)
  {
    assert s[0] == '/' && n >= 1;
    HeadSegmentText(s, n, rest, g, after);
  }

  lemma HeadSegmentText(s: string, n: nat, rest: string, g: Segment, after: string)
    requires |s| >= 1 + n && s[0] == '/' && n >= 1
    requires rest == s[1 + n..] && g.index == s[1..][..n]
    requires g.hardened == (rest != [] && rest[0] == '\'')
    requires after == if g.hardened then rest[1..] else rest
    ensures s == RenderSegment(g) + after
  {
    var quote: string := if g.hardened then "'" else "";
    assert rest == quote + after by {
      if g.hardened {
        assert rest == [rest[0]] + after;
      }
    }
    assert s == [s[0]] + s[1..][..n] + rest;
  }

  lemma RenderSegmentsCons(g: Segment, gs: seq<Segment>)
    ensures RenderSegments([g] + gs) == RenderSegment(g) + RenderSegments(gs)
  {
    assert ([g] + gs)[1..] == gs;
  }

  predicate SegmentsWellFormed(gs: seq<Segment>) {
    |gs| >= 1 && forall i | 0 <= i < |gs| :: SegmentWellFormed(gs[i])
  }

  /** The segments of an accepted path, read back from its stripped text. */
  function PathSegments(text: string): (gs: seq<Segment>)
    requires PathValid(text)
    ensures SegmentsWellFormed(gs)
    ensures RenderPath(gs) == Strip(text)
  {
    var t := Strip(text);
    var gs := Decompose(t[1..]);
    MarkThenSegments(t);
    gs
  }

  lemma MarkThenSegments(t: string)
    requires |t| >= 1 && t[0] == 'm'
    ensures t == "m" + t[1..]
  {
    assert t == [t[0]] + t[1..];
  }

  /** Conversely, "m" and one or more well-formed segments, with any whitespace around, is accepted. */
  lemma RenderPathValid(gs: seq<Segment>, text: string)
    requires SegmentsWellFormed(gs)
    requires RenderPath(gs) == Strip(text)
    ensures PathValid(text)
  {
    RenderSegmentsValid(gs);
    assert Strip(text)[1..] == RenderSegments(gs);
  }

  /** A segment list is at least a slash and a digit long. */
  lemma SegmentsValidLength(s: string)
    requires SegmentsValid(s)
    ensures |s| >= 2
  {
  }

  /** Whitespace typed around the path does not change whether it is accepted. */
  lemma PathValidPadded(w1: string, t: string, w2: string)
    requires AllSpace(w1) && AllSpace(w2)
    ensures PathValid(w1 + t + w2) <==> PathValid(t)
  {
    StripPadded(w1, t, w2);
  }

  // ---------------------------------------------------------------------------------------
  // The dialog
  // ---------------------------------------------------------------------------------------

  /** `mnemonic_valid`: the library accepts the stripped text; a raise is False. */
  predicate MnemonicValid(lib: Library, text: string) {
    lib.validateMnemonic(Strip(text))
  }

  /** `enable_ok_button`. */
  predicate OkEnabled(lib: Library, mnemonicText: string, pathText: string) {
    MnemonicValid(lib, mnemonicText) && PathValid(pathText)
  }

  /** What `ok_button_clicked` emits. */
  datatype HdBackup = HdBackup(mnemonic: string, path: string, passphrase: string)

  /** The record: the mnemonic stripped, path and passphrase as typed. */
  function OkRecord(mnemonicText: string, pathText: string, passphraseText: string): (r: HdBackup)
    ensures Strip(r.mnemonic) == r.mnemonic
    ensures r.mnemonic == Strip(mnemonicText)
    ensures r.path == pathText && r.passphrase == passphraseText
  {
    StripIdempotent(mnemonicText);
    HdBackup(Strip(mnemonicText), pathText, passphraseText)
  }

  /**
   * Whenever OK can be pressed, the record it emits passes both checks again as it stands:
   * the consumer may re-validate it without stripping anything.
   */
  lemma OkRecordValid(lib: Library, mnemonicText: string, pathText: string, passphraseText: string)
    requires OkEnabled(lib, mnemonicText, pathText)
    ensures var r := OkRecord(mnemonicText, pathText, passphraseText);
            MnemonicValid(lib, r.mnemonic) && PathValid(r.path) && lib.validateMnemonic(r.mnemonic)
  {
  }

  /**
   * The first segment of an accepted list: a slash, `n` digits and an optional quote, `k`
   * characters in all, followed by nothing or by another accepted list.
   */
  lemma FirstSegment(s: string) returns (n: nat, k: nat)
    requires SegmentsValid(s)
    ensures 1 <= n && 1 + n <= k <= 2 + n && k <= |s| && s[0] == '/'
    ensures forall j | 1 <= j < 1 + n :: IsDigit(s[j])
    ensures s[1 + n - 1] != '\'' && (1 + n < |s| ==> (s[1 + n] == '\'' <==> k == 2 + n))
    ensures k == |s| || SegmentsValid(s[k..])
  {
    n := DigitRun(s[1..]);
    var rest := s[1 + n..];
    k := if rest != [] && rest[0] == '\'' then 2 + n else 1 + n;
    forall j | 1 <= j < 1 + n
      ensures IsDigit(s[j])
    {
      assert s[j] == s[1..][..n][j - 1];
    }
    assert rest == s[k - 1..] || rest == s[k..];
  }

  /** In an accepted segment list a quote is last or followed by the next segment's slash. */
  lemma {:induction false} QuoteEndsSegment(s: string, i: nat)
    requires SegmentsValid(s)
    requires i + 1 < |s| && s[i] == '\''
    ensures s[i + 1] == '/'
    decreases |s|
  {
    var n, k := FirstSegment(s);
    if i < 1 + n {
      assert false;
    } else if i < k {
      assert i + 1 == k;
      assert SegmentsValid(s[k..]);
      assert s[k..][0] == s[i + 1];
    } else {
      var after := s[k..];
      assert after[i - k] == s[i] && after[i - k + 1] == s[i + 1];
      QuoteEndsSegment(after, i - k);
    }
  }

  /**
   * A segment is hardened by one quote, never two: a doubled quote anywhere in the stripped
   * text (as in "m/44''") rejects the path.
   */
  lemma DoubledQuoteRejected(text: string, i: nat)
    requires i + 1 < |Strip(text)| && Strip(text)[i] == '\'' && Strip(text)[i + 1] == '\''
    ensures !PathValid(text)
  {
    var t := Strip(text);
    if PathValid(text) {
      assert t[1..][i - 1] == t[i];
      QuoteEndsSegment(t[1..], i - 1);
      assert false;
    }
  }
}

/** Concrete derivation paths the dialog accepts and rejects. */
module HdExamples {
  import opened PyText
  import opened Hd

  /** The default BIP44 path is accepted. */
  lemma PathExampleAccepted(t: string)
    requires t == "m/44'/0'/0'"
    ensures PathValid(t)
  {
    BipSegments(t[1..]);
    PathOfSegments(t);
  }

  /** The three hardened segments of the default path. */
  lemma BipSegments(s: string)
    requires s == "/44'/0'/0'"
    ensures SegmentsValid(s)
  {
    hide SegmentsValid;
    var zeros := "/0'/0'";
    ZeroSegments(zeros);
    SegmentThenValid("44", "'", zeros);
    assert "/" + ("44" + ("'" + zeros)) == s;
  }

  /** The two hardened zero segments that end the default path. */
  lemma ZeroSegments(s: string)
    requires s == "/0'/0'"
    ensures SegmentsValid(s)
  {
    hide SegmentsValid;
    SegmentThenValid("0", "'", []);
    assert "/" + ("0" + ("'" + [])) == "/0'";
    SegmentThenValid("0", "'", "/0'");
    assert "/" + ("0" + ("'" + "/0'")) == s;
  }

  /** A bare "m" and an empty segment are rejected: a path is at least three characters long. */
  lemma PathExamplesTooShort(bare: string, empty: string)
    requires bare == "m" && empty == "m/"
    ensures !PathValid(bare) && !PathValid(empty)
  {
    if PathValid(bare) {
      SegmentsValidLength(Strip(bare)[1..]);
      assert false;
    }
    if PathValid(empty) {
      SegmentsValidLength(Strip(empty)[1..]);
      assert false;
    }
  }

  /** A segment must hold digits. */
  lemma PathExampleLetter(t: string)
    requires t == "m/a"
    ensures !PathValid(t)
  {
    PathOfSegments(t);
    SegmentNeedsDigit(t[1..]);
  }

  /** A text that starts with 'm' and does not end in whitespace is a path iff its segments are. */
  lemma PathOfSegments(t: string)
    requires |t| >= 1 && t[0] == 'm' && !IsSpace(t[|t| - 1])
    ensures PathValid(t) <==> SegmentsValid(t[1..])
  {
    StripUnpadded(t);
    var u := Strip(t);
    assert PathValid(t) == (|u| >= 1 && u[0] == 'm' && SegmentsValid(u[1..]));
  }

  /** A segment whose first character after '/' is not a digit is rejected. */
  lemma SegmentNeedsDigit(s: string)
    requires |s| >= 2 && !IsDigit(s[1])
    ensures !SegmentsValid(s)
  {
    assert s[1..][0] == s[1];
  }
}

=== FILE: input_dialog.dfy ===
/**
 * The one-line input dialog: a field of at most 150 characters whose OK button is enabled
 * while the stripped text passes the caller's validator, and which hands back the stripped
 * text.
 */
module InputDialog {
  import opened Wrappers
  import opened PyText

  /** `setMaxLength(150)`. */
  const MAX_LENGTH: nat := 150

  /** `_not_blank`, the default validator: any non-empty text. */
  predicate NotBlank(s: string) {
    s != ""
  }

  /** Text put into the field is cut to the maximum length. */
  function Cut(typed: string): (r: string)
    ensures |r| <= MAX_LENGTH
    ensures r <= typed
    ensures |typed| <= MAX_LENGTH ==> r == typed
  {
    if |typed| <= MAX_LENGTH then typed else typed[..MAX_LENGTH]
  }

  /** Text made of whitespace alone strips to nothing, so the default validator refuses it. */
  lemma BlankRefused(s: string)
    requires AllSpace(s)
    ensures Strip(s) == ""
    ensures !NotBlank(Strip(s))
  {
    StripPadded(s, [], []);
    assert s + [] + [] == s;
  }

  /** The dialog's state: the validator it was made with, the field, and whether OK can be clicked. */
  class InputDialogForm {
    const validator: string -> bool
    var text: string
    var okEnabled: bool

    /** `enable_ok_button` has run after the last change of the field. */
    predicate Valid()
      reads this
    {
      |text| <= MAX_LENGTH && (okEnabled <==> validator(Strip(text)))
    }

    /**
     * What an enabled OK button stands for: the field fits and its stripped text passes the
     * validator. Holds from the start, where OK is disabled, and after every edit.
     */
    predicate OkSound()
      reads this
    {
      |text| <= MAX_LENGTH && (okEnabled ==> validator(Strip(text)))
    }

    /** `InputDialogUi(validator)`: an empty field and a disabled OK button. */
    constructor (validator: string -> bool)
      ensures this.validator == validator && text == "" && !okEnabled
      ensures OkSound()
    {
      this.validator := validator;
      text := "";
      okEnabled := false;
    }

    /** Typing in the field: the text is cut to the maximum length and OK re-evaluated. */
    method Edit(typed: string)
      modifies this
      ensures Valid() && OkSound()
      ensures text == Cut(typed)
    {
      text := Cut(typed);
      okEnabled := validator(Strip(text));
    }

    /**
     * Clicking OK: `emit_text` sends the stripped text; a disabled OK button sends nothing.
     * What is sent passes the validator and has no surrounding whitespace.
     */
    method Accept() returns (emitted: Option<string>)
      requires OkSound()
      ensures emitted.Some? <==> okEnabled
      ensures emitted.Some? ==> emitted.value == Strip(text)
      ensures emitted.Some? ==> validator(emitted.value) && Strip(emitted.value) == emitted.value
      ensures emitted.Some? ==> |emitted.value| <= MAX_LENGTH
    {
      if !okEnabled {
        return None;
      }
      StripIdempotent(text);
      return Some(Strip(text));
    }
  }
}

=== FILE: keys.dfy ===
/**
 * The address book of an HD wallet: the first receive and change children of its extended
 * key, one table row per child with the path, the public key, the address, and the number
 * and value of the wallet's unspents held there; and the coin send started from the
 * unspents of the selected addresses.
 */
module Keys {
  import opened Wrappers
  import opened PyText
  import opened Model
  import opened Mvclib
  import opened Base

  // ---------------------------------------------------------------------------------------
  // Sums over unspents
  // ---------------------------------------------------------------------------------------

  /** `sum([unspent.satoshi for unspent in unspents])`. */
  function SumSatoshi(us: seq<Unspent>): nat {
    if us == [] then 0 else us[0].satoshi + SumSatoshi(us[1..])
  }

  lemma {:induction false} SumSatoshiConcat(a: seq<Unspent>, b: seq<Unspent>)
    ensures SumSatoshi(a + b) == SumSatoshi(a) + SumSatoshi(b)
    decreases |a|
  {
    if a == [] {
      assert a + b == b;
    } else {
      assert (a + b)[1..] == a[1..] + b;
      SumSatoshiConcat(a[1..], b);
    }
  }

  /** The balance does not depend on the order of the unspents, so sorting a table keeps it. */
  lemma {:induction false} SumSatoshiPermutation(a: seq<Unspent>, b: seq<Unspent>)
    requires multiset(a) == multiset(b)
    ensures SumSatoshi(a) == SumSatoshi(b)
    decreases |a|
  {
    if a == [] {
      assert |b| == |multiset(b)| == 0;
    } else {
      assert a[0] in multiset(b);
      var k :| 0 <= k < |b| && b[k] == a[0];
      var rest := RemoveFirstMatch(a, b, k);
      SumSatoshiPermutation(a[1..], rest);
      SumSatoshiRemove(b, k);
    }
  }

  /** Taking the head of `a` out of `b` where it sits keeps the two lists equal as multisets. */
  lemma RemoveFirstMatch(a: seq<Unspent>, b: seq<Unspent>, k: nat) returns (rest: seq<Unspent>)
    requires a != [] && multiset(a) == multiset(b) && k < |b| && b[k] == a[0]
    ensures rest == b[..k] + b[k + 1..]
    ensures multiset(a[1..]) == multiset(rest)
  {
    rest := b[..k] + b[k + 1..];
    assert b == b[..k] + [b[k]] + b[k + 1..];
    assert a == [a[0]] + a[1..];
    assert multiset(b) == multiset(b[..k]) + multiset([b[k]]) + multiset(b[k + 1..]);
    assert multiset(a) == multiset([a[0]]) + multiset(a[1..]);
    assert multiset(rest) == multiset(b[..k]) + multiset(b[k + 1..]);
    assert multiset(a[1..]) == multiset(a) - multiset([a[0]]);
    assert multiset(rest) == multiset(b) - multiset([b[k]]);
  }

  /** The balance of a list is one of its unspents plus the balance of the others. */
  lemma SumSatoshiRemove(b: seq<Unspent>, k: nat)
    requires k < |b|
    ensures SumSatoshi(b) == b[k].satoshi + SumSatoshi(b[..k] + b[k + 1..])
  {
    var before, x, after := b[..k], b[k], b[k + 1..];
    assert SumSatoshi([x]) == x.satoshi by {
      assert [x][1..] == [];
    }
    hide SumSatoshi;
    assert SumSatoshi(b) == SumSatoshi(before + [x]) + SumSatoshi(after) by {
      assert b == before + [x] + after;
      SumSatoshiConcat(before + [x], after);
    }
    assert SumSatoshi(before + [x]) == SumSatoshi(before) + x.satoshi by {
      SumSatoshiConcat(before, [x]);
    }
    SumSatoshiConcat(before, after);
  }

  /** The unspents held at one of the addresses, in their order. */
  function AtAddresses(us: seq<Unspent>, addresses: seq<string>): (r: seq<Unspent>)
    ensures |r| <= |us|
    decreases |us|
  {
    if us == [] then []
    else AtAddresses(us[..|us| - 1], addresses) + (if us[|us| - 1].address in addresses then [us[|us| - 1]] else [])
  }

  /** Filtering a list is filtering each part: the kept unspents stay in their order. */
  lemma {:induction false} AtAddressesConcat(a: seq<Unspent>, b: seq<Unspent>, addresses: seq<string>)
    ensures AtAddresses(a + b, addresses) == AtAddresses(a, addresses) + AtAddresses(b, addresses)
    decreases |b|
  {
    if b == [] {
      assert a + b == a;
    } else {
      var b' := b[..|b| - 1];
      assert (a + b)[..|a + b| - 1] == a + b';
      AtAddressesConcat(a, b', addresses);
    }
  }

  /** An unspent is kept iff it is held and its address is one of the addresses. */
  lemma {:induction false} AtAddressesMembers(us: seq<Unspent>, addresses: seq<string>)
    ensures forall u :: u in AtAddresses(us, addresses) <==> u in us && u.address in addresses
    decreases |us|
  {
    if us != [] {
      var init := us[..|us| - 1];
      AtAddressesMembers(init, addresses);
      assert us == init + [us[|us| - 1]];
    }
  }

  /** `sum([unspent.satoshi if unspent.address == address else 0 for unspent in unspents])`. */
  function AddressBalance(us: seq<Unspent>, address: string): nat {
    if us == [] then 0 else (if us[0].address == address then us[0].satoshi else 0) + AddressBalance(us[1..], address)
  }

  /** `sum([1 if unspent.address == address else 0 for unspent in unspents])`. */
  function AddressCount(us: seq<Unspent>, address: string): nat {
    if us == [] then 0 else (if us[0].address == address then 1 else 0) + AddressCount(us[1..], address)
  }

  /**
   * The balance and the count shown for an address are the value and the number of the
   * unspents held at that address.
   */
  lemma {:induction false} AddressTotals(us: seq<Unspent>, address: string)
    ensures AddressBalance(us, address) == SumSatoshi(AtAddresses(us, [address]))
    ensures AddressCount(us, address) == |AtAddresses(us, [address])|
    decreases |us|
  {
    if us != [] {
      var x := us[0];
      assert us == [x] + us[1..];
      AtAddressesConcat([x], us[1..], [address]);
      AddressTotals(us[1..], address);
      assert AtAddresses([x], [address]) == (if x.address == address then [x] else []) by {
        assert [x][..0] == [];
      }
      SumSatoshiConcat(AtAddresses([x], [address]), AtAddresses(us[1..], [address]));
      assert SumSatoshi([x]) == x.satoshi by {
        assert [x][1..] == [];
      }
    }
  }

  /** No address holds more than the whole list. */
  lemma {:induction false} AddressBalanceBound(us: seq<Unspent>, address: string)
    ensures AddressBalance(us, address) <= SumSatoshi(us)
    ensures AddressCount(us, address) <= |us|
    decreases |us|
  {
    if us != [] {
      AddressBalanceBound(us[1..], address);
    }
  }

  /** Picks the unspents held at one of the addresses, one unspent at a time. */
  method SelectAtAddresses(us: seq<Unspent>, addresses: seq<string>) returns (picked: seq<Unspent>)
    ensures picked == AtAddresses(us, addresses)
  {
    picked := [];
    var i := 0;
    while i < |us|
      invariant 0 <= i <= |us|
      invariant picked == AtAddresses(us[..i], addresses)
    {
      assert us[..i + 1][..i] == us[..i];
      if us[i].address in addresses {
        picked := picked + [us[i]];
      }
      i := i + 1;
    }
    assert us[..i] == us;
  }

  // ---------------------------------------------------------------------------------------
  // Path labels
  // ---------------------------------------------------------------------------------------

  /** `str(i).zfill(len(str(count)))`. */
  function IndexDigits(i: nat, count: nat): string {
    ZFill(NatToString(i), |NatToString(count)|)
  }

  /** `f'{change}/{str(i).zfill(len(str(count)))}'`. */
  function PathLabel(change: nat, i: nat, count: nat): string {
    NatToString(change) + "/" + IndexDigits(i, count)
  }

  /** Below `count`, the index part has exactly as many digits as `count` and reads back as the index. */
  lemma IndexDigitsValue(i: nat, count: nat)
    requires i < count
    ensures |IndexDigits(i, count)| == |NatToString(count)|
    ensures AllDigits(IndexDigits(i, count)) && DigitsValue(IndexDigits(i, count)) == i
  {
    NatToStringLengthMono(i, count);
    ZFillDigits(NatToString(i), |NatToString(count)|);
  }

  /** On digit strings of one length, the text order is the order of the values. */
  lemma {:induction false} DigitsOrder(a: string, b: string)
    requires |a| == |b| && AllDigits(a) && AllDigits(b)
    requires DigitsValue(a) <= DigitsValue(b)
    ensures LexLeq(a, b)
    decreases |a|
  {
    if a != [] {
      var x, y := a[0], b[0];
      var a', b' := a[1..], b[1..];
      LeadingDigit(a);
      LeadingDigit(b);
      if x == y {
        DigitsOrder(a', b');
      } else if x > y {
        DigitsValueBound(b');
        LeadingDigitDominates(DigitValue(y), DigitValue(x), DigitsValue(b'), DigitsValue(a'), Pow10(|a'|));
      }
    }
  }

  /** The value of a digit string is its first digit, shifted, plus the value of the rest. */
  lemma LeadingDigit(a: string)
    requires a != [] && AllDigits(a)
    ensures AllDigits(a[1..])
    ensures DigitsValue(a) == DigitValue(a[0]) * Pow10(|a| - 1) + DigitsValue(a[1..])
  {
    var x := a[0];
    assert a == [x] + a[1..];
    DigitsValueConcat([x], a[1..]);
    assert DigitsValue([x]) == DigitValue(x) by {
      assert [x][..0] == [];
    }
  }

  lemma LeadingDigitDominates(low: nat, high: nat, lowRest: nat, highRest: nat, p: nat)
    requires low < high && lowRest < p
    ensures low * p + lowRest < high * p + highRest
  {
    assert high * p >= (low + 1) * p;
  }

  /** A shared prefix keeps the order of what follows it. */
  lemma {:induction false} LexLeqPrefix(prefix: string, a: string, b: string)
    requires LexLeq(a, b)
    ensures LexLeq(prefix + a, prefix + b)
    decreases |prefix|
  {
    if prefix != [] {
      assert (prefix + a)[1..] == prefix[1..] + a;
      assert (prefix + b)[1..] == prefix[1..] + b;
      LexLeqPrefix(prefix[1..], a, b);
      assert (prefix + a)[0] == prefix[0] == (prefix + b)[0];
    } else {
      assert prefix + a == a && prefix + b == b;
    }
  }

  /**
   * The zero padding makes the path column sort in derivation order: below `count`, the
   * path of a smaller index comes first, and two indexes never share a path.
   */
  lemma PathOrder(change: nat, i: nat, j: nat, count: nat)
    requires i <= j < count
    ensures LexLeq(PathLabel(change, i, count), PathLabel(change, j, count))
    ensures i != j ==> PathLabel(change, i, count) != PathLabel(change, j, count)
  {
    var prefix := NatToString(change) + "/";
    var di, dj := IndexDigits(i, count), IndexDigits(j, count);
    IndexDigitsValue(i, count);
    IndexDigitsValue(j, count);
    DigitsOrder(di, dj);
    LexLeqPrefix(prefix, di, dj);
    if i != j {
      assert (prefix + di)[|prefix|..] == di && (prefix + dj)[|prefix|..] == dj;
    }
  }

  // ---------------------------------------------------------------------------------------
  // The key table
  // ---------------------------------------------------------------------------------------

  /** One row of a key table; the balance column's `format_coin` text is kept as satoshi. */
  datatype XkeyRow = XkeyRow(path: string, publicKeyHex: string, address: string, utxo: string, balance: nat)

  /** The row of child `i`. */
  function XkeyRowOf(change: nat, xkeys: seq<DerivedKey>, us: seq<Unspent>, i: nat): XkeyRow
    requires i < |xkeys|
  {
    var a := xkeys[i].address;
    XkeyRow(PathLabel(change, i, |xkeys|), xkeys[i].publicKeyHex, a,
            NatToString(AddressCount(us, a)), AddressBalance(us, a))
  }

  /** The rows of a key table, one per child, in derivation order. */
  function XkeyRows(change: nat, xkeys: seq<DerivedKey>, us: seq<Unspent>): (rows: seq<XkeyRow>)
    ensures |rows| == |xkeys|
  {
    seq(|xkeys|, i requires 0 <= i < |xkeys| => XkeyRowOf(change, xkeys, us, i))
  }

  /**
   * Each row shows its child's public key and address, the number of unspents held at that
   * address (as text that reads back as the number) and their total value; the paths are
   * in derivation order.
   */
  lemma XkeyRowsShow(change: nat, xkeys: seq<DerivedKey>, us: seq<Unspent>, i: nat, j: nat)
    requires i <= j < |xkeys|
    ensures XkeyRows(change, xkeys, us)[i].address == xkeys[i].address
    ensures XkeyRows(change, xkeys, us)[i].publicKeyHex == xkeys[i].publicKeyHex
    ensures ParseInt(XkeyRows(change, xkeys, us)[i].utxo) == Some(|AtAddresses(us, [xkeys[i].address])|)
    ensures XkeyRows(change, xkeys, us)[i].balance == SumSatoshi(AtAddresses(us, [xkeys[i].address]))
    ensures LexLeq(XkeyRows(change, xkeys, us)[i].path, XkeyRows(change, xkeys, us)[j].path)
  {
    AddressTotals(us, xkeys[i].address);
    ParseIntNatToString(AddressCount(us, xkeys[i].address));
    PathOrder(change, i, j, |xkeys|);
  }

  /** The rows of the children, built one child at a time. */
  method BuildXkeyRows(change: nat, xkeys: seq<DerivedKey>, us: seq<Unspent>) returns (rows: seq<XkeyRow>)
    ensures rows == XkeyRows(change, xkeys, us)
  {
    rows := [];
    var i := 0;
    while i < |xkeys|
      invariant 0 <= i <= |xkeys|
      invariant rows == XkeyRows(change, xkeys, us)[..i]
    {
      var address := xkeys[i].address;
      var path := NatToString(change) + "/" + ZFill(NatToString(i), |NatToString(|xkeys|)|);
      var balance := AddressBalance(us, address);
      var utxo := AddressCount(us, address);
      rows := rows + [XkeyRow(path, xkeys[i].publicKeyHex, address, NatToString(utxo), balance)];
      i := i + 1;
    }
  }

  /** A key table's data: the children it lists, the unspents it counts, and its rows. */
  class XkeyModel {
    const change: nat
    const xkeys: seq<DerivedKey>
    var unspents: seq<Unspent>
    var rows: seq<XkeyRow>

    predicate Valid()
      reads this
    {
      rows == XkeyRows(change, xkeys, unspents)
    }

    constructor (given: Option<seq<DerivedKey>>, us: Option<seq<Unspent>>, change: nat)
      ensures Valid() && this.change == change
      ensures xkeys == HeldList(given) && unspents == HeldList(us)
    {
      this.change := change;
      this.xkeys := HeldList(given);
      unspents := HeldList(us);
      new;
      Refresh(us);
    }

    /** `refresh`: counts the given unspents (none for None) and rebuilds every row. */
    method Refresh(given: Option<seq<Unspent>>)
      modifies this
      ensures Valid() && unspents == HeldList(given)
    {
      unspents := HeldList(given);
      rows := BuildXkeyRows(change, xkeys, unspents);
    }
  }

  // ---------------------------------------------------------------------------------------
  // The address book window
  // ---------------------------------------------------------------------------------------

  /**
   * The extended key of the window: `Xprv` of a non-empty stored xprv, otherwise `Xpub` of
   * the stored xpub; None where the stored text does not decode or there is no xpub.
   */
  function KeysXkey(lib: Library, w: WalletEntry): (r: Option<ExtendedKey>)
    ensures r.Some? ==> w.XprvHd? || w.XpubHd?
    ensures w.XprvHd? ==> (r.Some? <==> w.xprv != "" && lib.xprvChain(w.xprv).Some?) && (r.Some? ==> r.value == Xprv(w.xprv))
    ensures w.XpubHd? ==> (r.Some? <==> lib.xpubChain(w.xpub).Some?) && (r.Some? ==> r.value == Xpub(w.xpub))
  {
    match w
    case XprvHd(_, xprv, _, _, _) =>
      if xprv != "" && lib.xprvChain(xprv).Some? then Some(Xprv(xprv)) else None
    case XpubHd(_, xpub, _, _, _) =>
      if lib.xpubChain(xpub).Some? then Some(Xpub(xpub)) else None
    case _ => None
  }

  const KEYS_TITLE: string := "地址库 | "

  /**
   * The address book of one wallet: its extended key, its receive and change children, the
   * unspents it was given, and the two tables over them.
   */
  class KeysView {
    const lib: Library
    const xkey: ExtendedKey
    const receiveXkeys: seq<DerivedKey>
    const changeXkeys: seq<DerivedKey>
    const receiveModel: XkeyModel
    const changeModel: XkeyModel
    var password: string
    var title: string
    var unspents: seq<Unspent>
    var receiveSendEnabled: bool
    var changeSendEnabled: bool

    /**
     * The children are the first ones on branch 0 (receive) and 1 (change); both tables list
     * their own children and count the window's unspents.
     */
    predicate Valid()
      reads this, receiveModel, changeModel
    {
      && receiveModel != changeModel
      && receiveXkeys == DeriveRange(lib, xkey, 0, |receiveXkeys|, 0)
      && changeXkeys == DeriveRange(lib, xkey, 0, |changeXkeys|, 1)
      && receiveModel.Valid() && receiveModel.change == 0 && receiveModel.xkeys == receiveXkeys
      && changeModel.Valid() && changeModel.change == 1 && changeModel.xkeys == changeXkeys
      && receiveModel.unspents == unspents && changeModel.unspents == unspents
      && (xkey.Xpub? ==> !receiveSendEnabled && !changeSendEnabled)
    }

    /**
     * `KeysUi.__init__`: derives `receive_limit` receive and `change_limit` change children of
     * the wallet's extended key; both send buttons start disabled.
     */
    constructor (lib: Library, password: string, w: WalletEntry, given: Option<seq<Unspent>>)
      requires KeysXkey(lib, w).Some?
      ensures Valid()
      ensures xkey == KeysXkey(lib, w).value
      ensures receiveXkeys == DeriveRange(lib, xkey, 0, w.receiveLimit, 0)
      ensures changeXkeys == DeriveRange(lib, xkey, 0, w.changeLimit, 1)
      ensures this.password == password && title == KEYS_TITLE + w.name && unspents == HeldList(given)
      ensures !receiveSendEnabled && !changeSendEnabled
      ensures fresh(receiveModel) && fresh(changeModel)
    {
      this.lib := lib;
      var key := KeysXkey(lib, w).value;
      xkey := key;
      var receive := DeriveRange(lib, key, 0, w.receiveLimit, 0);
      var change := DeriveRange(lib, key, 0, w.changeLimit, 1);
      receiveXkeys := receive;
      changeXkeys := change;
      var us := HeldList(given);
      receiveModel := new XkeyModel(Some(receive), Some(us), 0);
      changeModel := new XkeyModel(Some(change), Some(us), 1);
      this.password := password;
      title := KEYS_TITLE + w.name;
      unspents := us;
      receiveSendEnabled := false;
      changeSendEnabled := false;
    }

    /**
     * `unspents_selected`: the held unspents whose address is in the address column of a
     * selected row of the table as it is shown, in the order they are held.
     */
    method UnspentsSelected(shown: seq<string>, selected: seq<nat>) returns (us: seq<Unspent>)
      requires forall k | 0 <= k < |selected| :: selected[k] < |shown|
      ensures us == AtAddresses(unspents, Picked(shown, DistinctRows(selected, |shown|)))
    {
      var addresses := PickRows(shown, DistinctRows(selected, |shown|));
      us := SelectAtAddresses(unspents, addresses);
    }

    /** `enable_receive_send_button`: some unspent is selected and the key can sign. */
    method EnableReceiveSendButton(shown: seq<string>, selected: seq<nat>)
      requires Valid()
      requires forall k | 0 <= k < |selected| :: selected[k] < |shown|
      modifies this`receiveSendEnabled
      ensures Valid()
      ensures receiveSendEnabled <==> SelectedUnspents(unspents, shown, selected) != [] && xkey.Xprv?
    {
      var us := UnspentsSelected(shown, selected);
      receiveSendEnabled := |us| > 0 && xkey.Xprv?;
    }

    /** `enable_change_send_button`: some unspent is selected and the key can sign. */
    method EnableChangeSendButton(shown: seq<string>, selected: seq<nat>)
      requires Valid()
      requires forall k | 0 <= k < |selected| :: selected[k] < |shown|
      modifies this`changeSendEnabled
      ensures Valid()
      ensures changeSendEnabled <==> SelectedUnspents(unspents, shown, selected) != [] && xkey.Xprv?
    {
      var us := UnspentsSelected(shown, selected);
      changeSendEnabled := |us| > 0 && xkey.Xprv?;
    }

    /**
     * `refresh`: takes what it is given. New unspents are counted again in both tables and
     * both selections are cleared, which disables both send buttons.
     */
    method Refresh(newPassword: Option<string>, w: Option<WalletEntry>, given: Option<seq<Unspent>>)
      requires Valid()
      modifies this, receiveModel, changeModel
      ensures Valid()
      ensures password == (if newPassword.Some? then newPassword.value else old(password))
      ensures title == (if w.Some? then KEYS_TITLE + w.value.name else old(title))
      ensures unspents == (if given.Some? then given.value else old(unspents))
      ensures given.Some? ==> !receiveSendEnabled && !changeSendEnabled
      ensures given.None? ==> receiveSendEnabled == old(receiveSendEnabled) && changeSendEnabled == old(changeSendEnabled)
      ensures given.None? ==> receiveModel.rows == old(receiveModel.rows) && changeModel.rows == old(changeModel.rows)
    {
      if newPassword.Some? {
        password := newPassword.value;
      }
      if w.Some? {
        title := KEYS_TITLE + w.value.name;
      }
      if given.Some? {
        unspents := given.value;
        receiveModel.Refresh(Some(unspents));
        changeModel.Refresh(Some(unspents));
        receiveSendEnabled := false;
        changeSendEnabled := false;
      }
    }

    /**
     * `send_button_clicked`: the coin send form opens with the selected unspents, the address
     * of a change child picked at random (`pick`), and the inputs to be combined; None where
     * there is no change child to pick from.
     */
    method SendButtonClicked(shown: seq<string>, selected: seq<nat>, pick: nat) returns (request: Option<SendRequest>)
      requires Valid()
      requires forall k | 0 <= k < |selected| :: selected[k] < |shown|
      requires changeXkeys != [] ==> pick < |changeXkeys|
      ensures request.None? <==> changeXkeys == []
      ensures request.Some? ==> request.value.inputs == SelectedUnspents(unspents, shown, selected)
      ensures request.Some? ==> request.value.changeAddress == lib.deriveChild(xkey, 1, pick).address
      ensures request.Some? ==> request.value.combine
    {
      var us := UnspentsSelected(shown, selected);
      if changeXkeys == [] {
        return None;
      }
      return Some(SendRequest(us, changeXkeys[pick].address, true));
    }
  }

  /** The unspents a selection of shown rows stands for. */
  function SelectedUnspents(unspents: seq<Unspent>, shown: seq<string>, selected: seq<nat>): seq<Unspent>
    requires forall k | 0 <= k < |selected| :: selected[k] < |shown|
  {
    AtAddresses(unspents, Picked(shown, DistinctRows(selected, |shown|)))
  }

  /** The addresses of the distinct selected rows are those of the selected cells. */
  lemma PickedAddresses(shown: seq<string>, selected: seq<nat>)
    requires forall k | 0 <= k < |selected| :: selected[k] < |shown|
    ensures forall a :: a in Picked(shown, DistinctRows(selected, |shown|)) <==>
                          exists k | 0 <= k < |selected| :: shown[selected[k]] == a
  {
    var rows := DistinctRows(selected, |shown|);
    var addresses := Picked(shown, rows);
    forall a | a in addresses
      ensures exists k | 0 <= k < |selected| :: shown[selected[k]] == a
    {
      var j :| 0 <= j < |addresses| && addresses[j] == a;
      var k :| 0 <= k < |selected| && selected[k] == rows[j];
      assert shown[selected[k]] == a;
    }
    forall k | 0 <= k < |selected|
      ensures shown[selected[k]] in addresses
    {
      var j :| 0 <= j < |rows| && rows[j] == selected[k];
      assert addresses[j] == shown[selected[k]];
    }
  }

  /**
   * The selected unspents are exactly the held ones at the address of some selected row,
   * whichever of the row's cells are selected; nothing is selected without a selected row.
   */
  lemma SelectedUnspentsMembers(unspents: seq<Unspent>, shown: seq<string>, selected: seq<nat>)
    requires forall k | 0 <= k < |selected| :: selected[k] < |shown|
    ensures forall u :: u in SelectedUnspents(unspents, shown, selected) <==>
                          u in unspents && exists k | 0 <= k < |selected| :: shown[selected[k]] == u.address
    ensures selected == [] ==> SelectedUnspents(unspents, shown, selected) == []
  {
    AtAddressesMembers(unspents, Picked(shown, DistinctRows(selected, |shown|)));
    PickedAddresses(shown, selected);
    if selected == [] {
      NothingAtNoAddress(unspents);
    }
  }

  lemma {:induction false} NothingAtNoAddress(us: seq<Unspent>)
    ensures AtAddresses(us, []) == []
    decreases |us|
  {
    if us != [] {
      NothingAtNoAddress(us[..|us| - 1]);
    }
  }
}

=== FILE: meta_contract.dfy ===
/**
 * `ftTransfer`, the script the wallet runs in its embedded browser to move tokens: merge the
 * sender's token outputs down to a target count, transfer, and answer the bridge exactly once.
 * The merges and the transfer are calls into the token library; their outcomes are parameters.
 */
module MetaContract {
  import opened Wrappers

  /** How much one merge lowers the tracked token output count. */
  const MERGE_STEP: nat := 19

  /** A thrown error's `code` and `message`; either may be missing, and JSON then drops it. */
  datatype JsError = JsError(code: Option<int>, message: Option<string>)

  /** The `result` object handed back to the wallet. */
  datatype FtResult = FtResult(code: Option<int>, message: Option<string>, txid: Option<string>)

  /** What the bridge receives: `{requestId, result}`. */
  datatype Reply = Reply(requestId: string, result: FtResult)

  /** How the transfer call ends. */
  datatype TransferOutcome = Transferred(txid: string) | TransferThrew(error: JsError)

  /** The token output count to merge down to: 20 for up to 5 receivers, 8 up to 12, else 3. */
  function MergeTarget(receiverCount: nat): (target: nat)
    ensures receiverCount <= 5 ==> target == 20
    ensures 5 < receiverCount <= 12 ==> target == 8
    ensures 12 < receiverCount ==> target == 3
  {
    if receiverCount <= 5 then 20
    else if receiverCount <= 12 then 8
    else 3
  }

  /** More receivers never raise the target. */
  lemma MergeTargetMonotone(a: nat, b: nat)
    requires a <= b
    ensures MergeTarget(b) <= MergeTarget(a)
  {
  }

  /** The number of merges the countdown performs, one per pass while the count exceeds the target. */
  function Merges(utxoCount: int, target: nat): nat
    decreases utxoCount - target
  {
    if utxoCount <= target then 0 else 1 + Merges(utxoCount - MERGE_STEP, target)
  }

  /** No merge when the count is within the target, otherwise ceil((count - target) / 19). */
  lemma {:induction false} MergesClosedForm(utxoCount: int, target: nat)
    ensures utxoCount <= target ==> Merges(utxoCount, target) == 0
    ensures utxoCount > target ==> Merges(utxoCount, target) == (utxoCount - target + MERGE_STEP - 1) / MERGE_STEP
    decreases utxoCount - target
  {
    if utxoCount > target {
      MergesClosedForm(utxoCount - MERGE_STEP, target);
    }
  }

  /** After the merges the count is within the target, and above it by less than one step. */
  lemma {:induction false} MergesEnd(utxoCount: int, target: nat)
    ensures utxoCount - MERGE_STEP * Merges(utxoCount, target) <= target
    ensures utxoCount > target ==> utxoCount - MERGE_STEP * Merges(utxoCount, target) > target - MERGE_STEP
    decreases utxoCount - target
  {
    if utxoCount > target {
      MergesEnd(utxoCount - MERGE_STEP, target);
    }
  }

  /**
   * `ftTransfer`: merges while the count exceeds the target, each lowering it by 19, then the
   * transfer; `failAt` is the pass whose merge throws, if any. A throw skips every later step
   * and becomes the result; success is code 0, 'OK' and the txid. Exactly one reply, with the
   * request's own id, whatever happens.
   */
  method FtTransfer(requestId: string, receiverCount: nat, utxoCount: int, failAt: Option<(nat, JsError)>,
                    transfer: TransferOutcome)
    returns (merges: nat, attempted: bool, reply: Reply)
    ensures reply.requestId == requestId
    ensures var all := Merges(utxoCount, MergeTarget(receiverCount));
            if failAt.Some? && failAt.value.0 < all then
              merges == failAt.value.0 && !attempted
              && reply.result == FtResult(failAt.value.1.code, failAt.value.1.message, None)
            else
              merges == all && attempted && reply.result == TransferResult(transfer)
  {
    var target := MergeTarget(receiverCount);
    var count := utxoCount;
    merges := 0;
    while count > target
      invariant count == utxoCount - MERGE_STEP * merges
      invariant Merges(utxoCount, target) == merges + Merges(count, target)
      invariant failAt.Some? ==> merges <= failAt.value.0
      decreases count - target
    {
      if failAt.Some? && failAt.value.0 == merges {
        var e := failAt.value.1;
        return merges, false, Reply(requestId, FtResult(e.code, e.message, None));
      }
      count := count - MERGE_STEP;
      merges := merges + 1;
    }
    return merges, true, Reply(requestId, TransferResult(transfer));
  }

  /** The result of the transfer call: `{code: 0, message: 'OK', txid}` or the thrown error. */
  function TransferResult(transfer: TransferOutcome): (r: FtResult)
    ensures transfer.Transferred? ==> r.code == Some(0) && r.txid == Some(transfer.txid)
    ensures transfer.TransferThrew? ==> r.code == transfer.error.code && r.message == transfer.error.message && r.txid.None?
  {
    match transfer
    case Transferred(txid) => FtResult(Some(0), Some("OK"), Some(txid))
    case TransferThrew(e) => FtResult(e.code, e.message, None)
  }
}

=== FILE: model.dfy ===
/**
 * The values the wallet passes around: chains, unspent outputs, token balances, derived keys
 * and the wallet entries an account file holds.
 */
module Model {

  /** mvclib's `Chain`; only its two members are compared. */
  datatype Chain = Main | Test

  /** mvclib's `Unspent`: the owning address, the outpoint, the value in satoshi and the height. */
  datatype Unspent = Unspent(address: string, txid: string, vout: nat, satoshi: nat, height: int)

  /**
   * One token balance as the indexing service returns it. The two amounts stay strings, as
   * the service sends them; `int()` reads them.
   */
  datatype TokenBalance = TokenBalance(
    symbol: string,
    name: string,
    codeHash: string,
    genesis: string,
    decimal: nat,
    utxoCount: int,
    confirmedString: string,
    unconfirmedString: string)

  /** One recipient of a token transfer, the amount already in the token's smallest unit. */
  datatype FtReceiver = FtReceiver(address: string, amount: string)

  /** An extended key as `Xprv(text)` or `Xpub(text)` built it: the class is what decides signing. */
  datatype ExtendedKey = Xprv(xprv: string) | Xpub(xpub: string)

  /** What the wallet reads from a derived child key: its public key in hex and its address. */
  datatype DerivedKey = DerivedKey(publicKeyHex: string, address: string)

  /** mvclib's `Key` as the token send uses it: its WIF and its chain. */
  datatype SigningKey = SigningKey(wif: string, chain: Chain)

  /**
   * What a send button hands to the coin send form: the inputs to spend, the address that
   * takes the change, and whether the inputs were picked by hand (and are to be combined).
   */
  datatype SendRequest = SendRequest(inputs: seq<Unspent>, changeAddress: string, combine: bool)

  /**
   * One wallet of an account, one constructor per kind. The HD kinds carry the receive cursor
   * and the two address-count limits; every kind carries the user-visible name.
   */
  datatype WalletEntry =
    | MnemonicHd(name: string, mnemonic: string, path: string, passphrase: string,
                 receiveIndex: nat, receiveLimit: nat, changeLimit: nat)
    | XprvHd(name: string, xprv: string, receiveIndex: nat, receiveLimit: nat, changeLimit: nat)
    | XpubHd(name: string, xpub: string, receiveIndex: nat, receiveLimit: nat, changeLimit: nat)
    | WifKey(name: string, wif: string)
    | PkKey(name: string, pk: string, address: string)
    | AddressKey(name: string, address: string)
  {
    predicate IsHd() {
      MnemonicHd? || XprvHd? || XpubHd?
    }

    /** The cursor stays below a positive limit; both limits are positive. */
    predicate CursorValid() {
      IsHd() ==> 0 < receiveLimit && receiveIndex < receiveLimit && 0 < changeLimit
    }
  }
}

=== FILE: mvclib.dfy ===
/**
 * The external library the wallet calls (hashing, AES, JSON, key decoding, address checks,
 * BIP32 child derivation). It is not modelled: each function is a field of `Library`, a value
 * every operation that needs it takes as a parameter, and the few facts the wallet relies on
 * are predicates over that value that the lemmas needing them require.
 */
module Mvclib {
  import opened Wrappers
  import opened Model

  newtype byte = x: int | 0 <= x < 256

  /** What `decode_wif` returns besides the key bytes. */
  datatype WifInfo = WifInfo(compressed: bool, chain: Chain)

  /**
   * Each field stands for one library call; an `Option` result is None where the call raises.
   * `deriveChild(k, branch, i)` is child `i` on `branch` of extended key `k`.
   */
  datatype Library = Library(
    sha256: seq<byte> -> seq<byte>,
    utf8Encode: string -> seq<byte>,
    utf8Decode: seq<byte> -> Option<string>,
    aesEncryptWithIv: (seq<byte>, seq<byte>, seq<byte>) -> seq<byte>,
    aesDecryptWithIv: (seq<byte>, seq<byte>, seq<byte>) -> Option<seq<byte>>,
    xprvChain: string -> Option<Chain>,
    xpubChain: string -> Option<Chain>,
    decodeWif: string -> Option<WifInfo>,
    decodeAddress: string -> Option<Chain>,
    publicKeyValid: string -> bool,
    publicKeyAddress: (string, Chain) -> string,
    validateAddress: (string, Chain) -> bool,
    validateMnemonic: string -> bool,
    deriveChild: (ExtendedKey, nat, nat) -> DerivedKey)

  /** JSON text of an account and back; `loads` is None where `json.loads` raises. */
  datatype JsonCodec = JsonCodec(dumps: seq<WalletEntry> -> string, loads: string -> Option<seq<WalletEntry>>)

  /** SHA-256 digests are 32 bytes long. */
  ghost predicate Sha256Width(lib: Library) {
    forall m :: |lib.sha256(m)| == 32
  }

  /** AES with a 16-byte key and a 16-byte IV decrypts what it encrypted. */
  ghost predicate AesRoundTrip(lib: Library) {
    forall key, iv, m | |key| == 16 && |iv| == 16 ::
      lib.aesDecryptWithIv(key, iv, lib.aesEncryptWithIv(key, iv, m)) == Some(m)
  }

  /** UTF-8 decoding undoes UTF-8 encoding. */
  ghost predicate Utf8RoundTrip(lib: Library) {
    forall s :: lib.utf8Decode(lib.utf8Encode(s)) == Some(s)
  }

  /** `json.loads(json.dumps(a)) == a` for every account. */
  ghost predicate JsonRoundTrip(json: JsonCodec) {
    forall a :: json.loads(json.dumps(a)) == Some(a)
  }

  /** `derive_xkeys_from_xkey(xkey, start, end, branch)`: the children for indices in [start, end). */
  function DeriveRange(lib: Library, xkey: ExtendedKey, start: nat, end: nat, branch: nat): (r: seq<DerivedKey>)
    ensures |r| == if start <= end then end - start else 0
    ensures forall i | 0 <= i < |r| :: r[i] == lib.deriveChild(xkey, branch, start + i)
    decreases end - start
  {
    if start < end then [lib.deriveChild(xkey, branch, start)] + DeriveRange(lib, xkey, start + 1, end, branch)
    else []
  }

  /** Deriving two adjacent ranges gives the same keys as deriving their union at once. */
  lemma {:induction false} DeriveRangeSplit(lib: Library, xkey: ExtendedKey, a: nat, b: nat, c: nat, branch: nat)
    requires a <= b <= c
    ensures DeriveRange(lib, xkey, a, b, branch) + DeriveRange(lib, xkey, b, c, branch)
         == DeriveRange(lib, xkey, a, c, branch)
    decreases b - a
  {
    if a < b {
      DeriveRangeSplit(lib, xkey, a + 1, b, c, branch);
    }
  }
}

=== FILE: py_text.dfy ===
/**
 * The few Python built-ins the wallet's rules are written in: `str.isspace`, `strip`,
 * `splitlines`, `str(int)`, `int(str)` and `zfill`. Only ASCII digits count as digits here.
 */
module PyText {
  import opened Wrappers

  /** `str.isspace()`: exactly the characters a `\s` in a str pattern matches and `strip()` removes. */
  predicate IsSpace(c: char) {
    var n := c as int;
    (9 <= n <= 13) || (28 <= n <= 32) || n == 0x85 || n == 0xA0 || n == 0x1680
    || (0x2000 <= n <= 0x200A) || n == 0x2028 || n == 0x2029 || n == 0x202F
    || n == 0x205F || n == 0x3000
  }

  /** The line boundaries of `str.splitlines()`. */
  predicate IsLineBreak(c: char) {
    var n := c as int;
    (10 <= n <= 13) || (28 <= n <= 30) || n == 0x85 || n == 0x2028 || n == 0x2029
  }

  predicate IsDigit(c: char) {
    '0' <= c <= '9'
  }

  predicate AllSpace(s: string) {
    forall i | 0 <= i < |s| :: IsSpace(s[i])
  }

  predicate NoSpace(s: string) {
    forall i | 0 <= i < |s| :: !IsSpace(s[i])
  }

  predicate AllDigits(s: string) {
    forall i | 0 <= i < |s| :: IsDigit(s[i])
  }

  /** `s.lstrip()`: the longest suffix of `s` that does not start with whitespace. */
  function TrimLeft(s: string): (r: string)
    ensures |r| <= |s| && r == s[|s| - |r|..]
    ensures AllSpace(s[..|s| - |r|])
    ensures r == [] || !IsSpace(r[0])
  {
    if |s| > 0 && IsSpace(s[0]) then
      var r := TrimLeft(s[1..]);
      TrimLeftStep(s, r);
      r
    else
      s
  }

  lemma TrimLeftStep(s: string, r: string)
    requires |s| > 0 && IsSpace(s[0])
    requires |r| <= |s| - 1 && r == s[1..][|s| - 1 - |r|..] && AllSpace(s[1..][..|s| - 1 - |r|])
    ensures r == s[|s| - |r|..] && AllSpace(s[..|s| - |r|])
  {
    var k := |s| - 1 - |r|;
    assert s[1..][k..] == s[k + 1..];
    assert s[..k + 1] == [s[0]] + s[1..][..k];
  }

  /** `s.rstrip()`: the longest prefix of `s` that does not end with whitespace. */
  function TrimRight(s: string): (r: string)
    ensures |r| <= |s| && r == s[..|r|]
    ensures AllSpace(s[|r|..])
    ensures r == [] || !IsSpace(r[|r| - 1])
  {
    if |s| > 0 && IsSpace(s[|s| - 1]) then
      var r := TrimRight(s[..|s| - 1]);
      assert s[|r|..] == s[..|s| - 1][|r|..] + [s[|s| - 1]];
      r
    else
      s
  }

  /** `s.strip()`. */
  function Strip(s: string): (r: string)
    ensures |r| <= |s|
    ensures r == [] || (!IsSpace(r[0]) && !IsSpace(r[|r| - 1]))
  {
    TrimRight(TrimLeft(s))
  }

  lemma {:induction false} TrimLeftSkip(w: string, s: string)
    requires AllSpace(w)
    ensures TrimLeft(w + s) == TrimLeft(s)
  {
    if |w| > 0 {
      assert (w + s)[1..] == w[1..] + s;
      TrimLeftSkip(w[1..], s);
    } else {
      assert w + s == s;
    }
  }

  lemma {:induction false} TrimRightSkip(s: string, w: string)
    requires AllSpace(w)
    ensures TrimRight(s + w) == TrimRight(s)
  {
    if |w| > 0 {
      assert (s + w)[..|s + w| - 1] == s + w[..|w| - 1];
      TrimRightSkip(s, w[..|w| - 1]);
    } else {
      assert s + w == s;
    }
  }

  /** Trailing text is kept as it is once the left side holds a non-space character. */
  lemma {:induction false} TrimLeftAppend(t: string, w: string)
    requires !AllSpace(t)
    ensures TrimLeft(t + w) == TrimLeft(t) + w
  {
    assert |t| > 0;
    if IsSpace(t[0]) {
      assert (t + w)[1..] == t[1..] + w;
      assert !AllSpace(t[1..]) by {
        var i :| 0 <= i < |t| && !IsSpace(t[i]);
        assert i > 0 && t[1..][i - 1] == t[i];
      }
      TrimLeftAppend(t[1..], w);
    }
  }

  /** Whitespace on either side never changes what `strip()` returns. */
  lemma StripPadded(w1: string, t: string, w2: string)
    requires AllSpace(w1) && AllSpace(w2)
    ensures Strip(w1 + t + w2) == Strip(t)
  {
    assert w1 + t + w2 == w1 + (t + w2);
    TrimLeftSkip(w1, t + w2);
    if AllSpace(t) {
      TrimLeftSkip(t, w2);
      TrimLeftSkip(w2, []);
      TrimLeftSkip(t, []);
      assert t + [] == t && w2 + [] == w2;
    } else {
      TrimLeftAppend(t, w2);
      TrimRightSkip(TrimLeft(t), w2);
    }
  }

  /** Stripping twice is stripping once. */
  lemma StripIdempotent(s: string)
    ensures Strip(Strip(s)) == Strip(s)
  {
    var r := Strip(s);
    if r != [] {
      TrimLeftSkip([], r);
      assert [] + r == r;
      TrimRightSkip(r, []);
      assert r + [] == r;
    }
  }

  /** Length of the run of ASCII digits at the start of `s`. */
  function DigitRun(s: string): (n: nat)
    ensures n <= |s|
    ensures AllDigits(s[..n])
    ensures n < |s| ==> !IsDigit(s[n])
  {
    if s != [] && IsDigit(s[0]) then
      var n := 1 + DigitRun(s[1..]);
      assert s[..n] == [s[0]] + s[1..][..n - 1];
      n
    else 0
  }

  lemma {:induction false} DigitRunPrefix(d: string, t: string)
    requires AllDigits(d)
    requires t == [] || !IsDigit(t[0])
    ensures DigitRun(d + t) == |d|
    decreases |d|
  {
    if d == [] {
      assert d + t == t;
    } else {
      assert (d + t)[1..] == d[1..] + t;
      DigitRunPrefix(d[1..], t);
    }
  }

  /** Length of the run of non-whitespace characters at the start of `s`. */
  function NonSpaceRun(s: string): (n: nat)
    ensures n <= |s|
    ensures NoSpace(s[..n])
    ensures n < |s| ==> IsSpace(s[n])
  {
    if s != [] && !IsSpace(s[0]) then
      var n := 1 + NonSpaceRun(s[1..]);
      assert s[..n] == [s[0]] + s[1..][..n - 1];
      n
    else 0
  }

  /** A string that ends with a non-space character is its own right trim. */
  lemma TrimRightNonSpace(s: string)
    requires s != [] && !IsSpace(s[|s| - 1])
    ensures TrimRight(s) == s
  {
  }

  /** A string is its leading whitespace followed by its left trim. */
  lemma TrimLeftParts(s: string)
    ensures s == s[..|s| - |TrimLeft(s)|] + TrimLeft(s)
    ensures AllSpace(s[..|s| - |TrimLeft(s)|])
  {
    hide TrimLeft;
    var k := |s| - |TrimLeft(s)|;
    assert TrimLeft(s) == s[k..];
    assert s == s[..k] + s[k..];
  }

  /** A string is its right trim followed by its trailing whitespace. */
  lemma TrimRightParts(s: string)
    ensures s == TrimRight(s) + s[|TrimRight(s)|..]
    ensures AllSpace(s[|TrimRight(s)|..])
  {
  }

  /** A string that starts with a non-space character is its own left trim. */
  lemma TrimLeftNonSpace(s: string)
    requires s != [] && !IsSpace(s[0])
    ensures TrimLeft(s) == s
  {
  }

  function Pow10(n: nat): (r: nat)
    ensures r >= 1
  {
    if n == 0 then 1 else 10 * Pow10(n - 1)
  }

  lemma {:induction false} Pow10Add(a: nat, b: nat)
    ensures Pow10(a + b) == Pow10(a) * Pow10(b)
  {
    if b > 0 {
      Pow10Add(a, b - 1);
      calc {
        Pow10(a + b);
        10 * Pow10(a + b - 1);
        10 * (Pow10(a) * Pow10(b - 1));
        Pow10(a) * (10 * Pow10(b - 1));
      }
    }
  }

  function DigitValue(c: char): (r: nat)
    requires IsDigit(c)
    ensures r < 10
  {
    c as int - '0' as int
  }

  function DigitChar(k: nat): (c: char)
    requires k < 10
    ensures IsDigit(c) && DigitValue(c) == k
  {
    (48 + k) as char
  }

  /** The value of a run of decimal digits, most significant first. */
  function DigitsValue(s: string): nat
    requires AllDigits(s)
  {
    if |s| == 0 then 0 else DigitsValue(s[..|s| - 1]) * 10 + DigitValue(s[|s| - 1])
  }

  lemma {:induction false} DigitsValueBound(s: string)
    requires AllDigits(s)
    ensures DigitsValue(s) < Pow10(|s|)
  {
    if |s| > 0 {
      DigitsValueBound(s[..|s| - 1]);
    }
  }

  /** Reading `a + b` is reading `a`, shifting by `|b|` places, and adding `b`. */
  lemma {:induction false} DigitsValueConcat(a: string, b: string)
    requires AllDigits(a) && AllDigits(b)
    ensures AllDigits(a + b)
    ensures DigitsValue(a + b) == DigitsValue(a) * Pow10(|b|) + DigitsValue(b)
  {
    if |b| > 0 {
      var b', c := b[..|b| - 1], b[|b| - 1];
      assert (a + b)[..|a + b| - 1] == a + b';
      DigitsValueConcat(a, b');
      assert AllDigits(a + b);
      assert DigitsValue(a + b) == DigitsValue(a + b') * 10 + DigitValue(c);
      assert DigitsValue(b) == DigitsValue(b') * 10 + DigitValue(c);
      assert Pow10(|b|) == 10 * Pow10(|b'|);
      hide *;
      ShiftDigit(DigitsValue(a), Pow10(|b'|), DigitsValue(b'), DigitValue(c));
    } else {
      assert a + b == a;
    }
  }

  lemma ShiftDigit(x: nat, p: nat, y: nat, z: nat)
    ensures (x * p + y) * 10 + z == x * (10 * p) + (y * 10 + z)
  {
  }

  function Zeros(k: nat): (r: string)
    ensures |r| == k && AllDigits(r) && DigitsValue(r) == 0
  {
    if k == 0 then [] else
      var r := Zeros(k - 1) + ['0'];
      assert r[..|r| - 1] == Zeros(k - 1);
      r
  }

  /** `str(n)` for a natural number: canonical decimal digits, no leading zero. */
  function NatToString(n: nat): (r: string)
    ensures |r| >= 1 && AllDigits(r) && DigitsValue(r) == n
    ensures n > 0 ==> r[0] != '0'
  {
    if n < 10 then
      var r := [DigitChar(n)];
      assert r[..0] == [];
      r
    else
      var p := NatToString(n / 10);
      var r := p + [DigitChar(n % 10)];
      assert r[..|r| - 1] == p;
      r
  }

  lemma {:induction false} NatToStringLengthMono(i: nat, n: nat)
    requires i <= n
    ensures |NatToString(i)| <= |NatToString(n)|
  {
    if i >= 10 {
      NatToStringLengthMono(i / 10, n / 10);
    }
  }

  /** `s.zfill(width)` for a string of digits. */
  function ZFill(s: string, width: nat): (r: string)
    ensures |r| == if |s| < width then width else |s|
  {
    if |s| < width then Zeros(width - |s|) + s else s
  }

  /** Zero padding keeps a digit string's value. */
  lemma ZFillDigits(s: string, width: nat)
    requires AllDigits(s)
    ensures AllDigits(ZFill(s, width))
    ensures DigitsValue(ZFill(s, width)) == DigitsValue(s)
  {
    if |s| < width {
      DigitsValueConcat(Zeros(width - |s|), s);
    }
  }

  /**
   * The digits `int` accepts after the sign: ASCII digits, where a single underscore may sit
   * between two digits ("1_000"), but not first, last or doubled.
   */
  predicate UnderscoreGrouped(u: string) {
    |u| > 0 && IsDigit(u[0]) && IsDigit(u[|u| - 1])
    && (forall i | 0 <= i < |u| :: IsDigit(u[i]) || u[i] == '_')
    && (forall i | 0 <= i < |u| - 1 :: u[i] == '_' ==> IsDigit(u[i + 1]))
  }

  /** The digits of a grouped number with its underscores taken out. */
  function DropUnderscores(u: string): (r: string)
    requires forall i | 0 <= i < |u| :: IsDigit(u[i]) || u[i] == '_'
    ensures AllDigits(r) && |r| <= |u|
    ensures AllDigits(u) ==> r == u
  {
    if u == [] then [] else (if u[0] == '_' then [] else [u[0]]) + DropUnderscores(u[1..])
  }

  /**
   * `int(s)` for a string: optional whitespace, an optional sign, then ASCII digits grouped by
   * single underscores; None where Python raises.
   */
  function ParseInt(s: string): (r: Option<int>)
  {
    ParseSigned(Strip(s))
  }

  function ParseSigned(t: string): (r: Option<int>)
    ensures r.Some? ==> |t| > 0
  {
    if |t| > 0 && (t[0] == '-' || t[0] == '+') then
      var u := t[1..];
      if UnderscoreGrouped(u) then
        var n := DigitsValue(DropUnderscores(u));
        Some(if t[0] == '-' then -(n as int) else n)
      else None
    else if UnderscoreGrouped(t) then Some(DigitsValue(DropUnderscores(t)))
    else None
  }

  /** A minus sign before ASCII digits negates their value. */
  lemma ParseSignedNegative(s: string)
    requires |s| > 0 && AllDigits(s)
    ensures ParseSigned("-" + s) == Some(-(DigitsValue(s) as int))
  {
    assert ("-" + s)[1..] == s;
    assert UnderscoreGrouped(s);
  }

  /** Underscores between digits do not change the number `int` reads. */
  lemma ParseSignedUnderscore(a: string, b: string)
    requires |a| > 0 && |b| > 0 && AllDigits(a) && AllDigits(b)
    ensures ParseSigned(a + "_" + b) == ParseSigned(a + b) == Some(DigitsValue(a + b) as int)
  {
    var t, u := a + "_" + b, a + b;
    assert AllDigits(u);
    assert UnderscoreGrouped(t) && UnderscoreGrouped(u);
    DropUnderscoresSplit(a, b);
    assert t[0] != '-' && t[0] != '+';
  }

  lemma {:induction false} DropUnderscoresSplit(a: string, b: string)
    requires AllDigits(a) && AllDigits(b)
    requires forall i | 0 <= i < |a + "_" + b| :: IsDigit((a + "_" + b)[i]) || (a + "_" + b)[i] == '_'
    ensures DropUnderscores(a + "_" + b) == a + b
  {
    if a == [] {
      assert ("_" + b)[1..] == b;
    } else {
      assert (a + "_" + b)[1..] == a[1..] + "_" + b;
      DropUnderscoresSplit(a[1..], b);
      assert a + b == [a[0]] + (a[1..] + b);
    }
  }

  /** A string without whitespace at either end is its own `strip()`. */
  lemma StripUnpadded(s: string)
    requires s == [] || (!IsSpace(s[0]) && !IsSpace(s[|s| - 1]))
    ensures Strip(s) == s
  {
    TrimLeftSkip([], s);
    assert [] + s == s;
    TrimRightSkip(s, []);
    assert s + [] == s;
  }

  lemma ParseSignedDigits(t: string)
    requires |t| > 0 && AllDigits(t)
    ensures ParseSigned(t) == Some(DigitsValue(t) as int)
  {
    assert t[0] != '-' && t[0] != '+';
    assert UnderscoreGrouped(t);
  }

  /** `int("1_000") == int("1000")`: an underscore between two digits is ignored. */
  lemma ParseIntUnderscore(a: string, b: string)
    requires |a| > 0 && |b| > 0 && AllDigits(a) && AllDigits(b)
    ensures ParseInt(a + "_" + b) == ParseInt(a + b) == Some(DigitsValue(a + b) as int)
  {
    var t, u := a + "_" + b, a + b;
    assert IsDigit(t[0]) && IsDigit(t[|t| - 1]) && IsDigit(u[0]) && IsDigit(u[|u| - 1]);
    ParseSignedUnderscore(a, b);
    hide TrimLeft, TrimRight, UnderscoreGrouped, DropUnderscores, DigitsValue, ParseSigned;
    StripUnpadded(t);
    StripUnpadded(u);
  }

  /** `int(str(n)) == n`: the integer strings the backend sends read back exactly. */
  lemma ParseIntNatToString(n: nat)
    ensures ParseInt(NatToString(n)) == Some(n as int)
  {
    var s := NatToString(n);
    ParseSignedDigits(s);
    assert IsDigit(s[0]) && IsDigit(s[|s| - 1]);
    StripUnpadded(s);
  }
}

=== FILE: receiver_list.dfy ===
/**
 * The recipients box as a whole, shared by the coin and token send forms: which texts are
 * valid, the total the amount field shows, and the (address, units) pairs a send uses.
 * `re.findall` with `re.MULTILINE` over the joined lines is modelled line by line: a match
 * never starts inside a line, so the number of groups equals the number of lines exactly when
 * every line matches by itself, and for such texts the groups are the lines' own.
 */
module ReceiverList {
  import opened Wrappers
  import opened PyText
  import opened Model
  import opened Mvclib
  import opened Receivers

  /** Each line's own match of the recipient pattern, None where it does not match. */
  function Matches(lines: seq<string>, d: nat): (ms: seq<Option<LineParts>>)
    ensures |ms| == |lines|
    ensures forall i | 0 <= i < |ms| :: ms[i].Some? ==> PartsWellFormed(ms[i].value, d)
  {
    seq(|lines|, i requires 0 <= i < |lines| => MatchLine(lines[i], d))
  }

  lemma MatchesAt(lines: seq<string>, d: nat, i: nat)
    requires i < |lines|
    ensures Matches(lines, d)[i] == MatchLine(lines[i], d)
  {
  }

  /** The present values, in order. */
  function Somes(ms: seq<Option<LineParts>>): (gs: seq<LineParts>)
    ensures |gs| <= |ms|
    ensures forall g | g in gs :: exists i | 0 <= i < |ms| :: ms[i] == Some(g)
  {
    if ms == [] then []
    else
      var init := Somes(ms[..|ms| - 1]);
      assert forall i | 0 <= i < |ms| - 1 :: ms[..|ms| - 1][i] == ms[i];
      match ms[|ms| - 1]
      case Some(g) => init + [g]
      case None => init
  }

  /** Nothing was dropped exactly when every value is present, and then the values are in place. */
  lemma {:induction false} SomesAll(ms: seq<Option<LineParts>>)
    ensures |Somes(ms)| == |ms| <==> forall i | 0 <= i < |ms| :: ms[i].Some?
    ensures |Somes(ms)| == |ms| ==> forall i | 0 <= i < |ms| :: ms[i] == Some(Somes(ms)[i])
    decreases |ms|
  {
    if ms != [] {
      var n := |ms| - 1;
      var init := ms[..n];
      assert forall i | 0 <= i < n :: init[i] == ms[i];
      SomesAll(init);
    }
  }

  /**
   * The groups of the recipient pattern over the lines: one per matching line, in order. Each
   * is well formed.
   */
  function Groups(lines: seq<string>, d: nat): (gs: seq<LineParts>)
    ensures |gs| <= |lines|
    ensures forall i | 0 <= i < |gs| :: PartsWellFormed(gs[i], d)
  {
    var ms := Matches(lines, d);
    var gs := Somes(ms);
    assert forall i | 0 <= i < |gs| :: gs[i] in gs;
    gs
  }

  /** A group passes `validate_address` for the chain and its amount is at least one unit. */
  predicate GroupValid(lib: Library, chain: Chain, g: LineParts, d: nat) {
    PartsWellFormed(g, d) && lib.validateAddress(g.address, chain) && AmountUnits(g.tail.amount, d) > 0
  }

  /**
   * `receivers_valid`: between one line and `cap` lines (no upper bound when `cap` is None),
   * as many groups as lines, every address and amount valid; failing that, a single line is
   * accepted when it is itself a valid address (its amount then comes from the amount field).
   */
  function ReceiversValid(lib: Library, chain: Chain, lines: seq<string>, d: nat, cap: Option<nat>): bool {
    var gs := Groups(lines, d);
    var valid := |lines| != 0 && !(cap.Some? && |lines| > cap.value) && |gs| == |lines|
                 && (forall i | 0 <= i < |gs| :: GroupValid(lib, chain, gs[i], d));
    if !valid && |lines| == 1 then lib.validateAddress(lines[0], chain) else valid
  }

  /** Line by line, the text is a list of recipients within the cap. */
  predicate LineByLine(lib: Library, chain: Chain, lines: seq<string>, d: nat, cap: Option<nat>) {
    var ms := Matches(lines, d);
    1 <= |lines| && (cap.None? || |lines| <= cap.value)
    && forall i | 0 <= i < |ms| :: ms[i].Some? && GroupValid(lib, chain, ms[i].value, d)
  }

  /**
   * The recipients box is valid iff every line, on its own, is an address and a positive
   * amount and there are not too many lines, or the box holds one line that is a valid address.
   */
  lemma ReceiversValidIff(lib: Library, chain: Chain, lines: seq<string>, d: nat, cap: Option<nat>)
    ensures ReceiversValid(lib, chain, lines, d, cap)
            <==> LineByLine(lib, chain, lines, d, cap) || (|lines| == 1 && lib.validateAddress(lines[0], chain))
  {
    var ms := Matches(lines, d);
    SomesAll(ms);
    hide MatchLine, GroupValid, Somes, Matches;
    var gs := Groups(lines, d);
    assert gs == Somes(ms);
    if |gs| == |lines| {
      assert forall i | 0 <= i < |ms| :: ms[i] == Some(gs[i]);
    }
  }

  // ---------------------------------------------------------------------------------------
  // The amounts
  // ---------------------------------------------------------------------------------------

  /** `Decimal(group[1])` of a group. */
  function GroupDecimal(g: LineParts, d: nat): (x: Dec)
    requires PartsWellFormed(g, d)
    ensures Some(x) == ParseDecimal(g.tail.amount) && x.places <= d
  {
    AmountTextDecimal(g.tail.amount, d);
    ParseDecimal(g.tail.amount).value
  }

  /** The Decimals of all groups, in order. */
  function GroupDecimals(gs: seq<LineParts>, d: nat): (xs: seq<Dec>)
    requires forall i | 0 <= i < |gs| :: PartsWellFormed(gs[i], d)
  {
    seq(|gs|, i requires 0 <= i < |gs| => GroupDecimal(gs[i], d))
  }

  /** The pair of each group, in order. */
  function Pairs(gs: seq<LineParts>, d: nat): (rs: seq<(string, nat)>)
    requires forall i | 0 <= i < |gs| :: PartsWellFormed(gs[i], d)
  {
    seq(|gs|, i requires 0 <= i < |gs| => GroupPair(gs[i], d))
  }

  /** `(group[0], int(Decimal(group[1]) * 10 ** d))`. */
  function GroupPair(g: LineParts, d: nat): (r: (string, nat))
    requires PartsWellFormed(g, d)
  {
    (g.address, AmountUnits(g.tail.amount, d))
  }

  /** The pairs of one more group: the pairs so far and that group's pair. */
  lemma PairsSnoc(gs: seq<LineParts>, d: nat, i: nat)
    requires forall k | 0 <= k < |gs| :: PartsWellFormed(gs[k], d)
    requires i < |gs|
    ensures Pairs(gs[..i + 1], d) == Pairs(gs[..i], d) + [GroupPair(gs[i], d)]
  {
    var left := Pairs(gs[..i + 1], d);
    var right := Pairs(gs[..i], d) + [GroupPair(gs[i], d)];
    forall k | 0 <= k < i + 1
      ensures left[k] == right[k]
    {
      assert gs[..i + 1][k] == gs[k];
      if k < i {
        assert gs[..i][k] == gs[k];
      }
    }
    assert |left| == |right|;
  }

  /** The amounts of a list of recipients, added up. */
  function PairsTotal(rs: seq<(string, nat)>): nat {
    if rs == [] then 0 else PairsTotal(rs[..|rs| - 1]) + rs[|rs| - 1].1
  }

  /**
   * The text `receivers_text_changed` puts in the amount field: empty unless the recipients
   * are valid; then `str` of the Decimal sum of the group amounts, or empty when that sum is 0.
   */
  function TotalAmountText(lib: Library, chain: Chain, lines: seq<string>, d: nat, cap: Option<nat>): string {
    if ReceiversValid(lib, chain, lines, d, cap) then
      var sum := DecSum(GroupDecimals(Groups(lines, d), d));
      if sum.coef == 0 then "" else RenderDec(sum)
    else ""
  }

  /**
   * `parse_receivers`: the pairs of the groups; with no group and a single line, that line
   * with the amount field's value, None where `Decimal` of the amount field raises.
   */
  function ParsedReceivers(lines: seq<string>, amountText: string, d: nat): Option<seq<(string, nat)>> {
    var rs := Pairs(Groups(lines, d), d);
    if rs == [] && |lines| == 1 then
      match ParseDecimal(amountText)
      case None => None
      case Some(x) => Some([(lines[0], DecUnits(x, d))])
    else Some(rs)
  }

  /** Pointwise equal amounts have equal sums. */
  lemma {:induction false} UnitsSumPairs(xs: seq<Dec>, rs: seq<(string, nat)>, d: nat)
    requires |xs| == |rs|
    requires forall i | 0 <= i < |xs| :: DecUnits(xs[i], d) == rs[i].1
    ensures UnitsSum(xs, d) == PairsTotal(rs)
    decreases |xs|
  {
    if xs != [] {
      var n := |xs| - 1;
      assert forall i | 0 <= i < n :: xs[..n][i] == xs[i] && rs[..n][i] == rs[i];
      UnitsSumPairs(xs[..n], rs[..n], d);
    }
  }

  /** Converted to units, the Decimal sum of the groups is the sum of their pairs' amounts. */
  lemma GroupsSumUnits(gs: seq<LineParts>, d: nat)
    requires forall i | 0 <= i < |gs| :: PartsWellFormed(gs[i], d)
    ensures DecUnits(DecSum(GroupDecimals(gs, d)), d) == PairsTotal(Pairs(gs, d))
  {
    var xs := GroupDecimals(gs, d);
    DecSumUnits(xs, d);
    UnitsSumPairs(xs, Pairs(gs, d), d);
  }

  /**
   * The amount the field shows, read back by `Decimal` and converted to units, is the total of
   * the units `parse_receivers` sends.
   */
  lemma TotalMatchesPairs(lib: Library, chain: Chain, lines: seq<string>, d: nat, cap: Option<nat>, gs: seq<LineParts>)
    requires gs == Groups(lines, d)
    requires TotalAmountText(lib, chain, lines, d, cap) != ""
    ensures ParseDecimal(TotalAmountText(lib, chain, lines, d, cap)).Some?
    ensures DecUnits(ParseDecimal(TotalAmountText(lib, chain, lines, d, cap)).value, d) == PairsTotal(Pairs(gs, d))
  {
    ParseRenderDec(DecSum(GroupDecimals(gs, d)));
    GroupsSumUnits(gs, d);
  }

  lemma {:induction false} DecUnitsZero(x: Dec, d: nat)
    requires x.coef == 0
    ensures DecUnits(x, d) == 0
    decreases x.places
  {
    if x.places > d {
      DecUnitsZero(Dec(0, x.places - 1), d);
    }
  }

  /** A non-empty list of valid groups adds up to a non-zero Decimal. */
  lemma GroupsTotalPositive(lib: Library, chain: Chain, gs: seq<LineParts>, d: nat)
    requires gs != [] && forall i | 0 <= i < |gs| :: PartsWellFormed(gs[i], d) && GroupValid(lib, chain, gs[i], d)
    ensures DecSum(GroupDecimals(gs, d)).coef != 0
  {
    var rs := Pairs(gs, d);
    assert PairsTotal(rs) >= rs[|rs| - 1].1 > 0;
    GroupsSumUnits(gs, d);
    var sum := DecSum(GroupDecimals(gs, d));
    if sum.coef == 0 {
      DecUnitsZero(sum, d);
    }
  }

  /** Valid line by line, every line gives one group, and each group is valid. */
  lemma LineByLineGroups(lib: Library, chain: Chain, lines: seq<string>, d: nat, cap: Option<nat>)
    requires LineByLine(lib, chain, lines, d, cap)
    ensures |Groups(lines, d)| == |lines|
    ensures forall i | 0 <= i < |lines| :: GroupValid(lib, chain, Groups(lines, d)[i], d)
  {
    SomesAll(Matches(lines, d));
  }

  /** Recipients valid line by line always show a total: each amount is at least one unit. */
  lemma TotalShown(lib: Library, chain: Chain, lines: seq<string>, d: nat, cap: Option<nat>)
    requires LineByLine(lib, chain, lines, d, cap)
    ensures TotalAmountText(lib, chain, lines, d, cap) != ""
  {
    ReceiversValidIff(lib, chain, lines, d, cap);
    LineByLineGroups(lib, chain, lines, d, cap);
    GroupsTotalPositive(lib, chain, Groups(lines, d), d);
  }

  // ---------------------------------------------------------------------------------------
  // The amount field
  // ---------------------------------------------------------------------------------------

  /**
   * `amount_valid`: False for an empty field, otherwise whether the field's Decimal is above
   * zero (for the non-negative amounts the field holds, the coin form's truthiness test and the
   * token form's `> 0` agree). None where `Decimal` raises.
   */
  function AmountFieldValid(text: string): (r: Option<bool>)
    ensures text == [] ==> r == Some(false)
    ensures r.None? <==> text != [] && ParseDecimal(text).None?
  {
    if text == [] then Some(false)
    else
      match ParseDecimal(text)
      case None => None
      case Some(x) => Some(x.coef > 0)
  }

  /**
   * A field that parses with at most `d` places is valid exactly when it converts to at least
   * one unit: a valid amount never sends zero.
   */
  lemma AmountFieldUnits(text: string, d: nat)
    requires text != [] && ParseDecimal(text).Some? && ParseDecimal(text).value.places <= d
    ensures AmountFieldValid(text) == Some(DecUnits(ParseDecimal(text).value, d) > 0)
  {
    var x := ParseDecimal(text).value;
    DecUnitsAligned(x, d);
    PositiveScaled(DecUnits(x, d), Pow10(x.places), x.coef, Pow10(d));
  }

  lemma PositiveScaled(u: nat, a: nat, c: nat, b: nat)
    requires u * a == c * b && a >= 1 && b >= 1
    ensures u > 0 <==> c > 0
  {
    if u > 0 {
      assert u * a >= a;
    }
    if c > 0 {
      assert c * b >= b;
    }
  }

  /** Whatever total the recipients box puts in the amount field parses, and is valid iff shown. */
  lemma TotalAmountValid(lib: Library, chain: Chain, lines: seq<string>, d: nat, cap: Option<nat>)
    ensures AmountFieldValid(TotalAmountText(lib, chain, lines, d, cap)) == Some(TotalAmountText(lib, chain, lines, d, cap) != "")
  {
    if ReceiversValid(lib, chain, lines, d, cap) {
      var sum := DecSum(GroupDecimals(Groups(lines, d), d));
      if sum.coef != 0 {
        ParseRenderDec(sum);
      }
    }
  }

  // ---------------------------------------------------------------------------------------
  // Rendered recipient lists
  // ---------------------------------------------------------------------------------------

  /** The lines of a recipient list, one rendered line per recipient. */
  function RenderLines(ps: seq<LineParts>): (lines: seq<string>)
    ensures |lines| == |ps|
  {
    seq(|ps|, i requires 0 <= i < |ps| => RenderLine(ps[i]))
  }

  /** The groups of rendered lines are the parts they were rendered from. */
  lemma RenderedGroups(ps: seq<LineParts>, d: nat)
    requires forall i | 0 <= i < |ps| :: PartsWellFormed(ps[i], d)
    ensures Groups(RenderLines(ps), d) == ps
  {
    var lines := RenderLines(ps);
    var ms := Matches(lines, d);
    forall i | 0 <= i < |ms|
      ensures ms[i] == Some(ps[i])
    {
      MatchesAt(lines, d, i);
      MatchLineRender(ps[i], d);
    }
    SomesAll(ms);
  }

  lemma RenderedLineByLine(lib: Library, chain: Chain, ps: seq<LineParts>, d: nat, cap: Option<nat>)
    requires ps != [] && (cap.None? || |ps| <= cap.value)
    requires forall i | 0 <= i < |ps| :: GroupValid(lib, chain, ps[i], d)
    ensures LineByLine(lib, chain, RenderLines(ps), d, cap)
  {
    var lines := RenderLines(ps);
    RenderedGroups(ps, d);
    SomesAll(Matches(lines, d));
  }

  /** The send uses the pairs of rendered lines, whatever the amount field holds. */
  lemma RenderedParse(ps: seq<LineParts>, d: nat, amountText: string)
    requires ps != [] && forall i | 0 <= i < |ps| :: PartsWellFormed(ps[i], d)
    ensures ParsedReceivers(RenderLines(ps), amountText, d) == Some(Pairs(ps, d))
  {
    RenderedGroups(ps, d);
  }

  /**
   * Any non-empty list of well-formed recipients within the cap, each with a valid address and
   * a positive amount, written one per line, is accepted.
   */
  lemma RenderedValid(lib: Library, chain: Chain, ps: seq<LineParts>, d: nat, cap: Option<nat>)
    requires ps != [] && (cap.None? || |ps| <= cap.value)
    requires forall i | 0 <= i < |ps| :: GroupValid(lib, chain, ps[i], d)
    ensures ReceiversValid(lib, chain, RenderLines(ps), d, cap)
  {
    RenderedLineByLine(lib, chain, ps, d, cap);
    ReceiversValidIff(lib, chain, RenderLines(ps), d, cap);
  }

  /** For such a list the amount field shows the total of the units the send uses. */
  lemma RenderedTotal(lib: Library, chain: Chain, ps: seq<LineParts>, lines: seq<string>, d: nat, cap: Option<nat>)
    requires lines == RenderLines(ps)
    requires ps != [] && (cap.None? || |ps| <= cap.value)
    requires forall i | 0 <= i < |ps| :: PartsWellFormed(ps[i], d) && GroupValid(lib, chain, ps[i], d)
    ensures TotalAmountText(lib, chain, lines, d, cap) != ""
    ensures ParseDecimal(TotalAmountText(lib, chain, lines, d, cap)).Some?
    ensures DecUnits(ParseDecimal(TotalAmountText(lib, chain, lines, d, cap)).value, d) == PairsTotal(Pairs(ps, d))
  {
    RenderedLineByLine(lib, chain, ps, d, cap);
    TotalShown(lib, chain, lines, d, cap);
    RenderedGroups(ps, d);
    TotalMatchesPairs(lib, chain, lines, d, cap, ps);
  }
}

=== FILE: receivers.dfy ===
/**
 * The recipient grammar the coin and token send forms share: the lines of the recipients box,
 * the per-line pattern `^\s*(\S+)\s*[,，]\s*(\d+(\.\d{1,D})?)\s*$` (D fractional digits at most),
 * exact `Decimal` amounts and their conversion to integer smallest units.
 */
module Receivers {
  import opened Wrappers
  import opened PyText
  import opened Model
  import opened Mvclib
  import opened Utils

  // ---------------------------------------------------------------------------------------
  // Decimal amounts
  // ---------------------------------------------------------------------------------------

  /** A non-negative `Decimal`: the value coef / 10^places, kept with its exponent as Python does. */
  datatype Dec = Dec(coef: nat, places: nat)

  /**
   * `Decimal(text)` for the texts the amount fields can hold: surrounding whitespace, digits,
   * at most one '.', at least one digit. None where Python raises (an empty or blank text,
   * a lone '.').
   */
  function ParseDecimal(text: string): (r: Option<Dec>)
    ensures r.Some? ==> Strip(text) != []
  {
    DecimalOf(Strip(text))
  }

  /** The same for a text without surrounding whitespace. */
  function DecimalOf(t: string): (r: Option<Dec>)
    ensures r.Some? ==> |t| >= 1 && r.value.places < |t|
  {
    var n := DigitRun(t);
    if n == |t| then
      if n >= 1 then Some(Dec(DigitsValue(t), 0)) else None
    else if t[n] != '.' then None
    else
      var f := t[n + 1..];
      if AllDigits(f) && n + |f| >= 1 then Some(Dec(DigitsValue(t[..n] + f), |f|)) else None
  }

  lemma {:induction false} Pow10Mono(a: nat, b: nat)
    requires a <= b
    ensures Pow10(a) <= Pow10(b)
  {
    Pow10Add(a, b - a);
  }

  /**
   * `int(x * 10 ** d)`: the value in units of 10^-d, truncated toward zero. Each place beyond
   * `d` drops one trailing digit of the coefficient.
   */
  function DecUnits(x: Dec, d: nat): nat
    decreases x.places
  {
    if x.places <= d then x.coef * Pow10(d - x.places)
    else DecUnits(Dec(x.coef / 10, x.places - 1), d)
  }

  /** With no more places than the unit allows, the conversion is exact. */
  lemma DecUnitsAligned(x: Dec, d: nat)
    requires x.places <= d
    ensures DecUnits(x, d) * Pow10(x.places) == x.coef * Pow10(d)
  {
    Pow10Add(d - x.places, x.places);
    assert d - x.places + x.places == d;
    var a := Pow10(d - x.places);
    var b := Pow10(x.places);
    Assoc(x.coef, a, b);
  }

  lemma Assoc(u: nat, a: nat, b: nat)
    ensures (u * a) * b == u * (a * b)
  {
  }

  /** `x + y` on Decimals: exact, with the smaller exponent of the two. */
  function DecAdd(x: Dec, y: Dec): (r: Dec)
    ensures r.places == if x.places < y.places then y.places else x.places
  {
    var p := if x.places < y.places then y.places else x.places;
    Dec(x.coef * Pow10(p - x.places) + y.coef * Pow10(p - y.places), p)
  }

  /** Adding Decimals adds their unit amounts, when neither has more places than the unit. */
  lemma DecUnitsAdd(x: Dec, y: Dec, d: nat)
    requires x.places <= d && y.places <= d
    ensures DecUnits(DecAdd(x, y), d) == DecUnits(x, d) + DecUnits(y, d)
  {
    var s := DecAdd(x, y);
    var p := s.places;
    Pow10Add(p - x.places, d - p);
    Pow10Add(p - y.places, d - p);
    assert p - x.places + (d - p) == d - x.places;
    assert p - y.places + (d - p) == d - y.places;
    Distrib(x.coef, Pow10(p - x.places), y.coef, Pow10(p - y.places), Pow10(d - p));
  }

  lemma Distrib(u: nat, a: nat, v: nat, b: nat, c: nat)
    ensures (u * a + v * b) * c == u * (a * c) + v * (b * c)
  {
  }

  /** `sum(xs)`: Python starts from the integer 0 and adds left to right. */
  function DecSum(xs: seq<Dec>): (r: Dec)
    ensures forall i | 0 <= i < |xs| :: xs[i].places <= r.places
    ensures r.places == 0 || exists i | 0 <= i < |xs| :: xs[i].places == r.places
  {
    if xs == [] then Dec(0, 0) else DecAdd(DecSum(xs[..|xs| - 1]), xs[|xs| - 1])
  }

  /** Sum of the unit amounts. */
  function UnitsSum(xs: seq<Dec>, d: nat): nat {
    if xs == [] then 0 else UnitsSum(xs[..|xs| - 1], d) + DecUnits(xs[|xs| - 1], d)
  }

  /** The Decimal total, converted to units, is the sum of the converted amounts. */
  lemma {:induction false} DecSumUnits(xs: seq<Dec>, d: nat)
    requires forall i | 0 <= i < |xs| :: xs[i].places <= d
    ensures DecSum(xs).places <= d
    ensures DecUnits(DecSum(xs), d) == UnitsSum(xs, d)
  {
    if xs != [] {
      var init := xs[..|xs| - 1];
      assert forall i | 0 <= i < |init| :: init[i] == xs[i];
      DecSumUnits(init, d);
      DecUnitsAdd(DecSum(init), xs[|xs| - 1], d);
    }
  }

  /** `str(x)` in plain notation: the digits with the point `places` from the right. */
  function RenderDec(x: Dec): (r: string)
    ensures |r| >= 1 && IsDigit(r[0]) && IsDigit(r[|r| - 1])
  {
    var digits := ZFill(NatToString(x.coef), x.places + 1);
    ZFillDigits(NatToString(x.coef), x.places + 1);
    if x.places == 0 then digits
    else digits[..|digits| - x.places] + "." + digits[|digits| - x.places..]
  }

  lemma DigitRunAll(t: string)
    requires AllDigits(t)
    ensures DigitRun(t) == |t|
  {
    DigitRunPrefix(t, []);
    assert t + [] == t;
  }

  /** A text with no whitespace at its ends is read as it stands. */
  lemma ParseDecimalUnpadded(t: string)
    requires t == [] || (!IsSpace(t[0]) && !IsSpace(t[|t| - 1]))
    ensures ParseDecimal(t) == DecimalOf(t)
  {
    StripUnpadded(t);
  }

  lemma DecimalOfWhole(t: string)
    requires |t| >= 1 && AllDigits(t)
    ensures DecimalOf(t) == Some(Dec(DigitsValue(t), 0))
  {
    DigitRunAll(t);
  }

  lemma DecimalOfPoint(w: string, f: string)
    requires |w| >= 1 && AllDigits(w) && |f| >= 1 && AllDigits(f)
    ensures DecimalOf(w + "." + f) == Some(Dec(DigitsValue(w + f), |f|))
  {
    var t := w + "." + f;
    assert t == w + ("." + f);
    DigitRunPrefix(w, "." + f);
    assert t[|w|] == '.';
    assert t[|w| + 1..] == f;
    assert t[..|w|] == w;
  }

  /** A run of digits reads as an integer Decimal. */
  lemma ParseDecimalWhole(t: string)
    requires |t| >= 1 && AllDigits(t)
    ensures ParseDecimal(t) == Some(Dec(DigitsValue(t), 0))
  {
    ParseDecimalUnpadded(t);
    DecimalOfWhole(t);
  }

  /** Digits, a point and digits read as a Decimal with that many places. */
  lemma ParseDecimalPoint(w: string, f: string)
    requires |w| >= 1 && AllDigits(w) && |f| >= 1 && AllDigits(f)
    ensures ParseDecimal(w + "." + f) == Some(Dec(DigitsValue(w + f), |f|))
  {
    hide ParseDecimal, DecimalOf, DigitsValue;
    var t := w + "." + f;
    assert t[0] == w[0] && t[|t| - 1] == f[|f| - 1];
    ParseDecimalUnpadded(t);
    DecimalOfPoint(w, f);
  }

  /** The pieces `str(x)` is made of: the whole digits and, with places, the fraction digits. */
  lemma RenderDecParts(x: Dec) returns (w: string, f: string)
    ensures |w| >= 1 && AllDigits(w) && AllDigits(f) && |f| == x.places
    ensures DigitsValue(w + f) == x.coef
    ensures x.places == 0 ==> RenderDec(x) == w && f == []
    ensures x.places > 0 ==> RenderDec(x) == w + "." + f
  {
    hide ZFill, NatToString, DigitsValue;
    var digits := ZFill(NatToString(x.coef), x.places + 1);
    ZFillDigits(NatToString(x.coef), x.places + 1);
    var k := |digits| - x.places;
    w, f := digits[..k], digits[k..];
    assert w + f == digits;
    if x.places == 0 {
      assert w == digits;
    }
  }

  /** `Decimal(str(x)) == x`: the total the form writes into the amount field reads back exactly. */
  lemma ParseRenderDec(x: Dec)
    ensures ParseDecimal(RenderDec(x)) == Some(x)
  {
    var w, f := RenderDecParts(x);
    if x.places == 0 {
      assert w + f == w;
      ParseDecimalWhole(w);
    } else {
      ParseDecimalPoint(w, f);
    }
  }

  // ---------------------------------------------------------------------------------------
  // One recipient line
  // ---------------------------------------------------------------------------------------

  /** The two separators the pattern allows: ASCII comma and full-width comma. */
  predicate IsComma(c: char) {
    c == ',' || c == '\U{FF0C}'
  }

  /** `\d+(\.\d{1,D})?` matching all of `s`. */
  predicate AmountText(s: string, d: nat) {
    var n := DigitRun(s);
    n >= 1 && (n == |s| || (s[n] == '.' && 1 <= |s| - n - 1 <= d && AllDigits(s[n + 1..])))
  }

  /** An amount is digits and at most one point: no whitespace, no comma. */
  lemma AmountTextChars(s: string, d: nat)
    requires AmountText(s, d)
    ensures |s| >= 1 && IsDigit(s[0]) && IsDigit(s[|s| - 1])
    ensures forall i | 0 <= i < |s| :: !IsSpace(s[i]) && !IsComma(s[i])
  {
    var n := DigitRun(s);
    assert s[0] == s[..n][0];
    forall i | 0 <= i < |s|
      ensures !IsSpace(s[i]) && !IsComma(s[i])
    {
      if i < n {
        assert s[i] == s[..n][i];
      } else if i > n {
        assert s[i] == s[n + 1..][i - n - 1];
      }
    }
    if n < |s| {
      assert s[|s| - 1] == s[n + 1..][|s| - n - 2];
    } else {
      assert s[|s| - 1] == s[..n][|s| - 1];
    }
  }

  /** The amount's Decimal never has more places than the pattern allows. */
  lemma AmountTextDecimal(s: string, d: nat)
    requires AmountText(s, d)
    ensures ParseDecimal(s).Some? && ParseDecimal(s).value.places <= d
  {
    AmountTextChars(s, d);
    var n := DigitRun(s);
    hide AmountText, ParseDecimal;
    if n == |s| {
      assert s[..n] == s;
      ParseDecimalWhole(s);
    } else {
      assert s == s[..n] + "." + s[n + 1..];
      ParseDecimalPoint(s[..n], s[n + 1..]);
    }
  }

  /** `int(Decimal(amount) * 10 ** d)` for an amount the pattern matched: exact. */
  function AmountUnits(s: string, d: nat): (units: nat)
    requires AmountText(s, d)
    ensures units * Pow10(ParseDecimal(s).value.places) == ParseDecimal(s).value.coef * Pow10(d)
  {
    AmountTextDecimal(s, d);
    DecUnitsAligned(ParseDecimal(s).value, d);
    DecUnits(ParseDecimal(s).value, d)
  }

  /**
   * What comes after the address: optional whitespace, the comma, optional whitespace, the
   * amount and trailing whitespace.
   */
  datatype Tail = Tail(gap: string, comma: char, gap2: string, amount: string, trail: string)

  predicate TailWellFormed(t: Tail, d: nat) {
    AllSpace(t.gap) && IsComma(t.comma) && AllSpace(t.gap2) && AmountText(t.amount, d) && AllSpace(t.trail)
  }

  function RenderTail(t: Tail): string {
    t.gap + [t.comma] + t.gap2 + t.amount + t.trail
  }

  /** `\s*[,，]\s*(\d+(\.\d{1,D})?)\s*$` matching all of `r`, with its pieces. */
  function MatchTail(r: string, d: nat): Option<Tail>
  {
    var t := TrimLeft(r);
    if t == [] || !IsComma(t[0]) then None
    else
      var u := t[1..];
      var v := TrimLeft(u);
      var a := TrimRight(v);
      if AmountText(a, d) then
        Some(Tail(r[..|r| - |t|], t[0], u[..|u| - |v|], a, v[|a|..]))
      else None
  }

  /** Whatever the tail matcher captures is well formed and reassembles to its input. */
  lemma MatchTailSound(r: string, d: nat)
    ensures MatchTail(r, d).Some? ==> TailWellFormed(MatchTail(r, d).value, d) && RenderTail(MatchTail(r, d).value) == r
  {
    hide TrimLeft, TrimRight, RenderTail, AmountText;
    var t := TrimLeft(r);
    if t != [] && IsComma(t[0]) {
      var u := t[1..];
      var v := TrimLeft(u);
      var a := TrimRight(v);
      if AmountText(a, d) {
        TailPieces(r, t, u, v, a);
      }
    }
  }

  lemma TailPieces(r: string, t: string, u: string, v: string, a: string)
    requires t == TrimLeft(r) && t != [] && u == t[1..] && v == TrimLeft(u) && a == TrimRight(v)
    ensures r == RenderTail(Tail(r[..|r| - |t|], t[0], u[..|u| - |v|], a, v[|a|..]))
    ensures AllSpace(r[..|r| - |t|]) && AllSpace(u[..|u| - |v|]) && AllSpace(v[|a|..])
  {
    TrimLeftParts(r);
    TrimLeftParts(u);
    TrimRightParts(v);
    HeadTail(t);
    Reassemble(r, r[..|r| - |t|], t, t[0], u, u[..|u| - |v|], v, a, v[|a|..]);
  }

  lemma HeadTail(t: string)
    requires t != []
    ensures t == [t[0]] + t[1..]
  {
  }

  lemma Reassemble(r: string, g: string, t: string, c: char, u: string, g2: string, v: string, a: string, tr: string)
    requires r == g + t && t == [c] + u && u == g2 + v && v == a + tr
    ensures r == g + [c] + g2 + a + tr
  {
  }

  /** One recipient line cut into the pieces of the pattern; `address` and `amount` are its groups. */
  datatype LineParts = LineParts(lead: string, address: string, tail: Tail)

  predicate PartsWellFormed(p: LineParts, d: nat) {
    AllSpace(p.lead) && |p.address| >= 1 && NoSpace(p.address) && TailWellFormed(p.tail, d)
  }

  function RenderLine(p: LineParts): string {
    p.lead + p.address + RenderTail(p.tail)
  }

  lemma LinePieces(line: string, body: string, run: nat, k: nat)
    requires body == TrimLeft(line) && run == NonSpaceRun(body) && k <= run
    ensures NoSpace(body[..k]) && AllSpace(line[..|line| - |body|])
    ensures line == line[..|line| - |body|] + body[..k] + body[k..]
  {
    hide *;
    TrimLeftParts(line);
    NoSpacePrefix(body[..run], k);
    assert body[..run][..k] == body[..k];
    SplitAt(body, k);
    Reassociate(line, line[..|line| - |body|], body, body[..k], body[k..]);
  }

  lemma NoSpacePrefix(s: string, k: nat)
    requires NoSpace(s) && k <= |s|
    ensures NoSpace(s[..k])
  {
  }

  lemma SplitAt(s: string, k: nat)
    requires k <= |s|
    ensures s == s[..k] + s[k..]
  {
  }

  lemma Reassociate(line: string, lead: string, body: string, x: string, y: string)
    requires line == lead + body && body == x + y
    ensures line == lead + x + y
  {
  }

  /**
   * The longest address, at most `k` characters, after which the tail matches: `(\S+)` is
   * greedy and gives characters back one at a time.
   */
  function Backtrack(body: string, k: nat, d: nat): (r: Option<nat>)
    requires k <= |body|
    ensures r.Some? ==> 1 <= r.value <= k && TailAt(body, r.value, d)
  {
    LastHit(Hits(body, d), k)
  }

  /** The tail of the pattern matches `body` from position `i` on. */
  predicate TailAt(body: string, i: nat, d: nat)
    requires i <= |body|
  {
    MatchTail(body[i..], d).Some?
  }

  /** Position by position, whether the tail matches there. */
  function Hits(body: string, d: nat): (r: seq<bool>)
    ensures |r| == |body| + 1
    ensures forall i | 0 <= i < |r| :: r[i] == TailAt(body, i, d)
  {
    seq(|body| + 1, i requires 0 <= i <= |body| => TailAt(body, i, d))
  }

  /** The highest position in [1, k] that holds a hit, searching from k down. */
  function LastHit(hits: seq<bool>, k: nat): (r: Option<nat>)
    requires k < |hits|
    ensures r.Some? ==> 1 <= r.value <= k && hits[r.value]
    ensures r.None? ==> forall i | 1 <= i <= k :: !hits[i]
  {
    if k == 0 then None
    else if hits[k] then Some(k)
    else LastHit(hits, k - 1)
  }

  /**
   * `re.match` of the recipient pattern on one line: `^\s*` takes all leading whitespace, the
   * address starts at the first other character and is tried from the whole non-space run
   * downwards.
   */
  function MatchLine(line: string, d: nat): (r: Option<LineParts>)
    ensures r.Some? ==> PartsWellFormed(r.value, d) && RenderLine(r.value) == line
  {
    var body := TrimLeft(line);
    var lead := line[..|line| - |body|];
    var run := NonSpaceRun(body);
    match Backtrack(body, run, d)
    case None => None
    case Some(k) =>
      var tail := MatchTail(body[k..], d).value;
      MatchTailSound(body[k..], d);
      LinePieces(line, body, run, k);
      Some(LineParts(lead, body[..k], tail))
  }

  // ---------------------------------------------------------------------------------------
  // Every well-formed line is matched, with its own groups
  // ---------------------------------------------------------------------------------------

  predicate NoComma(s: string) {
    forall i | 0 <= i < |s| :: !IsComma(s[i])
  }

  /** Whitespace and amounts hold no comma, so neither does what follows a line's comma. */
  lemma TailRestNoComma(t: Tail, d: nat)
    requires TailWellFormed(t, d)
    ensures NoComma(t.gap2 + t.amount + t.trail)
  {
    AmountTextChars(t.amount, d);
    var rest := t.gap2 + t.amount + t.trail;
    forall i | 0 <= i < |rest|
      ensures !IsComma(rest[i])
    {
      if i < |t.gap2| {
        assert rest[i] == t.gap2[i];
      } else if i < |t.gap2| + |t.amount| {
        assert rest[i] == t.amount[i - |t.gap2|];
      } else {
        assert rest[i] == t.trail[i - |t.gap2| - |t.amount|];
      }
    }
  }

  /** A text without a comma never matches the tail of the pattern. */
  lemma NoCommaNoTail(r: string, d: nat)
    requires NoComma(r)
    ensures MatchTail(r, d).None?
  {
    var t := TrimLeft(r);
    if t != [] {
      assert t[0] == r[|r| - |t|];
    }
  }

  /** The left trim of the rendered tail starts at its comma. */
  lemma TailTrimLeft(t: Tail)
    requires AllSpace(t.gap) && IsComma(t.comma)
    ensures TrimLeft(RenderTail(t)) == [t.comma] + (t.gap2 + t.amount + t.trail)
  {
    var rest := [t.comma] + (t.gap2 + t.amount + t.trail);
    assert RenderTail(t) == t.gap + rest;
    TrimLeftSkip(t.gap, rest);
    TrimLeftNonSpace(rest);
  }

  /** Behind the comma, the left trim starts at the amount and the right trim ends with it. */
  lemma AmountTrims(t: Tail, d: nat)
    requires TailWellFormed(t, d)
    ensures TrimLeft(t.gap2 + t.amount + t.trail) == t.amount + t.trail
    ensures TrimRight(t.amount + t.trail) == t.amount
  {
    AmountTextChars(t.amount, d);
    assert t.gap2 + t.amount + t.trail == t.gap2 + (t.amount + t.trail);
    TrimLeftSkip(t.gap2, t.amount + t.trail);
    TrimLeftNonSpace(t.amount + t.trail);
    TrimRightSkip(t.amount, t.trail);
    TrimRightNonSpace(t.amount);
  }

  /** The tail of the pattern reads a well-formed tail back piece for piece. */
  lemma MatchTailRender(t: Tail, d: nat)
    requires TailWellFormed(t, d)
    ensures MatchTail(RenderTail(t), d) == Some(t)
  {
    var r := RenderTail(t);
    var rest := t.gap2 + t.amount + t.trail;
    TailTrimLeft(t);
    AmountTrims(t, d);
    TailSlices(t);
  }

  lemma TailSlices(t: Tail)
    ensures var r := RenderTail(t);
            var rest := t.gap2 + t.amount + t.trail;
            var tl := [t.comma] + rest;
            tl[1..] == rest && r[..|r| - |tl|] == t.gap &&
            rest[..|rest| - |t.amount + t.trail|] == t.gap2 &&
            (t.amount + t.trail)[|t.amount|..] == t.trail
  {
    var r := RenderTail(t);
    var rest := t.gap2 + t.amount + t.trail;
    var tl := [t.comma] + rest;
    assert r == t.gap + tl;
  }

  /** The tail matches at no position in (j, k]. */
  predicate NoHitAbove(hits: seq<bool>, j: nat, k: nat)
    requires k < |hits|
  {
    forall i | j < i <= k :: !hits[i]
  }

  /** Trying positions from `k` down finds the highest hit. */
  lemma {:induction false} LastHitFinds(hits: seq<bool>, k: nat, j: nat)
    requires 1 <= j <= k < |hits|
    requires hits[j] && NoHitAbove(hits, j, k)
    ensures LastHit(hits, k) == Some(j)
    decreases k
  {
    if k > j {
      LastHitFinds(hits, k - 1, j);
    }
  }

  /** Past the end of the address and up to the end of the non-space run, the tail never matches. */
  lemma LongerAddressesFail(p: LineParts, d: nat, body: string, run: nat)
    requires PartsWellFormed(p, d)
    requires body == p.address + RenderTail(p.tail)
    requires run <= |body| && NoSpace(body[..run])
    ensures NoHitAbove(Hits(body, d), |p.address|, run)
  {
    var t := p.tail;
    var rest := t.gap2 + t.amount + t.trail;
    TailRestNoComma(t, d);
    if |p.address| < run {
      assert body[..run][|p.address|] == body[|p.address|];
      if t.gap != [] {
        assert false;
      }
      assert body == p.address + [t.comma] + rest;
      assert body[|p.address| + 1..] == rest;
      NoCommaSuffixes(body, |p.address|, d);
    }
  }

  /** Where everything after position j + 1 is free of commas, no tail matches above j. */
  lemma NoCommaSuffixes(body: string, j: nat, d: nat)
    requires j < |body|
    requires NoComma(body[j + 1..])
    ensures NoHitAbove(Hits(body, d), j, |body|)
  {
    var hits := Hits(body, d);
    forall k | j < k <= |body|
      ensures !hits[k]
    {
      assert body[k..] == body[j + 1..][k - j - 1..];
      NoCommaNoTail(body[k..], d);
    }
  }

  /** The address is at most the non-space run the line starts with. */
  lemma AddressWithinRun(p: LineParts, body: string)
    requires |p.address| >= 1 && NoSpace(p.address)
    requires body == p.address + RenderTail(p.tail)
    ensures |p.address| <= NonSpaceRun(body)
  {
  }

  /**
   * The pattern matches every well-formed line, and its groups are that line's address and
   * amount: together with the contract of `MatchLine`, a line matches iff it is a rendering
   * of well-formed parts.
   */
  lemma MatchLineRender(p: LineParts, d: nat)
    requires PartsWellFormed(p, d)
    ensures MatchLine(RenderLine(p), d) == Some(p)
  {
    var line := RenderLine(p);
    var body := p.address + RenderTail(p.tail);
    LeadTrims(p, line, body);
    var run := NonSpaceRun(body);
    AddressFound(p, d, body, run);
    assert body[|p.address|..] == RenderTail(p.tail);
    MatchTailRender(p.tail, d);
    assert body[..|p.address|] == p.address;
  }
  /** A line matches exactly when it is some well-formed recipient line written out. */
  lemma MatchLineIff(line: string, d: nat)
    ensures MatchLine(line, d).Some? <==> exists p :: PartsWellFormed(p, d) && RenderLine(p) == line
  {
    if exists p :: PartsWellFormed(p, d) && RenderLine(p) == line {
      var p :| PartsWellFormed(p, d) && RenderLine(p) == line;
      MatchLineRender(p, d);
    }
  }


  /** The leading whitespace of a rendered line is exactly its `lead`. */
  lemma LeadTrims(p: LineParts, line: string, body: string)
    requires |p.address| >= 1 && NoSpace(p.address) && AllSpace(p.lead)
    requires line == RenderLine(p) && body == p.address + RenderTail(p.tail)
    ensures TrimLeft(line) == body && line[..|line| - |body|] == p.lead
  {
    hide TrimLeft, RenderTail;
    assert line == p.lead + body;
    TrimLeftSkip(p.lead, body);
    TrimLeftNonSpace(body);
  }

  /** Backtracking from the end of the non-space run stops at the end of the address. */
  lemma AddressFound(p: LineParts, d: nat, body: string, run: nat)
    requires PartsWellFormed(p, d)
    requires body == p.address + RenderTail(p.tail)
    requires run == NonSpaceRun(body)
    ensures Backtrack(body, run, d) == Some(|p.address|)
  {
    AddressWithinRun(p, body);
    LongerAddressesFail(p, d, body, run);
    assert body[|p.address|..] == RenderTail(p.tail);
    MatchTailRender(p.tail, d);
    LastHitFinds(Hits(body, d), run, |p.address|);
  }
}

=== FILE: send_ft.dfy ===
/**
 * The token send form: the same recipients box and amount field as the coin form, with the
 * token's own number of decimals and at most 99 recipients, the guarded steps of a send, and
 * the report shown when the token script answers.
 */
module SendFt {
  import opened Wrappers
  import opened PyText
  import opened Model
  import opened Mvclib
  import opened Utils
  import opened Receivers
  import opened ReceiverList
  import opened MetaContract
  import opened Contract
  import opened Base

  /** The token form accepts at most 99 recipient lines. */
  const FT_CAP: Option<nat> := Some(99)

  /** How `send_ft` ends, short of the script's answer. */
  datatype SendFtStep =
    | ParseRaised                                 // `Decimal` of the amount field raised
    | NoGas                                       // no unspent output to pay the fees with
    | MergeFailed                                 // merging the unspents raised
    | TransferStarted(merged: bool, params: TransferParams)

  /** What the form shows once the script answers. */
  datatype FtReport = FtSent(txid: string) | FtFailed(message: string)

  /** The message shown when the backend reports too little coin. */
  const INSUFFICIENT_SPACE: string := "Insufficient SPACE"

  /** A recipient of the transfer: the address and `str` of the amount in the token's units. */
  function FtReceiverOf(p: (string, nat)): FtReceiver {
    FtReceiver(p.0, NatToString(p.1))
  }

  function FtReceiversOf(ps: seq<(string, nat)>): (rs: seq<FtReceiver>)
    ensures |rs| == |ps|
  {
    seq(|ps|, i requires 0 <= i < |ps| => FtReceiverOf(ps[i]))
  }

  /** The recipients handed to the script carry the addresses and amounts exactly: `int` reads them back. */
  lemma FtReceiversReadBack(ps: seq<(string, nat)>)
    ensures forall i | 0 <= i < |ps| :: FtReceiversOf(ps)[i].address == ps[i].0
    ensures forall i | 0 <= i < |ps| :: ParseInt(FtReceiversOf(ps)[i].amount) == Some(ps[i].1 as int)
  {
    forall i | 0 <= i < |ps|
      ensures ParseInt(FtReceiversOf(ps)[i].amount) == Some(ps[i].1 as int)
    {
      ParseIntNatToString(ps[i].1);
    }
  }

  lemma FtReceiversSnoc(ps: seq<(string, nat)>, p: (string, nat))
    ensures FtReceiversOf(ps + [p]) == FtReceiversOf(ps) + [FtReceiverOf(p)]
  {
    var left := FtReceiversOf(ps + [p]);
    var right := FtReceiversOf(ps) + [FtReceiverOf(p)];
    forall k | 0 <= k < |left|
      ensures left[k] == right[k]
    {
      if k < |ps| {
        assert (ps + [p])[k] == ps[k];
      }
    }
    assert |left| == |right|;
  }

  /**
   * Recipients written one per line are handed to the script in order, each amount the text of
   * its exact number of token units.
   */
  lemma RenderedFtReceivers(ps: seq<LineParts>, d: nat, amountText: string)
    requires ps != [] && forall i | 0 <= i < |ps| :: PartsWellFormed(ps[i], d)
    ensures ParsedReceivers(RenderLines(ps), amountText, d) == Some(Pairs(ps, d))
    ensures forall i | 0 <= i < |ps| :: FtReceiversOf(Pairs(ps, d))[i].address == ps[i].address
    ensures forall i | 0 <= i < |ps| ::
              ParseInt(FtReceiversOf(Pairs(ps, d))[i].amount) == Some(AmountUnits(ps[i].tail.amount, d) as int)
  {
    RenderedParse(ps, d, amountText);
    FtReceiversReadBack(Pairs(ps, d));
  }

  /**
   * `send_ft_callback`: code 0 reports the txid; any other code reports the backend's message,
   * replaced for -200 (too little coin) and -201 (too little of the token). None where the
   * handler raises: a result without a code, a success without a txid, a failure without a
   * message.
   */
  function CallbackReport(symbol: string, r: FtResult): (report: Option<FtReport>)
    ensures r.code.None? ==> report.None?
    ensures r.code == Some(0) ==> report == (if r.txid.Some? then Some(FtSent(r.txid.value)) else None)
    ensures r.code.Some? && r.code != Some(0) && r.message.None? ==> report.None?
    ensures report.Some? && report.value.FtFailed? ==> r.code.Some? && r.code != Some(0) && r.message.Some?
    ensures r.code == Some(-200) && r.message.Some? ==> report == Some(FtFailed(INSUFFICIENT_SPACE))
    ensures r.code == Some(-201) && r.message.Some? ==> report == Some(FtFailed("Insufficient " + symbol))
    ensures r.code.Some? && r.code.value !in {0, -200, -201} && r.message.Some? ==> report == Some(FtFailed(r.message.value))
  {
    match r.code
    case None => None
    case Some(code) =>
      if code == 0 then
        (if r.txid.Some? then Some(FtSent(r.txid.value)) else None)
      else if r.message.None? then None
      else if code == -200 then Some(FtFailed(INSUFFICIENT_SPACE))
      else if code == -201 then Some(FtFailed("Insufficient " + symbol))
      else Some(FtFailed(r.message.value))
  }

  /**
   * Against the script's answers: a transfer that goes through is reported as sent with its
   * txid; a thrown error is reported only when it carries both a code and a message, and never
   * as sent unless its code is 0.
   */
  lemma TransferReported(symbol: string, transfer: TransferOutcome)
    ensures transfer.Transferred? ==> CallbackReport(symbol, TransferResult(transfer)) == Some(FtSent(transfer.txid))
    ensures transfer.TransferThrew? && (transfer.error.code.None? || (transfer.error.code != Some(0) && transfer.error.message.None?))
            ==> CallbackReport(symbol, TransferResult(transfer)).None?
    ensures transfer.TransferThrew? ==> forall t :: CallbackReport(symbol, TransferResult(transfer)) != Some(FtSent(t))
  {
  }

  /** The recipients of the groups, built one by one in order. */
  method FtReceiversOfGroups(groups: seq<LineParts>, d: nat) returns (built: seq<FtReceiver>)
    requires forall i | 0 <= i < |groups| :: PartsWellFormed(groups[i], d)
    ensures built == FtReceiversOf(Pairs(groups, d))
  {
    built := [];
    var i := 0;
    while i < |groups|
      invariant 0 <= i <= |groups|
      invariant built == FtReceiversOf(Pairs(groups[..i], d))
    {
      PairsSnoc(groups, d, i);
      FtReceiversSnoc(Pairs(groups[..i], d), GroupPair(groups[i], d));
      built := built + [FtReceiverOf(GroupPair(groups[i], d))];
      i := i + 1;
    }
    assert groups[..i] == groups;
  }

  class SendFtForm {
    const lib: Library
    const ft: TokenBalance
    const key: SigningKey
    const unspents: seq<Unspent>
    const self: Handler
    var receiversText: string
    var amountText: string
    var amountReadOnly: bool
    var maxEnabled: bool
    var sendEnabled: bool
    var receivers: seq<FtReceiver>
    var accepted: bool

    /**
     * A fresh form: the amount field is read-only and Max and Send are disabled. A token with
     * no decimals makes the pattern `\d{1,0}`, which Python refuses to compile, so it is excluded.
     */
    constructor (lib: Library, ft: TokenBalance, key: SigningKey, unspents: Option<seq<Unspent>>, self: Handler)
      requires ft.decimal >= 1
      ensures this.lib == lib && this.ft == ft && this.key == key && this.self == self
      ensures this.unspents == HeldList(unspents)
      ensures receiversText == "" && amountText == "" && receivers == []
      ensures amountReadOnly && !maxEnabled && !sendEnabled && !accepted
    {
      this.lib := lib;
      this.ft := ft;
      this.key := key;
      this.unspents := HeldList(unspents);
      this.self := self;
      receiversText := "";
      amountText := "";
      amountReadOnly := true;
      maxEnabled := false;
      sendEnabled := false;
      receivers := [];
      accepted := false;
    }

    function Lines(): seq<string>
      reads this`receiversText
    {
      SplitLinesWithoutBlank(receiversText)
    }

    /** `receivers_valid` on the current text, with the token's decimals and the 99-line cap. */
    function Valid(): bool
      reads this`receiversText
    {
      ReceiversValid(lib, key.chain, Lines(), ft.decimal, FT_CAP)
    }

    /** `amount_text_changed`: Send is enabled iff the amount field and the recipients are valid. */
    method AmountTextChanged() returns (raised: bool)
      modifies this`sendEnabled
      ensures raised <==> AmountFieldValid(amountText).None?
      ensures raised ==> sendEnabled == old(sendEnabled)
      ensures !raised ==> sendEnabled == (AmountFieldValid(amountText) == Some(true) && Valid())
    {
      var amount := AmountFieldValid(amountText);
      if amount.None? {
        return true;
      }
      sendEnabled := amount.value && Valid();
      return false;
    }

    /** The user types in the amount field while it is editable. */
    method EditAmount(text: string) returns (raised: bool)
      requires !amountReadOnly
      modifies this`amountText, this`sendEnabled
      ensures amountText == text
      ensures raised <==> AmountFieldValid(text).None?
      ensures raised ==> sendEnabled == old(sendEnabled)
      ensures !raised ==> sendEnabled == (AmountFieldValid(text) == Some(true) && Valid())
    {
      raised := SetAmountText(text);
    }

    /** `setText` on the amount field, which fires `amount_text_changed` whether or not it is read-only. */
    method SetAmountText(text: string) returns (raised: bool)
      modifies this`amountText, this`sendEnabled
      ensures amountText == text
      ensures raised <==> AmountFieldValid(text).None?
      ensures raised ==> sendEnabled == old(sendEnabled)
      ensures !raised ==> sendEnabled == (AmountFieldValid(text) == Some(true) && Valid())
    {
      amountText := text;
      raised := AmountTextChanged();
    }

    /**
     * `receivers_text_changed`: the amount field shows the total of valid recipients (empty
     * when there is none or it is zero); read-only with several lines or a total; Max only for
     * a single line without a total; Send iff the amount and the recipients are valid.
     */
    method ReceiversTextChanged() returns (raised: bool)
      modifies this`amountText, this`amountReadOnly, this`maxEnabled, this`sendEnabled
      ensures raised <==> AmountFieldValid(old(amountText)).None?
      ensures raised ==> amountText == old(amountText) && amountReadOnly == old(amountReadOnly)
                         && maxEnabled == old(maxEnabled) && sendEnabled == old(sendEnabled)
      ensures !raised ==> amountText == TotalAmountText(lib, key.chain, Lines(), ft.decimal, FT_CAP)
      ensures !raised ==> sendEnabled == (Valid() && amountText != "")
      ensures !raised ==> amountReadOnly == (|Lines()| > 1 || amountText != "")
      ensures !raised ==> maxEnabled == (|Lines()| == 1 && amountText == "")
    {
      hide *;
      var amount := AmountFieldValid(amountText);
      if amount.None? {
        return true;
      }
      sendEnabled := amount.value && Valid();
      var lines := Lines();
      var total := TotalAmountText(lib, key.chain, lines, ft.decimal, FT_CAP);
      TotalAmountValid(lib, key.chain, lines, ft.decimal, FT_CAP);
      if total != amountText {
        var again := SetAmountText(total);
      }
      amountReadOnly := |lines| > 1 || total != "";
      maxEnabled := |lines| == 1 && total == "";
      return false;
    }

    /** The user edits the recipients box, which fires `receivers_text_changed`. */
    method EditReceivers(text: string) returns (raised: bool)
      modifies this`receiversText, this`amountText, this`amountReadOnly, this`maxEnabled, this`sendEnabled
      ensures receiversText == text
      ensures raised <==> AmountFieldValid(old(amountText)).None?
      ensures raised ==> amountText == old(amountText) && amountReadOnly == old(amountReadOnly)
                         && maxEnabled == old(maxEnabled) && sendEnabled == old(sendEnabled)
      ensures !raised ==> amountText == TotalAmountText(lib, key.chain, Lines(), ft.decimal, FT_CAP)
      ensures !raised ==> sendEnabled == (Valid() && amountText != "")
      ensures !raised ==> amountReadOnly == (|Lines()| > 1 || amountText != "")
      ensures !raised ==> maxEnabled == (|Lines()| == 1 && amountText == "")
    {
      receiversText := text;
      raised := ReceiversTextChanged();
    }

    /**
     * `parse_receivers`: one recipient per group, in order, its amount the text of its units;
     * with no group and a single line, that line with the amount field's value. When `Decimal`
     * raises on the amount field the list is left empty.
     */
    method ParseReceivers() returns (raised: bool)
      modifies this`receivers
      ensures raised <==> ParsedReceivers(Lines(), amountText, ft.decimal).None?
      ensures raised ==> receivers == []
      ensures !raised ==> receivers == FtReceiversOf(ParsedReceivers(Lines(), amountText, ft.decimal).value)
    {
      var lines := SplitLinesWithoutBlank(receiversText);
      receivers := [];
      var built := FtReceiversOfGroups(Groups(lines, ft.decimal), ft.decimal);
      if built == [] && |lines| == 1 {
        var amount := ParseDecimal(amountText);
        if amount.None? {
          return true;
        }
        built := FtReceiversOf([(lines[0], DecUnits(amount.value, ft.decimal))]);
      }
      receivers := built;
      return false;
    }

    /**
     * `send_ft`: the recipients are parsed first (a raising amount field leaves the slot);
     * without any unspent the send stops; with more than three unspents (all of them are
     * counted, whatever their address) they are first merged, which may raise; then the
     * callback is registered under a new id and the script is called with the transfer's
     * parameters.
     */
    method SendFt(table: CallbackTable, newId: string, mergeRaises: bool) returns (step: SendFtStep)
      requires newId !in table.callbacks
      modifies this`receivers, table
      ensures ParsedReceivers(Lines(), amountText, ft.decimal).None? ==> step == ParseRaised
      ensures step != ParseRaised ==> receivers == FtReceiversOf(ParsedReceivers(Lines(), amountText, ft.decimal).value)
      ensures step == NoGas <==> step != ParseRaised && unspents == []
      ensures step == MergeFailed <==> step != ParseRaised && |unspents| > 3 && mergeRaises
      ensures step.TransferStarted? <==>
                ParsedReceivers(Lines(), amountText, ft.decimal).Some? && unspents != [] && !(|unspents| > 3 && mergeRaises)
      ensures step.TransferStarted? ==> step.merged == (|unspents| > 3)
      ensures step.TransferStarted? ==> step.params == FtTransferParams(ft, key.chain, key.wif, newId, receivers)
      ensures step.TransferStarted? ==> table.callbacks == Register(old(table.callbacks), newId, self)
      ensures !step.TransferStarted? ==> table.callbacks == old(table.callbacks)
    {
      var raised := ParseReceivers();
      if raised {
        return ParseRaised;
      }
      if unspents == [] {
        return NoGas;
      }
      var merged := |unspents| > 3;
      if merged && mergeRaises {
        return MergeFailed;
      }
      var requestId := table.RegisterCallback(newId, self);
      return TransferStarted(merged, FtTransferParams(ft, key.chain, key.wif, requestId, receivers));
    }

    /** The script's answer: the report shown, and the form closes on success. */
    method SendFtCallback(r: FtResult) returns (report: Option<FtReport>)
      modifies this`accepted
      ensures report == CallbackReport(ft.symbol, r)
      ensures accepted == (old(accepted) || (report.Some? && report.value.FtSent?))
    {
      report := CallbackReport(ft.symbol, r);
      if report.Some? && report.value.FtSent? {
        accepted := true;
      }
    }

    /**
     * `max_amount_clicked`: the amount field is set to the token's whole balance, formatted by
     * `format_coin` (a parameter here); `int` of either balance string may raise first.
     */
    method MaxAmountClicked(formatCoin: (int, nat) -> string) returns (raised: bool)
      modifies this`amountText, this`sendEnabled
      ensures TokenTotal(ft).None? ==> raised && amountText == old(amountText) && sendEnabled == old(sendEnabled)
      ensures TokenTotal(ft).Some? ==> amountText == formatCoin(TokenTotal(ft).value, ft.decimal)
      ensures TokenTotal(ft).Some? ==> (raised <==> AmountFieldValid(amountText).None?)
      ensures TokenTotal(ft).Some? && !raised ==> sendEnabled == (AmountFieldValid(amountText) == Some(true) && Valid())
    {
      var total := TokenTotal(ft);
      if total.None? {
        return true;
      }
      raised := SetAmountText(formatCoin(total.value, ft.decimal));
    }
  }
}

=== FILE: send_unspents.dfy ===
/**
 * The coin send form: the state its recipients box and amount field drive, the pairs a send
 * uses, and the numbers read back from an insufficient-funds error.
 */
module SendUnspents {
  import opened Wrappers
  import opened PyText
  import opened Model
  import opened Mvclib
  import opened Utils
  import opened Receivers
  import opened ReceiverList

  /** The coin form has no upper bound on the number of recipient lines. */
  const NO_CAP: Option<nat> := None

  /** How a send ends, as the external transaction builder and broadcaster report it. */
  datatype SendOutcome =
    | Broadcast(propagated: bool)
    | InsufficientFunds(message: string)
    | OtherError

  /** What the form reports to the user after a send. */
  datatype Report =
    | Sent
    | SendFailed
    | Insufficient(required: nat, available: nat)
    | UnknownError

  class SendUnspentsForm {
    const lib: Library
    const chain: Chain
    var receiversText: string
    var amountText: string
    var amountReadOnly: bool
    var maxEnabled: bool
    var sendEnabled: bool
    var receivers: seq<(string, nat)>
    var accepted: bool

    /** A fresh form: the amount field is read-only and Max and Send are disabled. */
    constructor (lib: Library, chain: Chain)
      ensures this.lib == lib && this.chain == chain
      ensures receiversText == "" && amountText == "" && receivers == []
      ensures amountReadOnly && !maxEnabled && !sendEnabled && !accepted
    {
      this.lib := lib;
      this.chain := chain;
      receiversText := "";
      amountText := "";
      amountReadOnly := true;
      maxEnabled := false;
      sendEnabled := false;
      receivers := [];
      accepted := false;
    }

    /** The non-blank lines of the recipients box. */
    function Lines(): seq<string>
      reads this`receiversText
    {
      SplitLinesWithoutBlank(receiversText)
    }

    /** `receivers_valid` on the current text. */
    function Valid(): bool
      reads this`receiversText
    {
      ReceiversValid(lib, chain, Lines(), COIN_DECIMAL, NO_CAP)
    }

    /**
     * `amount_text_changed`: Send is enabled iff the amount field and the recipients are both
     * valid. When `Decimal` raises on the field nothing changes.
     */
    method AmountTextChanged() returns (raised: bool)
      modifies this`sendEnabled
      ensures raised <==> AmountFieldValid(amountText).None?
      ensures raised ==> sendEnabled == old(sendEnabled)
      ensures !raised ==> sendEnabled == (AmountFieldValid(amountText) == Some(true) && Valid())
    {
      var amount := AmountFieldValid(amountText);
      if amount.None? {
        return true;
      }
      sendEnabled := amount.value && Valid();
      return false;
    }

    /** The user types in the amount field, which is only possible while it is not read-only. */
    method EditAmount(text: string) returns (raised: bool)
      requires !amountReadOnly
      modifies this`amountText, this`sendEnabled
      ensures amountText == text
      ensures raised <==> AmountFieldValid(text).None?
      ensures raised ==> sendEnabled == old(sendEnabled)
      ensures !raised ==> sendEnabled == (AmountFieldValid(text) == Some(true) && Valid())
    {
      raised := SetAmountText(text);
    }

    /** `setText` on the amount field, which fires `amount_text_changed` whether or not it is read-only. */
    method SetAmountText(text: string) returns (raised: bool)
      modifies this`amountText, this`sendEnabled
      ensures amountText == text
      ensures raised <==> AmountFieldValid(text).None?
      ensures raised ==> sendEnabled == old(sendEnabled)
      ensures !raised ==> sendEnabled == (AmountFieldValid(text) == Some(true) && Valid())
    {
      amountText := text;
      raised := AmountTextChanged();
    }

    /**
     * `max_amount_clicked`: the amount field shows, formatted as coins, the change output of a
     * transaction that spends every unspent (the transaction builder computes `changeSatoshi`);
     * setting the field then runs `amount_text_changed`.
     */
    method MaxAmountClicked(changeSatoshi: nat, formatCoin: (int, nat) -> string) returns (raised: bool)
      modifies this`amountText, this`sendEnabled
      ensures amountText == formatCoin(changeSatoshi, COIN_DECIMAL)
      ensures raised <==> AmountFieldValid(amountText).None?
      ensures raised ==> sendEnabled == old(sendEnabled)
      ensures !raised ==> sendEnabled == (AmountFieldValid(amountText) == Some(true) && Valid())
    {
      raised := SetAmountText(formatCoin(changeSatoshi, COIN_DECIMAL));
    }

    /**
     * `receivers_text_changed`: the amount field
     * shows the total of valid recipients (empty when there is none or it is zero), it is
     * read-only when there are several lines or a total, Max is enabled only for a single line
     * without a total, and Send iff the amount and the recipients are valid. Setting the amount
     * field runs `amount_text_changed`, which finds the same answer. When `Decimal` raises on the
     * old amount nothing changes.
     */
    method ReceiversTextChanged() returns (raised: bool)
      modifies this`amountText, this`amountReadOnly, this`maxEnabled, this`sendEnabled
      ensures raised <==> AmountFieldValid(old(amountText)).None?
      ensures raised ==> amountText == old(amountText) && amountReadOnly == old(amountReadOnly)
                         && maxEnabled == old(maxEnabled) && sendEnabled == old(sendEnabled)
      ensures !raised ==> amountText == TotalAmountText(lib, chain, Lines(), COIN_DECIMAL, NO_CAP)
      ensures !raised ==> sendEnabled == (Valid() && amountText != "")
      ensures !raised ==> amountReadOnly == (|Lines()| > 1 || amountText != "")
      ensures !raised ==> maxEnabled == (|Lines()| == 1 && amountText == "")
    {
      hide *;
      var amount := AmountFieldValid(amountText);
      if amount.None? {
        return true;
      }
      sendEnabled := amount.value && Valid();
      var lines := Lines();
      var total := TotalAmountText(lib, chain, lines, COIN_DECIMAL, NO_CAP);
      TotalAmountValid(lib, chain, lines, COIN_DECIMAL, NO_CAP);
      if total != amountText {
        var again := SetAmountText(total);
      }
      amountReadOnly := |lines| > 1 || total != "";
      maxEnabled := |lines| == 1 && total == "";
      return false;
    }

    /** The user edits the recipients box, which fires `receivers_text_changed`. */
    method EditReceivers(text: string) returns (raised: bool)
      modifies this`receiversText, this`amountText, this`amountReadOnly, this`maxEnabled, this`sendEnabled
      ensures receiversText == text
      ensures raised <==> AmountFieldValid(old(amountText)).None?
      ensures raised ==> amountText == old(amountText) && amountReadOnly == old(amountReadOnly)
                         && maxEnabled == old(maxEnabled) && sendEnabled == old(sendEnabled)
      ensures !raised ==> amountText == TotalAmountText(lib, chain, Lines(), COIN_DECIMAL, NO_CAP)
      ensures !raised ==> sendEnabled == (Valid() && amountText != "")
      ensures !raised ==> amountReadOnly == (|Lines()| > 1 || amountText != "")
      ensures !raised ==> maxEnabled == (|Lines()| == 1 && amountText == "")
    {
      receiversText := text;
      raised := ReceiversTextChanged();
    }

    /**
     * `parse_receivers`: one (address, satoshi) pair per group, in order; with no group and a
     * single line, that line with the amount field's value. When `Decimal` raises on the amount
     * field the list is left empty.
     */
    method ParseReceivers() returns (raised: bool)
      modifies this`receivers
      ensures raised <==> ParsedReceivers(Lines(), amountText, COIN_DECIMAL).None?
      ensures raised ==> receivers == []
      ensures !raised ==> receivers == ParsedReceivers(Lines(), amountText, COIN_DECIMAL).value
    {
      var lines := SplitLinesWithoutBlank(receiversText);
      receivers := [];
      var groups := Groups(lines, COIN_DECIMAL);
      var i := 0;
      while i < |groups|
        invariant 0 <= i <= |groups|
        invariant receivers == Pairs(groups[..i], COIN_DECIMAL)
      {
        PairsSnoc(groups, COIN_DECIMAL, i);
        receivers := receivers + [GroupPair(groups[i], COIN_DECIMAL)];
        i := i + 1;
      }
      assert groups[..i] == groups;
      if receivers == [] && |lines| == 1 {
        var amount := ParseDecimal(amountText);
        if amount.None? {
          return true;
        }
        receivers := [(lines[0], DecUnits(amount.value, COIN_DECIMAL))];
      }
      return false;
    }

    /**
     * `send_transaction`: the recipients are parsed first (a raising amount field ends the
     * send with no report), then the outcome of building and broadcasting is reported; a
     * propagated transaction closes the form. An insufficient-funds message without the two
     * numbers makes the handler itself raise.
     */
    method SendTransaction(outcome: SendOutcome) returns (report: Option<Report>)
      modifies this`receivers, this`accepted
      ensures ParsedReceivers(Lines(), amountText, COIN_DECIMAL).None? ==> report.None? && accepted == old(accepted)
      ensures ParsedReceivers(Lines(), amountText, COIN_DECIMAL).Some? ==>
                receivers == ParsedReceivers(Lines(), amountText, COIN_DECIMAL).value
      ensures ParsedReceivers(Lines(), amountText, COIN_DECIMAL).Some? ==>
                report == ReportOf(outcome) && accepted == (old(accepted) || outcome == Broadcast(true))
    {
      var raised := ParseReceivers();
      if raised {
        return None;
      }
      report := ReportOf(outcome);
      if outcome == Broadcast(true) {
        accepted := true;
      }
    }
  }

  /** The report for each outcome of a send; None where the insufficient-funds handler raises. */
  function ReportOf(outcome: SendOutcome): (r: Option<Report>)
    ensures r.None? <==> outcome.InsufficientFunds? && ParseInsufficient(outcome.message).None?
    ensures outcome.InsufficientFunds? && r.Some? ==>
              r.value == Insufficient(ParseInsufficient(outcome.message).value.0, ParseInsufficient(outcome.message).value.1)
  {
    match outcome
    case Broadcast(propagated) => Some(if propagated then Sent else SendFailed)
    case InsufficientFunds(message) =>
      (match ParseInsufficient(message)
       case None => None
       case Some((required, available)) => Some(Insufficient(required, available)))
    case OtherError => Some(UnknownError)
  }

  // ---------------------------------------------------------------------------------------
  // `require (\d+) satoshi but only (\d+)`
  // ---------------------------------------------------------------------------------------

  const REQUIRE: string := "require "
  const BUT_ONLY: string := " satoshi but only "

  /**
   * The pattern at position `p`: the two literals, each digit run taken whole (the character
   * after a run is never a digit, so giving digits back cannot help the match).
   */
  function InsufficientAt(msg: string, p: nat): (r: Option<(nat, nat)>)
    requires p <= |msg|
  {
    var rest := msg[p..];
    if !(REQUIRE <= rest) then None
    else
      var s := rest[|REQUIRE|..];
      var n := DigitRun(s);
      if n == 0 || !(BUT_ONLY <= s[n..]) then None
      else
        var t := s[n..][|BUT_ONLY|..];
        var m := DigitRun(t);
        if m == 0 then None else Some((DigitsValue(s[..n]), DigitsValue(t[..m])))
  }

  /** The leftmost position at or after `p` where the pattern matches. */
  function FirstInsufficient(msg: string, p: nat): (q: Option<nat>)
    requires p <= |msg|
    ensures q.Some? ==> p <= q.value <= |msg| && InsufficientAt(msg, q.value).Some?
    ensures q.Some? ==> forall k | p <= k < q.value :: InsufficientAt(msg, k).None?
    ensures q.None? ==> forall k | p <= k <= |msg| :: InsufficientAt(msg, k).None?
    decreases |msg| - p
  {
    if InsufficientAt(msg, p).Some? then Some(p)
    else if p == |msg| then None
    else FirstInsufficient(msg, p + 1)
  }

  /** `re.findall(...)[0]`: the two numbers of the first match, None where there is none. */
  function ParseInsufficient(msg: string): Option<(nat, nat)> {
    match FirstInsufficient(msg, 0)
    case None => None
    case Some(q) => InsufficientAt(msg, q)
  }

  /**
   * The numbers come back from the message the library writes: required and available
   * satoshi, whatever non-digit text follows.
   */
  lemma ParseInsufficientMessage(required: nat, available: nat, trail: string)
    requires trail == [] || !IsDigit(trail[0])
    ensures ParseInsufficient(REQUIRE + (NatToString(required) + (BUT_ONLY + (NatToString(available) + trail))))
            == Some((required, available))
  {
    var a := NatToString(required);
    var b := NatToString(available);
    var t := b + trail;
    var u := BUT_ONLY + t;
    var s := a + u;
    var msg := REQUIRE + s;
    assert msg[0..] == msg;
    SplitConcat(REQUIRE, s);
    NonDigitHead(BUT_ONLY, t);
    DigitRunPrefix(a, u);
    SplitConcat(a, u);
    SplitConcat(BUT_ONLY, t);
    DigitRunPrefix(b, trail);
    SplitConcat(b, trail);
  }

  lemma SplitConcat(x: string, y: string)
    ensures x <= x + y && (x + y)[..|x|] == x && (x + y)[|x|..] == y
  {
  }

  lemma NonDigitHead(x: string, y: string)
    requires x == BUT_ONLY
    ensures !IsDigit((x + y)[0])
  {
  }
}

=== FILE: set_password.dfy ===
/**
 * The dialog that sets the password of a new account: two fields limited to 150 visible
 * ASCII characters, and an OK button enabled while the password is non-empty and both
 * fields agree.
 */
module SetPassword {
  import opened Wrappers
  import opened PyText

  /** `setMaxLength(150)`. */
  const MAX_LENGTH: nat := 150

  /** `[\x21-\x7E]`: a visible ASCII character, so neither a space nor a control character. */
  predicate PasswordChar(c: char) {
    '!' <= c <= '~'
  }

  /** What the two fields can hold: at most 150 characters, each matching `[\x21-\x7E]`. */
  predicate FieldText(s: string) {
    |s| <= MAX_LENGTH && forall i | 0 <= i < |s| :: PasswordChar(s[i])
  }

  /**
   * An edit as the field takes it: cut to the maximum length, then refused by the validator
   * (the field keeps its text) unless every character matches.
   */
  function Edited(current: string, typed: string): (r: string)
    ensures FieldText(current) ==> FieldText(r)
    ensures FieldText(typed) ==> r == typed
    ensures r == current || r <= typed
  {
    var cut := if |typed| <= MAX_LENGTH then typed else typed[..MAX_LENGTH];
    if forall i | 0 <= i < |cut| :: PasswordChar(cut[i]) then cut else current
  }

  /** A field's text never holds whitespace, so a password is never changed by stripping it. */
  lemma FieldTextUnpadded(s: string)
    requires FieldText(s)
    ensures NoSpace(s)
    ensures Strip(s) == s
  {
    assert forall i | 0 <= i < |s| :: !IsSpace(s[i]);
    StripUnpadded(s);
  }

  /** The dialog's state: the two fields and whether OK can be clicked. */
  class SetPasswordForm {
    var password: string
    var confirmation: string
    var okEnabled: bool

    /** `enable_ok_button` has run after the last change of either field. */
    predicate Valid()
      reads this
    {
      && FieldText(password) && FieldText(confirmation)
      && (okEnabled <==> password != "" && password == confirmation)
    }

    /** Both fields start empty and OK starts disabled. */
    constructor ()
      ensures Valid() && password == "" && confirmation == "" && !okEnabled
    {
      password := "";
      confirmation := "";
      okEnabled := false;
    }

    /** `enable_ok_button`. */
    method EnableOkButton()
      modifies this`okEnabled
      ensures okEnabled <==> password != "" && password == confirmation
    {
      okEnabled := password != "" && password == confirmation;
    }

    /** Typing in the password field. */
    method EditPassword(typed: string)
      requires Valid()
      modifies this
      ensures Valid()
      ensures password == Edited(old(password), typed) && confirmation == old(confirmation)
    {
      password := Edited(password, typed);
      EnableOkButton();
    }

    /** Typing in the confirmation field. */
    method EditConfirmation(typed: string)
      requires Valid()
      modifies this
      ensures Valid()
      ensures confirmation == Edited(old(confirmation), typed) && password == old(password)
    {
      confirmation := Edited(confirmation, typed);
      EnableOkButton();
    }

    /**
     * Clicking OK: `emit_password` sends the password field's text; a disabled OK button
     * sends nothing. What is sent is a non-empty password of visible ASCII characters, at
     * most 150 of them, typed identically twice.
     */
    method Accept() returns (emitted: Option<string>)
      requires Valid()
      ensures emitted.Some? <==> okEnabled
      ensures emitted.Some? ==> emitted.value == password == confirmation
      ensures emitted.Some? ==> emitted.value != "" && FieldText(emitted.value) && Strip(emitted.value) == emitted.value
    {
      if !okEnabled {
        return None;
      }
      FieldTextUnpadded(password);
      return Some(password);
    }
  }
}

=== FILE: utils.dfy ===
/**
 * Account-file encryption and the key/address validators. The cryptographic and decoding
 * primitives come from a `Library` value; what is modelled is how the wallet combines them:
 * how the password becomes a key and an IV, the order of encoding steps, and how an expected
 * chain narrows what a validator accepts.
 */
module Utils {
  import opened Wrappers
  import opened PyText
  import opened Model
  import opened Mvclib

  /** Satoshi per coin, as a power of ten. */
  const COIN_DECIMAL: nat := 8

  // ---------------------------------------------------------------------------------------
  // Encryption of the account file
  // ---------------------------------------------------------------------------------------

  /**
   * `k[:16], k[16:]` of the SHA-256 of the UTF-8 password: together they are the whole digest,
   * and for a 32-byte digest each is 16 bytes.
   */
  function KeyIv(lib: Library, password: string): (r: (seq<byte>, seq<byte>))
    ensures r.0 + r.1 == lib.sha256(lib.utf8Encode(password))
    ensures |lib.sha256(lib.utf8Encode(password))| == 32 ==> |r.0| == 16 && |r.1| == 16
  {
    var k := lib.sha256(lib.utf8Encode(password));
    if |k| <= 16 then (k, []) else (k[..16], k[16..])
  }

  /** `encrypt_account`: AES of the UTF-8 bytes of the account's JSON text. */
  function EncryptAccount(lib: Library, json: JsonCodec, account: seq<WalletEntry>, password: string): (r: seq<byte>)
    ensures var (key, iv) := KeyIv(lib, password);
            r == lib.aesEncryptWithIv(key, iv, lib.utf8Encode(json.dumps(account)))
  {
    var (key, iv) := KeyIv(lib, password);
    lib.aesEncryptWithIv(key, iv, lib.utf8Encode(json.dumps(account)))
  }

  /**
   * `decrypt_account`: None where any step raises (the padding or the UTF-8 is bad, the text is
   * not JSON). Decryption, decoding and parsing happen in that order, each only on success.
   */
  function DecryptAccount(lib: Library, json: JsonCodec, message: seq<byte>, password: string): (r: Option<seq<WalletEntry>>)
    ensures var (key, iv) := KeyIv(lib, password);
            r.Some? ==> exists plain :: lib.aesDecryptWithIv(key, iv, message) == Some(plain)
    ensures var (key, iv) := KeyIv(lib, password);
            lib.aesDecryptWithIv(key, iv, message).None? ==> r.None?
  {
    var (key, iv) := KeyIv(lib, password);
    var plain :- lib.aesDecryptWithIv(key, iv, message);
    var text :- lib.utf8Decode(plain);
    json.loads(text)
  }

  /** What `write_account_file` writes, `read_account_file` reads back with the same password. */
  lemma AccountRoundTrip(lib: Library, json: JsonCodec, account: seq<WalletEntry>, password: string)
    requires Sha256Width(lib) && AesRoundTrip(lib) && Utf8RoundTrip(lib) && JsonRoundTrip(json)
    ensures DecryptAccount(lib, json, EncryptAccount(lib, json, account, password), password) == Some(account)
  {
    var (key, iv) := KeyIv(lib, password);
    assert |key| == 16 && |iv| == 16;
    var bytes := lib.utf8Encode(json.dumps(account));
    assert lib.aesDecryptWithIv(key, iv, lib.aesEncryptWithIv(key, iv, bytes)) == Some(bytes);
    assert lib.utf8Decode(bytes) == Some(json.dumps(account));
  }

  // ---------------------------------------------------------------------------------------
  // Validators
  // ---------------------------------------------------------------------------------------

  /**
   * The shape every validator shares: the text must decode, and when a chain is asked for
   * (`if chain:`) the decoded chain must be that one.
   */
  function ChainCheck(decoded: Option<Chain>, wanted: Option<Chain>): (r: bool)
    ensures r ==> decoded.Some?
    ensures wanted.None? ==> (r <==> decoded.Some?)
    ensures wanted.Some? ==> (r <==> decoded == wanted)
  {
    match decoded
    case None => false
    case Some(c) => wanted.None? || wanted.value == c
  }

  /** `xprv_valid`. */
  function XprvValid(lib: Library, xprv: string, chain: Option<Chain>): (r: bool)
    ensures r <==> ChainCheck(lib.xprvChain(xprv), chain)
    ensures r ==> lib.xprvChain(xprv).Some?
  {
    match lib.xprvChain(xprv)
    case None => false
    case Some(c) => chain.None? || chain.value == c
  }

  /** `xpub_valid`. */
  function XpubValid(lib: Library, xpub: string, chain: Option<Chain>): (r: bool)
    ensures r <==> ChainCheck(lib.xpubChain(xpub), chain)
    ensures r ==> lib.xpubChain(xpub).Some?
  {
    match lib.xpubChain(xpub)
    case None => false
    case Some(c) => chain.None? || chain.value == c
  }

  /**
   * `wif_valid`: besides the chain, an expected compression flag (`is not None`, so an
   * expected False is checked too) must match what the WIF encodes.
   */
  function WifValid(lib: Library, wif: string, compressed: Option<bool>, chain: Option<Chain>): (r: bool)
    ensures r <==> lib.decodeWif(wif).Some?
                   && (compressed.None? || lib.decodeWif(wif).value.compressed == compressed.value)
                   && (chain.None? || lib.decodeWif(wif).value.chain == chain.value)
  {
    match lib.decodeWif(wif)
    case None => false
    case Some(info) =>
      (compressed.None? || info.compressed == compressed.value) &&
      (chain.None? || info.chain == chain.value)
  }

  /** `address_valid`. */
  function AddressValid(lib: Library, address: string, chain: Option<Chain>): (r: bool)
    ensures r <==> ChainCheck(lib.decodeAddress(address), chain)
    ensures r ==> lib.decodeAddress(address).Some?
  {
    match lib.decodeAddress(address)
    case None => false
    case Some(c) => chain.None? || chain.value == c
  }

  /** `pk_valid`: the text constructs a `PublicKey`. */
  function PkValid(lib: Library, pk: string): (r: bool)
    ensures r <==> lib.publicKeyValid(pk)
  {
    lib.publicKeyValid(pk)
  }

  /**
   * Asking for a chain only narrows a validator: what it accepts for a given chain it accepts
   * with no chain, and no text is accepted for both chains.
   */
  lemma ChainNarrows(decoded: Option<Chain>, c: Chain, d: Chain)
    ensures ChainCheck(decoded, Some(c)) ==> ChainCheck(decoded, None)
    ensures ChainCheck(decoded, Some(c)) && ChainCheck(decoded, Some(d)) ==> c == d
  {
  }

  /** The same for WIFs, in both of their optional checks. */
  lemma WifNarrows(lib: Library, wif: string, compressed: Option<bool>, chain: Option<Chain>)
    ensures WifValid(lib, wif, compressed, chain) ==> WifValid(lib, wif, None, None)
    ensures WifValid(lib, wif, compressed, Some(Main)) ==> !WifValid(lib, wif, compressed, Some(Test))
  {
  }

  // ---------------------------------------------------------------------------------------
  // Lines of a text box
  // ---------------------------------------------------------------------------------------

  predicate NoBreak(s: string) {
    forall i | 0 <= i < |s| :: !IsLineBreak(s[i])
  }

  /** The pieces of `cur + s` between line-break characters, in order, empty ones included. */
  function Pieces(s: string, cur: string): (r: seq<string>)
    requires NoBreak(cur)
    ensures |r| >= 1
    ensures forall i | 0 <= i < |r| :: NoBreak(r[i])
  {
    if s == [] then [cur]
    else if IsLineBreak(s[0]) then [cur] + Pieces(s[1..], [])
    else Pieces(s[1..], cur + [s[0]])
  }

  /** Keeps the lines that are not whitespace only, in order. */
  function DropBlank(ls: seq<string>): (r: seq<string>)
    ensures |r| <= |ls|
    ensures forall i | 0 <= i < |r| :: !AllSpace(r[i]) && r[i] in ls
  {
    if ls == [] then []
    else if AllSpace(ls[0]) then DropBlank(ls[1..])
    else [ls[0]] + DropBlank(ls[1..])
  }

  /**
   * `splitlines_without_blank`: `str.splitlines()` without the lines that are empty or
   * whitespace only. (A "\r\n" pair splits into an extra empty piece, which is dropped.)
   */
  function SplitLinesWithoutBlank(text: string): (r: seq<string>)
    ensures forall i | 0 <= i < |r| :: !AllSpace(r[i]) && NoBreak(r[i])
  {
    var ps := Pieces(text, []);
    var r := DropBlank(ps);
    assert forall i | 0 <= i < |r| :: r[i] in ps;
    r
  }

  /** Lines joined with "\n", as `'\n'.join(lines)` builds them. */
  function JoinLines(ls: seq<string>): string {
    if ls == [] then [] else if |ls| == 1 then ls[0] else ls[0] + "\n" + JoinLines(ls[1..])
  }

  lemma {:induction false} PiecesNoBreak(a: string, cur: string)
    requires NoBreak(cur) && NoBreak(a)
    ensures Pieces(a, cur) == [cur + a]
    decreases |a|
  {
    if a == [] {
      assert cur + a == cur;
    } else {
      assert NoBreak(cur + [a[0]]);
      PiecesNoBreak(a[1..], cur + [a[0]]);
      assert cur + [a[0]] + a[1..] == cur + a;
    }
  }

  lemma {:induction false} PiecesBreak(a: string, b: string, cur: string)
    requires NoBreak(cur) && NoBreak(a)
    ensures Pieces(a + "\n" + b, cur) == [cur + a] + Pieces(b, [])
    decreases |a|
  {
    if a == [] {
      assert (a + "\n" + b)[0] == '\n';
      assert (a + "\n" + b)[1..] == b;
      assert cur + a == cur;
    } else {
      assert (a + "\n" + b)[1..] == a[1..] + "\n" + b;
      assert NoBreak(cur + [a[0]]);
      PiecesBreak(a[1..], b, cur + [a[0]]);
      assert cur + [a[0]] + a[1..] == cur + a;
    }
  }

  /**
   * Splitting the lines a user typed one per row, none blank, gives back those lines: the
   * two receiver forms' line count is the number of receivers entered.
   */
  lemma {:induction false} SplitJoinedLines(ls: seq<string>)
    requires forall i | 0 <= i < |ls| :: !AllSpace(ls[i]) && NoBreak(ls[i])
    ensures SplitLinesWithoutBlank(JoinLines(ls)) == ls
  {
    PiecesOfJoined(ls);
    DropBlankKeeps(ls);
  }

  lemma {:induction false} PiecesOfJoined(ls: seq<string>)
    requires forall i | 0 <= i < |ls| :: NoBreak(ls[i])
    ensures ls == [] ==> Pieces(JoinLines(ls), []) == [[]]
    ensures ls != [] ==> Pieces(JoinLines(ls), []) == ls
  {
    if ls == [] {
    } else if |ls| == 1 {
      PiecesNoBreak(ls[0], []);
      assert [] + ls[0] == ls[0];
      assert [ls[0]] == ls;
    } else {
      PiecesBreak(ls[0], JoinLines(ls[1..]), []);
      PiecesOfJoined(ls[1..]);
      assert [] + ls[0] == ls[0];
      assert [ls[0]] + ls[1..] == ls;
    }
  }

  lemma {:induction false} DropBlankKeeps(ls: seq<string>)
    requires forall i | 0 <= i < |ls| :: !AllSpace(ls[i])
    ensures DropBlank(ls) == ls
    ensures DropBlank([[]] + ls) == ls
  {
    if ls != [] {
      DropBlankKeeps(ls[1..]);
      assert [ls[0]] + ls[1..] == ls;
    }
    assert ([[]] + ls)[1..] == ls;
  }
}

=== FILE: wallet.dfy ===
/**
 * The view of one HD wallet opened from its xprv: the receive address and its cursor, the
 * unspent table with its balance, the token table, the rows picked by hand, and what the
 * send button hands to the coin send form.
 */
module Wallet {
  import opened Wrappers
  import opened PyText
  import opened Model
  import opened Mvclib
  import opened Base
  import opened Keys

  // ---------------------------------------------------------------------------------------
  // The receive cursor
  // ---------------------------------------------------------------------------------------

  /** The address of receive key `i`: `derive_xkeys_from_xkey(xprv, i, i + 1, 0)[0].address()`. */
  function ReceiveAddress(lib: Library, xprv: string, i: nat): (address: string)
    ensures address == lib.deriveChild(Xprv(xprv), 0, i).address
  {
    DeriveRange(lib, Xprv(xprv), i, i + 1, 0)[0].address
  }

  /** The cursor after `n` clicks of the change-address button from `i`, with limit `limit`. */
  function Rotated(i: nat, limit: nat, n: nat): nat
    requires limit > 0
  {
    if n == 0 then i else (Rotated(i, limit, n - 1) + 1) % limit
  }

  /** After `n` clicks the cursor is `(i + n) mod limit`: it stays below the limit and wraps to 0. */
  lemma {:induction false} RotatedClosedForm(i: nat, limit: nat, n: nat)
    requires i < limit
    ensures Rotated(i, limit, n) == (i + n) % limit
  {
    if n == 0 {
      ModOf(i, limit, 0, i);
    } else {
      var a := i + n - 1;
      assert Rotated(i, limit, n) == (Rotated(i, limit, n - 1) + 1) % limit;
      RotatedClosedForm(i, limit, n - 1);
      assert a + 1 == i + n;
      ModSucc(a, limit);
    }
  }

  /** Adding one after reducing modulo `limit` is reducing after adding one. */
  lemma ModSucc(a: nat, limit: nat)
    requires limit > 0
    ensures (a % limit + 1) % limit == (a + 1) % limit
  {
    var q, r := a / limit, a % limit;
    if r + 1 < limit {
      ModOf(r + 1, limit, 0, r + 1);
      ModOf(a + 1, limit, q, r + 1);
    } else {
      ModOf(r + 1, limit, 1, 0);
      ModOf(a + 1, limit, q + 1, 0);
    }
  }

  /** One click moves the cursor to the next key, modulo the limit. */
  lemma RotatedOnce(i: nat, limit: nat)
    requires limit > 0
    ensures Rotated(i, limit, 1) == (i + 1) % limit
  {
    assert Rotated(i, limit, 0) == i;
  }

  /**
   * Clicking the button `limit` times brings the cursor back where it started, and every
   * receive key below the limit is reached within `limit` clicks.
   */
  lemma RotationVisitsAll(i: nat, limit: nat, j: nat)
    requires i < limit && j < limit
    ensures Rotated(i, limit, limit) == i
    ensures exists n | 0 <= n < limit :: Rotated(i, limit, n) == j
  {
    RotatedClosedForm(i, limit, limit);
    ModOf(i + limit, limit, 1, i);
    var m := (j - i) % limit;
    var q := (j - i) / limit;
    RotatedClosedForm(i, limit, m);
    ModOf(i + m, limit, -q, j);
    assert Rotated(i, limit, m) == j;
  }

  /** The entry with its receive cursor moved to `i` and nothing else changed. */
  function MovedCursor(w: WalletEntry, i: nat): (r: WalletEntry)
    requires w.XprvHd?
    ensures r.XprvHd? && r.receiveIndex == i
    ensures r.name == w.name && r.xprv == w.xprv && r.receiveLimit == w.receiveLimit && r.changeLimit == w.changeLimit
  {
    XprvHd(w.name, w.xprv, i, w.receiveLimit, w.changeLimit)
  }

  // ---------------------------------------------------------------------------------------
  // The wallet view
  // ---------------------------------------------------------------------------------------

  /** `refresh` followed by the view's `sortByColumn(0, AscendingOrder)`. */
  method RefreshSorted(model: UnspentModel, us: seq<Unspent>)
    modifies model
    ensures model.Valid() && multiset(model.unspents) == multiset(us)
    ensures SortedBy(model.unspents, UnspentSortKey(0), false)
    ensures SumSatoshi(model.unspents) == SumSatoshi(us)
  {
    model.Refresh(Some(us));
    var raised := model.Sort(0, false);
    SumSatoshiPermutation(us, model.unspents);
  }

  /** The title of the unspent page: "UTXO（n）" with full-width brackets, "UTXO" when empty. */
  function UnspentTitle(us: seq<Unspent>): (title: string)
    ensures us == [] <==> title == "UTXO"
    ensures us != [] ==> |title| > 6
    ensures us != [] ==> title[..5] == "UTXO（" && title[|title| - 1] == '）'
  {
    if us == [] then "UTXO" else "UTXO（" + NatToString(|us|) + "）"
  }

  /** The title of the token page: "Token（n）", "Token" when empty. */
  function FtTitle(fts: seq<TokenBalance>): (title: string)
    ensures fts == [] <==> title == "Token"
    ensures fts != [] ==> |title| > 7
    ensures fts != [] ==> title[..6] == "Token（" && title[|title| - 1] == '）'
  {
    if fts == [] then "Token" else "Token（" + NatToString(|fts|) + "）"
  }

  /** The count in the titles reads back as the number of rows. */
  lemma TitleCounts(us: seq<Unspent>, fts: seq<TokenBalance>)
    ensures us != [] ==> UnspentTitle(us)[5..|UnspentTitle(us)| - 1] == NatToString(|us|)
    ensures fts != [] ==> FtTitle(fts)[6..|FtTitle(fts)| - 1] == NatToString(|fts|)
    ensures us != [] ==> ParseInt(UnspentTitle(us)[5..|UnspentTitle(us)| - 1]) == Some(|us|)
  {
    ParseIntNatToString(|us|);
  }

  class WalletView {
    const lib: Library
    /** `w['xprv']`: the view is opened on an HD wallet stored with its xprv. */
    const xprv: string
    const accountIndex: int
    /** The token address: receive key 0, whose private key the token send signs with. */
    const ftAddress: string
    const unspentModel: UnspentModel
    const ftModel: FtModel
    /** `self.w`, whose receive cursor the view moves. */
    var entry: WalletEntry
    var receiveAddress: string
    var balance: nat
    var unspentTitle: string
    var unspentSendEnabled: bool
    var ftTitle: string
    var ftSendEnabled: bool

    predicate Valid()
      reads this, unspentModel, ftModel
    {
      entry.XprvHd? && entry.xprv == xprv
      && receiveAddress == ReceiveAddress(lib, xprv, entry.receiveIndex)
      && unspentModel.Valid() && ftModel.rows == FtRows(ftModel.fts)
    }

    constructor (lib: Library, w: WalletEntry, accountIndex: int)
      requires w.XprvHd?
      ensures Valid() && entry == w && this.lib == lib && this.accountIndex == accountIndex
      ensures ftAddress == lib.deriveChild(Xprv(w.xprv), 0, 0).address
      ensures unspentModel.unspents == [] && ftModel.fts == []
      ensures !unspentSendEnabled && !ftSendEnabled
    {
      this.lib := lib;
      xprv := w.xprv;
      this.accountIndex := accountIndex;
      ftAddress := ReceiveAddress(lib, w.xprv, 0);
      entry := w;
      receiveAddress := ReceiveAddress(lib, w.xprv, w.receiveIndex);
      unspentModel := new UnspentModel(None);
      ftModel := new FtModel();
      balance := 0;
      unspentTitle := "UTXO";
      unspentSendEnabled := false;
      ftTitle := "Token";
      ftSendEnabled := false;
    }

    /**
     * `unspent_address_change_button_clicked`: the cursor moves to the next receive key modulo
     * the limit, the address shown follows it, and the updated entry is emitted with the
     * view's account index. A limit of 0 raises before anything changes.
     */
    method ChangeReceiveAddress() returns (emitted: Option<(WalletEntry, int)>)
      requires Valid()
      modifies this`entry, this`receiveAddress
      ensures Valid()
      ensures emitted.None? <==> old(entry).receiveLimit == 0
      ensures emitted.None? ==> entry == old(entry)
      ensures emitted.Some? ==>
                entry == MovedCursor(old(entry), Rotated(old(entry).receiveIndex, old(entry).receiveLimit, 1))
                && entry.receiveIndex < entry.receiveLimit
                && emitted == Some((entry, accountIndex))
    {
      hide Rotated, ReceiveAddress, MovedCursor, UnspentModel.Valid, FtRows;
      var limit := entry.receiveLimit;
      if limit == 0 {
        return None;
      }
      RotatedOnce(entry.receiveIndex, limit);
      entry := MovedCursor(entry, (entry.receiveIndex + 1) % limit);
      receiveAddress := ReceiveAddress(lib, xprv, entry.receiveIndex);
      return Some((entry, accountIndex));
    }

    /**
     * `refresh_unspent_table_and_balance`: a list refreshes the table, sorted ascending by
     * height, and sets the balance to the total satoshi, the title to "UTXO（n）" ("UTXO" when
     * empty) and Send to whether there is any. None leaves all of that as it was. Either way
     * the network status emitted is whether a list came.
     */
    method RefreshUnspentTableAndBalance(given: Option<seq<Unspent>>) returns (networkUp: bool)
      requires Valid()
      modifies unspentModel, this`balance, this`unspentTitle, this`unspentSendEnabled
      ensures Valid() && networkUp == given.Some?
      ensures given.None? ==> unspentModel.unspents == old(unspentModel.unspents) && unspentModel.rows == old(unspentModel.rows)
                              && balance == old(balance) && unspentTitle == old(unspentTitle)
                              && unspentSendEnabled == old(unspentSendEnabled)
      ensures given.Some? ==> multiset(unspentModel.unspents) == multiset(given.value)
                              && SortedBy(unspentModel.unspents, UnspentSortKey(0), false)
      ensures given.Some? ==> balance == SumSatoshi(given.value) == SumSatoshi(unspentModel.unspents)
      ensures given.Some? ==> unspentTitle == UnspentTitle(given.value)
      ensures given.Some? ==> unspentSendEnabled == (given.value != [])
    {
      if given.Some? {
        RefreshSorted(unspentModel, given.value);
        ShowSummary(given.value);
      }
      networkUp := given.Some?;
    }

    /** The balance, the page title and the Send button for a list that came. */
    method ShowSummary(us: seq<Unspent>)
      modifies this`balance, this`unspentTitle, this`unspentSendEnabled
      ensures balance == SumSatoshi(us) && unspentTitle == UnspentTitle(us) && unspentSendEnabled == (us != [])
    {
      balance := SumSatoshi(us);
      unspentTitle := UnspentTitle(us);
      unspentSendEnabled := |us| > 0;
    }

    /**
     * `refresh_ft_table`: a list refreshes the token table, sorted ascending by symbol, and the
     * title becomes "Token（n）" ("Token" when empty); a token whose balance `int` cannot read
     * makes the slot raise before the network status is emitted. None only emits a failure.
     */
    method RefreshFtTable(given: Option<seq<TokenBalance>>) returns (networkUp: Option<bool>)
      requires Valid()
      modifies ftModel, this`ftTitle
      ensures Valid()
      ensures given.None? ==> networkUp == Some(false) && ftModel.fts == old(ftModel.fts) && ftTitle == old(ftTitle)
      ensures given.Some? ==> (networkUp.None? <==> !AllRows(given.value))
      ensures given.Some? && !AllRows(given.value) ==>
                ftModel.fts == given.value && ftModel.rows == FtRows(given.value) && ftTitle == old(ftTitle)
      ensures given.Some? && AllRows(given.value) ==>
                networkUp == Some(true) && multiset(ftModel.fts) == multiset(given.value)
                && SortedBy(ftModel.fts, FtSortKey(0), false)
                && ftTitle == FtTitle(given.value)
    {
      hide FtTitle, ReceiveAddress, UnspentModel.Valid, AllRows, SortedBy, FtRows;
      if given.Some? {
        var raised := ftModel.Refresh(given);
        if raised {
          return None;
        }
        raised := ftModel.Sort(0, false);
        AllRowsPermutation(given.value, ftModel.fts);
        ftTitle := FtTitle(given.value);
        return Some(true);
      }
      return Some(false);
    }

    /** `unspents_selected`: the held unspent of each distinct selected row, rows ascending. */
    method UnspentsSelected(selected: seq<nat>) returns (us: seq<Unspent>)
      requires Valid()
      requires forall k | 0 <= k < |selected| :: selected[k] < |unspentModel.rows|
      ensures us == Picked(unspentModel.unspents, DistinctRows(selected, |unspentModel.unspents|))
    {
      us := PickRows(unspentModel.unspents, DistinctRows(selected, |unspentModel.unspents|));
    }

    /**
     * `unspent_send_button_clicked`: the inputs are the rows picked by hand, combined, or all
     * held unspents when none is; the change goes to change key `changeIndex` on branch 1, a
     * number `random.randrange` draws below the change limit. A change limit of 0 makes
     * `randrange` raise: no request.
     */
    method UnspentSendButtonClicked(selected: seq<nat>, changeIndex: nat) returns (request: Option<SendRequest>)
      requires Valid()
      requires forall k | 0 <= k < |selected| :: selected[k] < |unspentModel.rows|
      requires entry.changeLimit > 0 ==> changeIndex < entry.changeLimit
      ensures request.None? <==> entry.changeLimit == 0
      ensures request.Some? ==> request.value.combine == (selected != [])
      ensures request.Some? && selected != [] ==>
                request.value.inputs == Picked(unspentModel.unspents, DistinctRows(selected, |unspentModel.unspents|))
      ensures request.Some? && selected == [] ==> request.value.inputs == unspentModel.unspents
      ensures request.Some? ==> forall u | u in request.value.inputs :: u in unspentModel.unspents
      ensures request.Some? ==> request.value.changeAddress == lib.deriveChild(Xprv(xprv), 1, changeIndex).address
    {
      var picked := UnspentsSelected(selected);
      PickedSelection(unspentModel.unspents, selected, selected);
      var combine := |picked| > 0;
      var inputs := if picked != [] then picked else unspentModel.unspents;
      if entry.changeLimit == 0 {
        return None;
      }
      var change := DeriveRange(lib, Xprv(xprv), changeIndex, changeIndex + 1, 1)[0].address;
      return Some(SendRequest(inputs, change, combine));
    }

    /** `fts_selected`: the token of each distinct selected row, rows ascending. */
    method FtsSelected(selected: seq<nat>) returns (fts: seq<TokenBalance>)
      requires Valid()
      requires forall k | 0 <= k < |selected| :: selected[k] < |ftModel.rows|
      ensures fts == Picked(ftModel.fts, DistinctRows(selected, |ftModel.fts|))
    {
      fts := PickRows(ftModel.fts, DistinctRows(selected, |ftModel.fts|));
    }

    /** `enable_ft_send_button`: enabled iff some token row is selected. */
    method EnableFtSendButton(selected: seq<nat>)
      requires Valid()
      requires forall k | 0 <= k < |selected| :: selected[k] < |ftModel.rows|
      modifies this`ftSendEnabled
      ensures ftSendEnabled == (selected != [])
    {
      var fts := FtsSelected(selected);
      ftSendEnabled := |fts| > 0;
    }
  }

  /** Reordering the tokens keeps every one of them readable. */
  lemma AllRowsPermutation(a: seq<TokenBalance>, b: seq<TokenBalance>)
    requires multiset(a) == multiset(b)
    ensures AllRows(a) <==> AllRows(b)
  {
    forall i | 0 <= i < |b|
      ensures b[i] in a
    {
      assert b[i] in multiset(b);
    }
    forall i | 0 <= i < |a|
      ensures a[i] in b
    {
      assert a[i] in multiset(a);
    }
  }
}

=== FILE: wrappers.dfy ===
/** Failure-compatible wrapper used wherever the source returns None or raises. */
module Wrappers {

  datatype Option<+T> = None | Some(value: T) {

    predicate IsFailure() {
      None?
    }

    function PropagateFailure<U>(): Option<U>
      requires None?
    {
      None
    }

    function Extract(): T
      requires Some?
    {
      value
    }
  }
}
